=== FILE: README.md ===
# filament-watchdog: the detect → alert → respond core in Dafny

This project models the security logic of the filament-watchdog Laravel
plugin as pure state transitions over an abstract store:

- **File integrity** (`FileIntegrity`, `ScanCommand`). This covers the
  baseline upsert, the forward change scan and the reverse "deleted" sweep
  over a path-keyed record map. The change scan exists twice in the
  source: `ScanFilesCommand` hard-codes sha256 and has no size limit, while
  `FileIntegrityService` uses the configured algorithm and skips files
  above `max_file_size`. The model keeps one transition with a `variant`
  field in its context.
- **Signature detection** (`Malware`). Only `.php` files are scanned. The
  configured signatures are tried in order and the first match wins. The
  module also models the threat-type risk table and the pure
  `getLineNumber`.
- **The alert sink** (`AlertService`). An alert is always persisted. Mail
  goes out only when both config flags hold, and a rate counter caps it;
  the counter's one-hour expiry restarts at every increment. Acknowledge
  and resolve stamp an alert whatever its status. `SecurityAlertModel`
  holds the model's query scopes and the severity colour.
- **Activity monitoring** (`Activity`). This covers the risk levels of
  every logged event, the suspicious-activity alert, and the brute-force
  escalation of repeated failed logins.
- **Emergency lockdown** (`Lockdown`, `LockdownCommand`). Activation is a
  sequence of independently fallible steps:
  1. maintenance mode with a derived bypass secret;
  2. an IP deny list;
  3. disabling non-admin users with a snapshot;
  4. clearing sessions;
  5. notifications.

  Deactivation restores the users and forgets the cache keys. The console
  command adds action validation, the already-active and not-active guards,
  confirmation, flag mapping and exit codes.
- **Small decision tables.** `Cleanup` covers the retention job.
  `ThreatLevel` covers the dashboard widget. `Navigation` covers the
  panel's navigation visibility.

Foreign computations are function-typed parameters:

- content hashing: `Ctx.hasher`;
- PCRE matching: `Malware.Matcher`;
- `filter_var` IPv6 detection: `isIpv6`.

The file system is a value. Its `files` map holds each file's content,
size and mtime, and `listings` gives each root's recursive walk in
iteration order. Time is an explicit `now: nat` in seconds. A cache entry
carries its expiry and is live while `now` is before it. The failures the
model covers are inputs:

- the failing step of a command;
- the recipients whose mail throws;
- the paths whose alert insert throws during a scan (`Ctx.alertThrows`);
- a `Faults` record for the lockdown steps;
- the exit code of `artisan down` / `artisan up`.

The failures that are not inputs are listed under "Left out".

Shared entities (alerts, activity logs, detections, users, sessions, risk
levels) live in `Domain`. Generic helpers live in `Wrappers`, `Strings`
and `Seqs`.

## Model

| member | source | states |
|---|---|---|
| FileIntegrity.IsExcluded | src/Commands/ScanFilesCommand.php:292-300 | a path is excluded iff some configured entry is a raw string prefix of it (no separator check) |
| FileIntegrity.ExclusionIsRawPrefix | src/Commands/ScanFilesCommand.php:292-300 | `.env` also excludes `.env.example`, and `vendor` excludes `vendor-tools/…`; a path under `app/` is not excluded |
| FileIntegrity.Listed | src/Services/FileIntegrityService.php:49-87 | the walked files are exactly the files under an existing root that are not excluded and, for the service, no larger than `max_file_size`; a missing root contributes nothing |
| FileIntegrity.CreateBaseline | src/Commands/ScanFilesCommand.php:302-323 | every walked file gets exactly one record (clean, no changes, current hash), records of other paths are untouched, and no alert is raised |
| FileIntegrity.BaselineIdempotent | src/Services/FileIntegrityService.php:97-110 | taking the baseline twice gives the same store as taking it once |
| FileIntegrity.CheckFile | src/Services/FileIntegrityService.php:89-185 | a file is reported iff it has no record (new) or its hash differs (modified, old/new hash and size kept); each report raises one medium alert, except in the command when that alert's insert throws and is swallowed; a service entry also carries the new file's size or the modification's `changes`, the same as the written record, while a command entry carries only status and path; an unchanged hash changes nothing |
| FileIntegrity.RaiseAlert | src/Commands/ScanFilesCommand.php:354-366 | exactly one alert is appended unless the command's alert insert for that path throws, in which case the sink is unchanged |
| FileIntegrity.AlertCountFull | src/Commands/ScanFilesCommand.php:187-204 | every reported path gets its alert iff no alert insert for them throws |
| FileIntegrity.ReappearedFiles | src/Services/FileIntegrityService.php:147-184 | a file marked deleted that comes back with the same content stays marked deleted; with other content it becomes modified |
| FileIntegrity.CheckFilesStore | src/Services/FileIntegrityService.php:36-46 | after a pass every visited path has a record carrying its current hash, no record is dropped, and unvisited records are untouched |
| FileIntegrity.CheckFilesReports | src/Services/FileIntegrityService.php:36-46 | a pass reports exactly the visited files that differed from the store at the start, each once, new iff it had no record, with the size or `changes` detail of that change (service only), and one alert per report whose insert does not throw |
| FileIntegrity.ScanForChanges | src/Services/FileIntegrityService.php:30-46 | the whole change scan over the monitored roots in root order has the store and report outcomes above, including each entry's size or `changes` field |
| FileIntegrity.NothingChangedNothingReported | src/Services/FileIntegrityService.php:147-184 | when no visited file differs from its record, a pass reports nothing and leaves store and alerts as they were |
| FileIntegrity.QuietAfterBaseline | src/Services/FileIntegrityService.php:15-46 | a change scan right after a baseline over the same files reports nothing |
| FileIntegrity.SweepDeletedSound | src/Commands/ScanFilesCommand.php:137-207 | the sweep marks deleted exactly the records that are clean/new/modified, not excluded, under a monitored root and missing on disk, keeping previous hash and size; every other record is unchanged; one alert per deleted file unless its insert throws (the marking stands) |
| FileIntegrity.SweepSparesExistingFiles | src/Commands/ScanFilesCommand.php:146-207 | a record whose file exists is never touched or reported by the sweep |
| FileIntegrity.StatusPartition | src/Services/FileIntegrityService.php:222-231 | the four status classes partition the store |
| FileIntegrity.GetFileStats | src/Services/FileIntegrityService.php:222-231 | the total is the number of records, each status figure is the number of records with that status, and the four add up to the total |
| FileIntegrity.SweepStats | src/Commands/ScanFilesCommand.php:137-207 | after the sweep the total is unchanged, the deleted figure grows by the number of records it marks, and the other three figures together shrink by that number |
| Malware.FirstMatch | src/Commands/ScanFilesCommand.php:431-476 | the chosen signature matches and none before it does; none is chosen iff no signature matches |
| Malware.FirstMatchUnique | src/Commands/ScanFilesCommand.php:431-476 | the first matching signature is the only answer FirstMatch gives |
| Malware.RiskOf | src/Commands/ScanFilesCommand.php:494-506 | critical iff the threat type is one of the four critical names, high iff one of the three high names, medium for every other name, never low |
| Malware.DefaultSignatureRisks | config/filament-watchdog.php:55-65 | the nine default signatures rate high, critical, critical, critical, medium, medium, high, high, critical (so `php_passthru` and `base64_decode` are medium) |
| Malware.LineNumber | src/Commands/ScanFilesCommand.php:479-492 | 0 for an empty (or "0") match; otherwise the 1-based number of the first line containing the match, or 0 iff no single line contains it |
| Malware.LineNumberOfJoinedLines | src/Commands/ScanFilesCommand.php:479-492 | for content built by joining newline-free lines, the result is one more than the index of the first line holding the match |
| Malware.MultiLineMatchHasNoLine | src/Commands/ScanFilesCommand.php:479-492 | a match spanning a newline never gets a line number |
| Malware.ScanFile | src/Commands/ScanFilesCommand.php:425-476 | a file yields a detection iff some signature matches; the detection carries the first matching signature, and one critical `malware_detected` alert is raised whatever its risk, unless its insert throws (the detection stands) |
| Malware.ScanFilesOutcome | src/Commands/ScanFilesCommand.php:240-249 | a pass detects exactly the visited `.php` files that some signature matches, appending one detection per hit and one critical `malware_detected` alert per hit whose insert does not throw, and nothing else |
| Malware.ScanForMalware | src/Commands/ScanFilesCommand.php:220-259 | disabled detection changes nothing; otherwise the pass outcome above holds over the command's walk |
| Malware.ShellAndCurlExecShadowed | config/filament-watchdog.php:55-65 | with the default order, content holding `shell_exec(` or `curl_exec(` is caught by an earlier signature (`php_system`/`php_exec`/`php_shell_exec`), never by a medium one |
| ScanCommand.Handle | src/Commands/ScanFilesCommand.php:18-53 | monitoring off without `--force` exits 1 and does nothing; `--baseline` only takes the baseline; otherwise changes, sweep and malware run in order and exit 1 iff a phase that runs throws; the change reports are exactly the walked files that differ from the store, the store then holds their current hashes, the sweep marks exactly the missing live records outside the walk, the detections are exactly the matching `.php` files, and every report gets one alert unless its insert throws |
| ScanCommand.SweepAfterScan | src/Commands/ScanFilesCommand.php:137-207 | after a change scan, the sweep marks deleted exactly the records that, as they stood before the scan, were clean/new/modified, not excluded, under a monitored root and missing on disk; every other record not visited by the scan keeps its pre-scan value |
| ScanCommand.BaselineThenScanFindsNoChanges | src/Commands/ScanFilesCommand.php:18-53 | a scan right after a successful `--baseline` run exits 0 and reports no changed file |
| ScanCommand.ChangedFilesAreNotDeleted | src/Commands/ScanFilesCommand.php:137-207 | a file reported new or modified in a run is never also reported deleted in it |
| AlertService.IncrementRateLimit | src/Services/AlertService.php:95-100 | the live counter grows by exactly one and its expiry moves to an hour from now; alerts and outbox are untouched |
| AlertService.CreateAlert | src/Services/AlertService.php:11-58 | exactly one alert with status new and the requested type, severity and metadata is appended; mail goes to every recipient once, in order, and the counter grows by one iff alerts and email are enabled and the sender is not rate limited; otherwise outbox and counter are unchanged |
| AlertService.BurstMailsFirstAlerts | src/Services/AlertService.php:82-100 | of a burst of alerts at one instant, all are persisted and exactly the first `max_alerts_per_hour − sent` of them (all of them without rate limiting) are mailed |
| AlertService.RateLimitWindowExpires | src/Services/AlertService.php:82-100 | once the counter has expired the next alert is mailed again and the counter restarts at one |
| AlertService.AcknowledgeAlert | src/Services/AlertService.php:102-116 | succeeds iff an alert with that id exists; an unknown id changes nothing; otherwise exactly that alert is stamped acknowledged with time and actor, whatever its status |
| AlertService.ResolveAlert | src/Services/AlertService.php:118-132 | succeeds iff an alert with that id exists; an unknown id changes nothing; otherwise exactly that alert is stamped resolved with time and actor, whatever its status |
| AlertService.AcknowledgeAfterResolveReopens | src/Services/AlertService.php:102-132 | acknowledging a resolved alert succeeds and turns it back to acknowledged, keeping the resolve stamp |
| AlertService.GetAlertStats | src/Services/AlertService.php:134-143 | the total is the table size; each other figure is the number of rows that are new, acknowledged, resolved, critical, or created within the last day; the three status figures never exceed the total |
| AlertService.CreateAlertStats | src/Services/AlertService.php:18-31 | creating an alert raises total, new and recent by one and critical by one iff it is critical, leaving acknowledged and resolved as they were |
| AlertService.StatusCountsBounded | src/Services/AlertService.php:134-143 | new + acknowledged + resolved never exceeds the number of alerts |
| SecurityAlertModel.Unresolved | src/Models/SecurityAlert.php:29-32 | selects exactly the alerts whose status is new or acknowledged |
| SecurityAlertModel.CriticalAlerts | src/Models/SecurityAlert.php:34-37 | selects exactly the critical alerts |
| SecurityAlertModel.Recent | src/Models/SecurityAlert.php:39-42 | selects exactly the alerts created at most one day ago, boundary included |
| SecurityAlertModel.UnresolvedPartition | src/Models/SecurityAlert.php:29-32 | unresolved alerts plus resolved and false-positive alerts account for every alert |
| SecurityAlertModel.AcknowledgeAndResolveScopes | src/Models/SecurityAlert.php:29-32 | an acknowledged alert is in the unresolved scope and a resolved one is not |
| SecurityAlertModel.SeverityColor | src/Models/SecurityAlert.php:44-53 | the colour is `secondary` iff the severity is none of critical/high/medium/low |
| SecurityAlertModel.SeverityColorOfLevels | src/Models/SecurityAlert.php:44-53 | critical→danger, high→warning, medium→info, low→success, and distinct levels get distinct colours |
| Activity.LogActivity | src/Services/ActivityMonitoringService.php:15-40 | exactly one log row is appended; a `suspicious_activity` alert of that severity is raised iff the risk is high or critical, otherwise the sink is unchanged |
| Activity.FailedLoginRisk | src/Services/ActivityMonitoringService.php:46-58 | a failed login is high iff the prior failures from the IP in the last hour reach the threshold, medium otherwise |
| Activity.LogFailedLogin | src/Services/ActivityMonitoringService.php:43-69 | the row records `attempt_count` = prior + 1 and its risk; the recent-failure count grows by one; two alerts (suspicious high, brute-force critical) are raised iff prior ≥ threshold, none otherwise |
| Activity.FailedLogins | src/Services/ActivityMonitoringService.php:43-69 | n failed logins from one IP add n rows and n recent failures, and two alerts for each login past the threshold |
| Activity.EscalatedClosedForm | src/Services/ActivityMonitoringService.php:46-58 | the number of escalating logins in a burst is n once past the threshold, otherwise max(0, prior + n − threshold) |
| Activity.BurstFromCleanSlate | src/Services/ActivityMonitoringService.php:43-69 | from no recent failures, n failed logins raise no alert up to the threshold and 2·(n − threshold) alerts beyond it |
| Activity.LogSuccessfulLogin | src/Services/ActivityMonitoringService.php:72-78 | a successful login is logged as low risk and never raises an alert |
| Activity.LogAdminAction | src/Services/ActivityMonitoringService.php:80-86 | an admin action is logged as medium risk with its details kept, and never raises an alert |
| Activity.FileChangeRisk | src/Services/ActivityMonitoringService.php:88-96 | medium iff the change type is `deleted` or `modified`, low otherwise |
| Activity.LogFileChange | src/Services/ActivityMonitoringService.php:88-96 | a file change is logged at that risk and never raises an alert |
| Activity.DatabaseChangeRisk | src/Services/ActivityMonitoringService.php:98-107 | high iff the upper-cased operation is DROP, TRUNCATE or DELETE, medium otherwise |
| Activity.DatabaseRiskIgnoresCase | src/Services/ActivityMonitoringService.php:100-101 | the risk of an operation equals the risk of its upper-cased spelling |
| Activity.SensitiveSpellingsAreHigh | src/Services/ActivityMonitoringService.php:100-101 | an operation is high risk iff it spells DROP, TRUNCATE or DELETE in some mix of cases |
| Activity.LogDatabaseChange | src/Services/ActivityMonitoringService.php:98-107 | one row at that risk; exactly one alert iff the operation is destructive |
| Cleanup.RetentionDays | src/Commands/CleanupLogsCommand.php:18-20 | a nonzero `--days` wins; otherwise the configured value, or 30 when none is configured |
| Cleanup.PurgeActivity | src/Commands/CleanupLogsCommand.php:32 | keeps exactly the activity rows created at or after the cutoff |
| Cleanup.PurgeIntegrity | src/Commands/CleanupLogsCommand.php:33-35 | deletes exactly the integrity records older than the cutoff whose status is not modified; kept records are unchanged |
| Cleanup.PurgeDetections | src/Commands/CleanupLogsCommand.php:36-38 | deletes exactly the detections that are both old and cleaned |
| Cleanup.PurgeAlerts | src/Commands/CleanupLogsCommand.php:39-41 | deletes exactly the alerts that are both old and resolved |
| Cleanup.Handle | src/Commands/CleanupLogsCommand.php:16-54 | declining deletes nothing and exits 0; otherwise all four tables are pruned, the deleted counts plus the survivors equal the old sizes, and exit 0; a throwing delete exits 1, with the earlier tables pruned and it and later ones untouched |
| Cleanup.OpenWorkSurvives | src/Commands/CleanupLogsCommand.php:32-53 | unresolved alerts, uncleaned detections, modified records and every row at or after the cutoff survive any run |
| Cleanup.CleanupIdempotent | src/Commands/CleanupLogsCommand.php:32-41 | pruning twice with the same cutoff equals pruning once |
| ThreatLevel.ViewData | src/Widgets/ThreatLevelWidget.php:15-56 | critical iff a new critical alert or malware in the last day; high iff not critical and a new high alert; medium iff neither and some alert is new; low iff no new alert and no recent malware; label and colour follow the level; the three counts handed over are the numbers of new critical alerts, new high alerts and detected malware rows of the last day |
| ThreatLevel.MoreFindingsNeverLower | src/Widgets/ThreatLevelWidget.php:31-43 | adding an alert or a detection never lowers the level |
| ThreatLevel.ResolvingNeverRaises | src/Widgets/ThreatLevelWidget.php:31-43 | resolving an alert never raises the level |
| Navigation.IsOnAnySecurityPage | src/Traits/ConfiguresWatchdogNavigation.php:81-103 | true iff one of the eight security route tokens occurs in the route name |
| Navigation.DashboardIsSecurityPage | src/Traits/ConfiguresWatchdogNavigation.php:81-103 | the dashboard route counts as a security page |
| Navigation.ShouldRegisterNavigation | src/Traits/ConfiguresWatchdogNavigation.php:18-44 | hidden never registers; with only-on-security-pages, registers iff on the dashboard; otherwise `always` registers, `conditional` registers iff on a security page, any other value never |
| Navigation.DashboardShowsVisiblePages | src/Traits/ConfiguresWatchdogNavigation.php:18-44 | on the dashboard, a visible page with visibility `always` or the default registers |
| Navigation.ShouldAnySecurityPageRegister | src/Traits/ConfiguresWatchdogNavigation.php:51-67 | registers iff not hidden and the route is the dashboard |
| Navigation.AnySecurityPageIgnoresOnlyFlag | src/Traits/ConfiguresWatchdogNavigation.php:51-67 | both branches of the only-on-security-pages flag give the same answer, which is the page rule with that flag set |
| Navigation.NavigationGroup | src/Traits/ConfiguresWatchdogNavigation.php:108-112 | no group iff hidden, otherwise `Security` |
| Navigation.NavigationSort | src/Traits/ConfiguresWatchdogNavigation.php:120-131 | the configured sort (100 when absent) plus the page's default offset |
| Navigation.SortOffsetsPreserveOrder | src/Traits/ConfiguresWatchdogNavigation.php:120-131 | whatever the configured sort, pages keep the order of their default offsets |
| Lockdown.SecretFor | src/Services/EmergencyLockdownService.php:123 | the secret is `admin_` followed by the last (up to) eight characters of the lockdown id, and is never falsy |
| Lockdown.EventIps | src/Services/EmergencyLockdownService.php:537-548 | the plucked addresses are exactly those with at least one event of that kind in the last 24 hours |
| Lockdown.RepeatOffenders | src/Services/EmergencyLockdownService.php:537-543 | an address is listed iff it has at least three failed logins in the last 24 hours |
| Lockdown.SuspiciousIps | src/Services/EmergencyLockdownService.php:537-551 | exactly the addresses with ≥ 3 failed logins or a high/critical event in 24 hours, without duplicates |
| Lockdown.BlockRuleQuoting | src/Services/EmergencyLockdownService.php:575-581 | an IPv6 rule quotes the address and an IPv4 rule does not; each ends with the `Require not ip` directive naming it |
| Lockdown.BlockEach | src/Services/EmergencyLockdownService.php:552-557 | the blocked addresses are exactly the listed ones that are non-empty, not the caller's and whose append succeeded; one rule is appended per blocked address |
| Lockdown.BlockSuspiciousIps | src/Services/EmergencyLockdownService.php:531-564 | a failing query blocks nothing; otherwise the suspicious addresses minus empty, the caller's and failed appends are blocked, without duplicates, never the caller's own |
| Lockdown.DisableTargets | src/Services/EmergencyLockdownService.php:595-610 | selects exactly the active users whose email is neither the caller's nor an admin address |
| Lockdown.DisableRows | src/Services/EmergencyLockdownService.php:611-618 | exactly the targets become inactive with the lockdown reason; every other row is unchanged; every user left active is exempt |
| Lockdown.DisableNonAdminUsers | src/Services/EmergencyLockdownService.php:595-626 | a failure changes nothing and reports 0; otherwise the snapshot is exactly the targets, cached for seven days, they are disabled and their number reported |
| Lockdown.ClearUserSessions | src/Services/EmergencyLockdownService.php:631-646 | exactly the caller's sessions remain, success is reported even when nothing was deleted, and a failure leaves the table |
| Lockdown.RestoreDisabledUsers | src/Services/EmergencyLockdownService.php:1140-1161 | every row whose id is in the snapshot becomes active with no reason, the others are untouched, and the count is the snapshot size |
| Lockdown.RestoreDisabledUsersAsWritten | src/Services/EmergencyLockdownService.php:1140-1161 | as written, a restore completes iff the snapshot is empty; any non-empty snapshot aborts it |
| Lockdown.DisableThenRestore | src/Services/EmergencyLockdownService.php:595-626 | disabling and then restoring from the snapshot gives every user back its active flag, id and email |
| Lockdown.EnableMaintenanceMode | src/Services/EmergencyLockdownService.php:120-153 | the secret is cached for a day even when `artisan down` fails; the step succeeds iff `down` exited 0, a failure to publish the view being swallowed; nothing else changes |
| Lockdown.RunSteps | src/Services/EmergencyLockdownService.php:48-112 | each step runs iff its option says so (user disabling off by default, the rest on), a failing step does not stop later ones, maintenance_mode records whether `artisan down` exited with 0, blocked_ips is what the IP blocking returned (empty when its query throws), the notification count is the number of email recipients, and the active flag is cached for a day |
| Lockdown.Activate | src/Services/EmergencyLockdownService.php:21-115 | a failing opening alert gives status failed and changes nothing; otherwise one critical lockdown alert is raised, the steps run and the lockdown is active |
| Lockdown.GetEmergencyAccessUrl | src/Services/EmergencyLockdownService.php:984-993 | a URL is offered iff a live, non-empty secret is cached, and it is the base URL followed by the secret |
| Lockdown.GetEmergencyAccessInfo | src/Services/EmergencyLockdownService.php:998-1028 | access details are available iff the URL is; they carry the secret, the primary URL `root/secret`, the alternatives `root?secret=secret` and `root/index.php/secret`, the `artisan up --secret=` command and the lockdown info |
| Lockdown.Deactivate | src/Services/EmergencyLockdownService.php:916-962 | snapshot users are restored, the three cache keys are forgotten so the lockdown is inactive and no access is offered, one high alert is raised, and only that alert's failure turns the status to failed |
| Lockdown.DeactivateAsWritten | src/Services/EmergencyLockdownService.php:923-951 | as written, deactivation aborts with the state unchanged iff the live snapshot is non-empty; otherwise it equals the corrected one |
| Lockdown.ActivationOffersAccess | src/Services/EmergencyLockdownService.php:984-1028 | for a day after an activation with maintenance mode, the lockdown is active and the access URL is built from `admin_` plus the id's tail |
| Lockdown.LockdownRoundTripRestoresUsers | src/Services/EmergencyLockdownService.php:1140-1161 | activating with user disabling and then deactivating within the snapshot's lifetime leaves no lockdown and every user with its original active flag |
| Lockdown.DeactivationAsWrittenStrandsUsers | src/Services/EmergencyLockdownService.php:1140-1161 | as written, once any user was disabled, deactivation aborts: the lockdown stays active and that user stays disabled |
| LockdownCommand.OptionsFrom | src/Commands/EmergencyLockdownCommand.php:62-70 | every option key is present, each the PHP boolean cast of its flag (false only for `""` and `"0"`) |
| LockdownCommand.DefaultFlagsSameActivation | src/Commands/EmergencyLockdownCommand.php:10-19 | running with the default flags reports exactly what the service reports with no options at all |
| LockdownCommand.Handle | src/Commands/EmergencyLockdownCommand.php:23-123 | an unknown action exits 1 untouched; activating an active lockdown, deactivating an inactive one or declining exits 0 untouched; the service is called iff none of these holds; exit 1 iff the action is unknown or the service reports failure (deactivation with the restore corrected) |
| LockdownCommand.SecondActivationIsRefused | src/Commands/EmergencyLockdownCommand.php:41-52 | within a day of a successful activation, a second activation exits 0 and touches nothing |
| LockdownCommand.ActivateThenDeactivate | src/Commands/EmergencyLockdownCommand.php:99-122 | with the restore corrected, a forced activation followed by a forced deactivation both exit 0 and leave no lockdown |

## Left out

- Lockdown.Url: Laravel's URL generator is modelled only for the paths the service passes it, on a root without a trailing slash; its slash trimming and encoding of other paths are not modelled.

- Hashing (`hash_file`), PCRE matching, `filter_var` and directory iteration are parameters, not implementations.
- `quarantineFile` (src/Services/FileIntegrityService.php:197-220) is not modelled: it only moves a file.
- `getRecentActivity` and `getActivityStats` are not modelled: they are read-only display queries.
- `getLockdownStatus` is not modelled: it only formats cached values for display.
- Running `artisan down` and `artisan up` is modelled only by its exit code.
- Mail content is not modelled. `buildEmailContent`, `buildLockdownEmailContent` and `sendLockdownNotification` appear only as deliveries and counts.
- `createEmergencyHtaccess`, `createEmergencyBackup`, `recursiveCopy` and `cleanupEmergencyHtaccess` are modelled only as a success flag. They write advisory whitelist, status and backup files that nothing reads back.
- `ensureEmergencyViewExists`, `publishEmergencyView`, the page template and every Blade view are not modelled. A failure to publish the view is caught inside `ensureEmergencyViewExists`, so it does not affect the step.
- `getRealIpAddress` is not modelled: the caller's address is an input.
- The dead helpers `validateHtaccessSyntax` and `isModEvasiveAvailable` are never called, so they are not modelled.
- The Filament pages, resources, plugin, service provider, the other widgets, `DebugCommand`, `CreateBaselineCommand` and `PublishViewsCommand` are not modelled: they only render, query counts or delegate.
- The disabled-reason date format is not modelled: it is an input string.
- Cache TTLs are expiry stamps compared with `now`. The scheduler and wall-clock mechanics are not modelled.
- Concurrency is not modelled, including overlapping scans and the non-atomic check-then-activate in the lockdown command.
- The deny rules appended to `public/.htaccess` by `blockIPAddress` are never removed in the source. The model keeps them after deactivation as well.
- Lockdown.DisableNonAdminUsers: a failure between taking the snapshot and updating the rows is modelled as the whole step failing with nothing changed.
- Lockdown.Deactivate: a partial failure inside the restore loop is not modelled.
- LockdownCommand.Handle: deactivation uses the corrected restore (see Findings). As written, a non-empty snapshot makes the restore raise an `Error` that escapes `handle` (src/Commands/EmergencyLockdownCommand.php:111), so the command ends in an uncaught error instead of exit 0 or 1; `Lockdown.DeactivateAsWritten` models that service behaviour.
- FileIntegrity.ScanForChanges: the service's `catch` around a whole root walk (src/Services/FileIntegrityService.php:57-84) is not modelled. There an alert insert that throws ends that root's walk, keeps the changes already written and moves on to the next root. The model's service walk never throws, and `Ctx.alertThrows` applies only to the command.
- ScanCommand.Handle: an exception is modelled only per phase. Partial progress inside a phase that throws is not modelled; the phase's writes are dropped.
- Activity.LogActivity: the risk is one of the four levels. The source accepts any string there, but no caller passes anything else.
- Paths are compared as given. Path normalisation and base-path stripping are not modelled.

## Findings

| source | as written | input that shows it | evidently intended | confidence | as-written member | corrected member |
|---|---|---|---|---|---|---|
| src/Services/EmergencyLockdownService.php:1140-1161 | the snapshot cached by `disableNonAdminUsers` holds query-builder rows, which are objects; `$user['id']` on them raises an `Error`, which is not an `\Exception`, so it escapes both `catch` blocks of `deactivateEmergencyLockdown` after `artisan up` has run: no user is restored, the active flag, secret and snapshot stay cached, and no alert is raised | activate with `disable_users` on while at least one active user is neither the caller nor an admin address, then deactivate | every snapshot user is re-enabled, the three cache keys are forgotten and the deactivation alert is raised | not executed | Lockdown.DeactivationAsWrittenStrandsUsers | Lockdown.LockdownRoundTripRestoresUsers |

=== FILE: activity.dfy ===
/** Activity monitoring (`ActivityMonitoringService`): every event is
    logged with a risk level, and high or critical events raise a
    `suspicious_activity` alert. Failed logins escalate to high once the
    same address has failed often enough within the last hour, and then
    also raise a critical `brute_force_attempt` alert. The request (user,
    address, agent, session) is a parameter. */
module Activity {
  import opened Domain
  import opened Strings
  import opened Seqs
  import AlertService

  /** What the current request supplies to a log row. */
  datatype Request = Request(userId: Option<string>, ip: string, userAgent: Option<string>, sessionId: string)

  /** The activity log (ids handed out by auto-increment) and the alert
      sink. */
  datatype ActivityState = ActivityState(logs: seq<ActivityLog>, nextLogId: nat, sink: AlertService.Sink)

  /** Everything a logging call works with besides the state. */
  datatype Env = Env(alerts: AlertService.AlertConfig, threshold: int, req: Request, now: nat, failing: set<string>)

  import opened Wrappers

  function SuspiciousRequest(eventType: string, risk: Level, logId: nat, details: Details): AlertService.AlertRequest {
    AlertService.AlertRequest("suspicious_activity", "Suspicious Activity Detected",
                              "High-risk activity detected: " + eventType, risk, ActivityMeta(logId, details))
  }

  /** `logActivity`: one row is always appended, stamped with the request
      and the current time; a high or critical risk also raises a
      `suspicious_activity` alert of that severity pointing at the row,
      and any lower risk raises nothing. */
  function LogActivity(e: Env, st: ActivityState, eventType: string, details: Details, risk: Level): (r: ActivityState)
    ensures r.logs == st.logs + [ActivityLog(st.nextLogId, eventType, e.req.userId, e.req.ip, e.req.userAgent,
                                             details, risk, e.req.sessionId, e.now)]
    ensures r.nextLogId == st.nextLogId + 1
    ensures IsHighRisk(risk) ==>
      r.sink == AlertService.CreateAlert(e.alerts, st.sink, SuspiciousRequest(eventType, risk, st.nextLogId, details),
                                         e.now, e.failing)
    ensures !IsHighRisk(risk) ==> r.sink == st.sink
  {
    var log := ActivityLog(st.nextLogId, eventType, e.req.userId, e.req.ip, e.req.userAgent,
                           details, risk, e.req.sessionId, e.now);
    var sink := if IsHighRisk(risk)
      then AlertService.CreateAlert(e.alerts, st.sink, SuspiciousRequest(eventType, risk, st.nextLogId, details),
                                    e.now, e.failing)
      else st.sink;
    ActivityState(st.logs + [log], st.nextLogId + 1, sink)
  }

  /** A row that counts towards the brute-force threshold for `ip` at
      `now`: a failed login from that address created within the last
      hour (inclusive). */
  predicate IsRecentFailure(l: ActivityLog, ip: string, now: nat) {
    l.ipAddress == ip && l.eventType == "failed_login" && l.createdAt as int >= now as int - Hour as int
  }

  function RecentFailureFrom(ip: string, now: nat): ActivityLog -> bool {
    l => IsRecentFailure(l, ip, now)
  }

  /** How many earlier failed logins from `ip` fall in the last hour. */
  function RecentFailures(logs: seq<ActivityLog>, ip: string, now: nat): nat {
    Count(logs, RecentFailureFrom(ip, now))
  }

  function BruteForceRequest(ip: string, attempts: nat): AlertService.AlertRequest {
    AlertService.AlertRequest("brute_force_attempt", "Brute Force Attack Detected",
                              "Multiple failed login attempts from IP: " + ip, Critical, BruteForceMeta(ip, attempts))
  }

  /** The risk of a failed login after `prior` recent failures. */
  function FailedLoginRisk(prior: nat, threshold: int): (r: Level)
    ensures r == High <==> prior >= threshold
    ensures r == Medium <==> prior < threshold
  {
    if prior >= threshold then High else Medium
  }

  /** `logFailedLogin`: the row records the attempt number (earlier recent
      failures from the address, plus one); the attempt is high once the
      earlier failures reach the threshold, and then raises a high
      `suspicious_activity` alert followed by a critical
      `brute_force_attempt` alert; otherwise it is medium and raises
      nothing. */
  function LogFailedLogin(e: Env, st: ActivityState, email: string, reason: string): (r: ActivityState)
    ensures |r.logs| == |st.logs| + 1 && r.logs[..|st.logs|] == st.logs
    ensures var prior := RecentFailures(st.logs, e.req.ip, e.now);
      var log := r.logs[|st.logs|];
      && log.eventType == "failed_login" && log.ipAddress == e.req.ip && log.createdAt == e.now
      && "attempt_count" in log.details && log.details["attempt_count"] == Int(prior + 1)
      && (log.riskLevel == High <==> prior >= e.threshold)
      && (log.riskLevel == Medium <==> prior < e.threshold)
    ensures RecentFailures(r.logs, e.req.ip, e.now) == RecentFailures(st.logs, e.req.ip, e.now) + 1
    ensures |r.sink.alerts| == |st.sink.alerts| + if RecentFailures(st.logs, e.req.ip, e.now) >= e.threshold then 2 else 0
    ensures RecentFailures(st.logs, e.req.ip, e.now) >= e.threshold ==>
      && r.sink.alerts[|st.sink.alerts|].alertType == "suspicious_activity"
      && r.sink.alerts[|st.sink.alerts|].severity == High
      && r.sink.alerts[|st.sink.alerts| + 1].alertType == "brute_force_attempt"
      && r.sink.alerts[|st.sink.alerts| + 1].severity == Critical
  {
    var prior := RecentFailures(st.logs, e.req.ip, e.now);
    var risk := FailedLoginRisk(prior, e.threshold);
    var details := map["email" := Str(email), "reason" := Str(reason), "attempt_count" := Int(prior + 1)];
    var st1 := LogActivity(e, st, "failed_login", details, risk);
    var log := st1.logs[|st.logs|];
    assert st1.logs == st.logs + [log];
    FailedRowCounts(st.logs, log, e.req.ip, e.now);
    assert st1.logs[..|st.logs|] == st.logs;
    if risk == High then
      var sink := AlertService.CreateAlert(e.alerts, st1.sink, BruteForceRequest(e.req.ip, prior + 1), e.now, e.failing);
      assert sink.alerts[|st.sink.alerts|] == st1.sink.alerts[|st.sink.alerts|];
      st1.(sink := sink)
    else st1
  }

  /** A failed login from `ip` logged at `now` adds one recent failure. */
  lemma FailedRowCounts(logs: seq<ActivityLog>, log: ActivityLog, ip: string, now: nat)
    requires log.ipAddress == ip && log.eventType == "failed_login" && log.createdAt == now
    ensures RecentFailures(logs + [log], ip, now) == RecentFailures(logs, ip, now) + 1
  {
    CountConcat(logs, [log], RecentFailureFrom(ip, now));
    assert RecentFailureFrom(ip, now)(log);
    assert Count([log], RecentFailureFrom(ip, now)) == 1;
  }

  /** How many of `n` failed logins in a row, the first after `prior`
      recent failures, reach the threshold. */
  function Escalated(prior: nat, threshold: int, n: nat): nat
    decreases n
  {
    if n == 0 then 0
    else (if prior >= threshold then 1 else 0) + Escalated(prior + 1, threshold, n - 1)
  }

  /** The counts a burst of `n` failed logins changes, from `st` to `r`. */
  predicate BurstFacts(e: Env, st: ActivityState, r: ActivityState, n: nat) {
    var prior := RecentFailures(st.logs, e.req.ip, e.now);
    && RecentFailures(r.logs, e.req.ip, e.now) == prior + n
    && |r.logs| == |st.logs| + n
    && |r.sink.alerts| == |st.sink.alerts| + 2 * Escalated(prior, e.threshold, n)
  }

  /** One failed login, as counts. */
  lemma FailedLoginStep(e: Env, st: ActivityState, email: string, reason: string)
    ensures BurstFacts(e, st, LogFailedLogin(e, st, email, reason), 1)
  {
    var prior := RecentFailures(st.logs, e.req.ip, e.now);
    assert Escalated(prior, e.threshold, 1) == if prior >= e.threshold then 1 else 0;
  }

  /** Chaining two bursts: the escalations of the second start from the
      count the first left. */
  lemma BurstChain(e: Env, st: ActivityState, st1: ActivityState, r: ActivityState, n: nat)
    requires n > 0
    requires BurstFacts(e, st, st1, 1) && BurstFacts(e, st1, r, n - 1)
    ensures BurstFacts(e, st, r, n)
  {
  }

  /** `n` failed logins from the same request at one instant: the
      recent-failure count grows by one per attempt, and exactly the
      attempts made once the count has reached the threshold raise
      alerts, two each. */
  function FailedLogins(e: Env, st: ActivityState, email: string, reason: string, n: nat): (r: ActivityState)
    ensures BurstFacts(e, st, r, n)
    decreases n
  {
    if n == 0 then st
    else
      var st1 := LogFailedLogin(e, st, email, reason);
      FailedLoginStep(e, st, email, reason);
      var r := FailedLogins(e, st1, email, reason, n - 1);
      BurstChain(e, st, st1, r, n);
      r
  }

  /** Closed form of the escalation count: from `prior` recent failures,
      the attempts up to the threshold stay quiet and every later one
      escalates. */
  lemma {:induction false} EscalatedClosedForm(prior: nat, threshold: int, n: nat)
    ensures prior >= threshold ==> Escalated(prior, threshold, n) == n
    ensures prior < threshold ==>
      Escalated(prior, threshold, n) == if prior + n <= threshold then 0 else prior + n - threshold
    decreases n
  {
    if n > 0 {
      EscalatedClosedForm(prior + 1, threshold, n - 1);
    }
  }

  /** A burst of `n` failed logins starting from a clean slate raises
      `2 * (n - threshold)` alerts once `n` exceeds the threshold, and
      none before. */
  lemma BurstFromCleanSlate(e: Env, st: ActivityState, email: string, reason: string, n: nat)
    requires RecentFailures(st.logs, e.req.ip, e.now) == 0 && e.threshold >= 0
    ensures var r := FailedLogins(e, st, email, reason, n);
      && RecentFailures(r.logs, e.req.ip, e.now) == n
      && |r.sink.alerts| == |st.sink.alerts| + (if n <= e.threshold then 0 else 2 * (n - e.threshold))
  {
    EscalatedClosedForm(0, e.threshold, n);
  }

  /** `logSuccessfulLogin`: a low-risk row, never an alert. */
  function LogSuccessfulLogin(e: Env, st: ActivityState, email: string): (r: ActivityState)
    ensures |r.logs| == |st.logs| + 1 && r.logs[|st.logs|].riskLevel == Low
    ensures r.logs[|st.logs|].eventType == "successful_login"
    ensures r.sink == st.sink
  {
    var agent := if e.req.userAgent.Some? then Str(e.req.userAgent.value) else Null;
    LogActivity(e, st, "successful_login", map["email" := Str(email), "user_agent" := agent], Low)
  }

  /** `logAdminAction`: a medium-risk row, never an alert; keys of
      `details` override the action and user entries (`array_merge`). */
  function LogAdminAction(e: Env, st: ActivityState, action: string, details: Details): (r: ActivityState)
    ensures |r.logs| == |st.logs| + 1 && r.logs[|st.logs|].riskLevel == Medium
    ensures r.logs[|st.logs|].eventType == "admin_action"
    ensures forall k :: k in details ==> k in r.logs[|st.logs|].details && r.logs[|st.logs|].details[k] == details[k]
    ensures r.sink == st.sink
  {
    var user := if e.req.userId.Some? then Str(e.req.userId.value) else Null;
    LogActivity(e, st, "admin_action", map["action" := Str(action), "user_id" := user] + details, Medium)
  }

  /** The risk of a file change: medium for deletions and modifications,
      low for every other change type. */
  function FileChangeRisk(changeType: string): (r: Level)
    ensures r == Medium <==> changeType == "deleted" || changeType == "modified"
    ensures r == Low <==> changeType != "deleted" && changeType != "modified"
  {
    if changeType in ["deleted", "modified"] then Medium else Low
  }

  /** `logFileChange`: one row, and never an alert, since neither file
      change risk is high. */
  function LogFileChange(e: Env, st: ActivityState, path: string, changeType: string, details: Details): (r: ActivityState)
    ensures |r.logs| == |st.logs| + 1
    ensures r.logs[|st.logs|].riskLevel == FileChangeRisk(changeType)
    ensures r.logs[|st.logs|].eventType == "file_change"
    ensures r.sink == st.sink
  {
    LogActivity(e, st, "file_change", map["file_path" := Str(path), "change_type" := Str(changeType)] + details,
                FileChangeRisk(changeType))
  }

  const SensitiveOperations: seq<string> := ["DROP", "TRUNCATE", "DELETE"]

  /** The risk of a database change: high when the upper-cased operation
      is DROP, TRUNCATE or DELETE, medium otherwise. */
  function DatabaseChangeRisk(operation: string): (r: Level)
    ensures r == High <==> ToUpper(operation) in SensitiveOperations
    ensures r == Medium <==> ToUpper(operation) !in SensitiveOperations
  {
    if ToUpper(operation) in SensitiveOperations then High else Medium
  }

  lemma ToUpperIdempotent(s: string)
    ensures ToUpper(ToUpper(s)) == ToUpper(s)
  {
    var u := ToUpper(s);
    forall k | 0 <= k < |s| ensures ToUpper(u)[k] == u[k] {
      assert u[k] == UpperChar(s[k]);
    }
  }

  /** The comparison ignores case: an operation is as risky as its
      upper-case spelling, so `drop` and `Delete` are high. */
  lemma DatabaseRiskIgnoresCase(operation: string)
    ensures DatabaseChangeRisk(operation) == DatabaseChangeRisk(ToUpper(operation))
  {
    ToUpperIdempotent(operation);
  }

  /** `op` spells `word` in any mix of cases: the two agree letter by
      letter once `op`'s ASCII lower-case letters are raised. */
  predicate SpellsIgnoringCase(op: string, word: string) {
    |op| == |word| && forall i :: 0 <= i < |op| ==> UpperChar(op[i]) == word[i]
  }

  /** An operation is high risk exactly when it spells DROP, TRUNCATE or
      DELETE in some mix of cases (`drop`, `Truncate`, `dElEtE`, ...). */
  lemma SensitiveSpellingsAreHigh(operation: string)
    ensures DatabaseChangeRisk(operation) == High
      <==> exists k :: 0 <= k < |SensitiveOperations| && SpellsIgnoringCase(operation, SensitiveOperations[k])
  {
    forall k | 0 <= k < |SensitiveOperations|
      ensures ToUpper(operation) == SensitiveOperations[k] <==> SpellsIgnoringCase(operation, SensitiveOperations[k])
    {
      var w := SensitiveOperations[k];
      if SpellsIgnoringCase(operation, w) {
        assert forall i :: 0 <= i < |w| ==> ToUpper(operation)[i] == w[i];
      }
    }
  }

  /** `logDatabaseChange`: one row; a suspicious-activity alert exactly
      for the sensitive operations. */
  function LogDatabaseChange(e: Env, st: ActivityState, table: string, operation: string, details: Details): (r: ActivityState)
    ensures |r.logs| == |st.logs| + 1
    ensures r.logs[|st.logs|].riskLevel == DatabaseChangeRisk(operation)
    ensures |r.sink.alerts| == |st.sink.alerts| + if ToUpper(operation) in SensitiveOperations then 1 else 0
  {
    LogActivity(e, st, "database_change", map["table" := Str(table), "operation" := Str(operation)] + details,
                DatabaseChangeRisk(operation))
  }
}

=== FILE: alert_service.dfy ===
/** The alert sink (`AlertService`): every `createAlert` persists a row;
    email notification is gated by two configuration flags and by an
    hourly counter kept in the cache under `watchdog_alerts_sent`. */
module AlertService {
  import opened Wrappers
  import opened Domain
  import opened Seqs

  /** The `alerts` configuration block. */
  datatype AlertConfig = AlertConfig(
    enabled: bool,
    emailEnabled: bool,
    recipients: seq<string>,
    rateLimiting: bool,
    maxAlertsPerHour: int)

  /** One attempted email; `delivered` is false when the mailer threw
      (the error is only logged). */
  datatype Delivery = Delivery(recipient: string, alertId: nat, delivered: bool)

  /** What a caller passes to `createAlert`. */
  datatype AlertRequest = AlertRequest(
    alertType: string,
    title: string,
    description: string,
    severity: Level,
    metadata: Meta)

  /** The alert table (ids handed out by auto-increment), the rate-limit
      cache entry and the record of attempted emails. */
  datatype Sink = Sink(
    alerts: seq<Alert>,
    nextId: nat,
    sentCounter: Option<Cached<int>>,
    outbox: seq<Delivery>)

  /** Ids are increasing in table order and below the next id to hand out. */
  predicate ValidSink(s: Sink) {
    && (forall k :: 0 <= k < |s.alerts| ==> s.alerts[k].id < s.nextId)
    && (forall i, j :: 0 <= i < j < |s.alerts| ==> s.alerts[i].id < s.alerts[j].id)
  }

  /** The row `createAlert` inserts. */
  function NewAlert(id: nat, req: AlertRequest, now: nat): Alert {
    Alert(id, req.alertType, req.title, req.description, req.severity, AlertStatus.New,
          req.metadata, now, None, None, None, None)
  }

  /** `Cache::get('watchdog_alerts_sent', 0)`. */
  function SentCount(s: Sink, now: nat): int {
    Live(s.sentCounter, now).GetOr(0)
  }

  /** `isRateLimited`. */
  predicate IsRateLimited(cfg: AlertConfig, s: Sink, now: nat) {
    cfg.rateLimiting && SentCount(s, now) >= cfg.maxAlertsPerHour
  }

  /** `incrementRateLimit`: one more, with the expiry pushed to an hour
      from now. */
  function IncrementRateLimit(s: Sink, now: nat): (r: Sink)
    ensures SentCount(r, now) == SentCount(s, now) + 1
    ensures r.sentCounter.Some? && r.sentCounter.value.expiresAt == now + Hour
    ensures r.alerts == s.alerts && r.nextId == s.nextId && r.outbox == s.outbox
  {
    s.(sentCounter := Some(Cached(SentCount(s, now) + 1, now + Hour)))
  }

  /** One attempt per recipient, in configured order; a failure for one
      recipient does not stop the others. */
  function Deliveries(recipients: seq<string>, alertId: nat, failing: set<string>): (r: seq<Delivery>)
    ensures |r| == |recipients|
    ensures forall k :: 0 <= k < |r| ==>
      r[k].recipient == recipients[k] && r[k].alertId == alertId
  {
    if |recipients| == 0 then []
    else [Delivery(recipients[0], alertId, recipients[0] !in failing)]
         + Deliveries(recipients[1..], alertId, failing)
  }

  /** `createAlert` reaches the mailer: alerts enabled, email enabled and
      the hourly cap not reached. */
  predicate Notifies(cfg: AlertConfig, s: Sink, now: nat) {
    cfg.enabled && cfg.emailEnabled && !IsRateLimited(cfg, s, now)
  }

  /** `sendAlert` for the just-created `alert`. */
  function SendAlert(cfg: AlertConfig, s: Sink, alertId: nat, now: nat, failing: set<string>): (r: Sink)
    requires cfg.enabled
  {
    if !cfg.emailEnabled || IsRateLimited(cfg, s, now) then s
    else IncrementRateLimit(s.(outbox := s.outbox + Deliveries(cfg.recipients, alertId, failing)), now)
  }

  /** `createAlert`: the row is always persisted with status new; a
      notification round happens exactly when `Notifies` holds, and then
      every recipient is tried and the counter goes up by one whatever the
      delivery outcomes. A suppressed call neither mails nor counts. */
  function CreateAlert(cfg: AlertConfig, s: Sink, req: AlertRequest, now: nat, failing: set<string>): (r: Sink)
    ensures r.alerts == s.alerts + [NewAlert(s.nextId, req, now)]
    ensures r.nextId == s.nextId + 1
    ensures ValidSink(s) ==> ValidSink(r)
    ensures Notifies(cfg, s, now) ==>
      && r.outbox == s.outbox + Deliveries(cfg.recipients, s.nextId, failing)
      && SentCount(r, now) == SentCount(s, now) + 1
      && r.sentCounter.Some? && r.sentCounter.value.expiresAt == now + Hour
    ensures !Notifies(cfg, s, now) ==> r.outbox == s.outbox && r.sentCounter == s.sentCounter
  {
    var id := s.nextId;
    var stored := s.(alerts := s.alerts + [NewAlert(id, req, now)], nextId := id + 1);
    assert SentCount(stored, now) == SentCount(s, now);
    if cfg.enabled then SendAlert(cfg, stored, id, now, failing) else stored
  }

  /** `createAlert` for several requests in a row, at one instant. */
  function CreateAlerts(cfg: AlertConfig, s: Sink, reqs: seq<AlertRequest>, now: nat, failing: set<string>): (r: Sink)
    decreases |reqs|
  {
    if |reqs| == 0 then s
    else CreateAlerts(cfg, CreateAlert(cfg, s, reqs[0], now, failing), reqs[1..], now, failing)
  }

  /** The deliveries of `count` consecutive notifying alerts whose ids
      start at `firstId`. */
  function DeliveriesFrom(recipients: seq<string>, firstId: nat, count: nat, failing: set<string>): seq<Delivery>
    decreases count
  {
    if count == 0 then []
    else Deliveries(recipients, firstId, failing) + DeliveriesFrom(recipients, firstId + 1, count - 1, failing)
  }

  /** How many of `k` alerts raised at one instant reach the mailer when
      `sent` notifications were already counted in the current window. */
  function Budget(cfg: AlertConfig, sent: int, k: nat): nat {
    if !cfg.rateLimiting then k
    else if cfg.maxAlertsPerHour - sent <= 0 then 0
    else if k <= cfg.maxAlertsPerHour - sent then k
    else cfg.maxAlertsPerHour - sent
  }

  /** The rate limiter as a whole: of a burst of alerts raised at one
      instant, exactly the first `Budget` ones are mailed (the first
      `max_alerts_per_hour` of them when the window starts empty), each to
      every recipient, and every alert of the burst is persisted. */
  lemma {:induction false} BurstMailsFirstAlerts(cfg: AlertConfig, s: Sink, reqs: seq<AlertRequest>, now: nat, failing: set<string>)
    requires cfg.enabled && cfg.emailEnabled
    ensures BurstOutcome(cfg, s, reqs, now, failing)
    decreases |reqs|
  {
    if |reqs| > 0 {
      var s1 := CreateAlert(cfg, s, reqs[0], now, failing);
      BurstMailsFirstAlerts(cfg, s1, reqs[1..], now, failing);
      BurstStep(cfg, s, reqs, now, failing);
    }
  }

  /** The conclusion of `BurstMailsFirstAlerts`. */
  predicate BurstOutcome(cfg: AlertConfig, s: Sink, reqs: seq<AlertRequest>, now: nat, failing: set<string>) {
    var r := CreateAlerts(cfg, s, reqs, now, failing);
    var n := Budget(cfg, SentCount(s, now), |reqs|);
    && |r.alerts| == |s.alerts| + |reqs|
    && r.nextId == s.nextId + |reqs|
    && r.outbox == s.outbox + DeliveriesFrom(cfg.recipients, s.nextId, n, failing)
    && SentCount(r, now) == SentCount(s, now) + n
  }

  /** One alert of the burst: from the outcome for the rest to the
      outcome for the whole. */
  lemma BurstStep(cfg: AlertConfig, s: Sink, reqs: seq<AlertRequest>, now: nat, failing: set<string>)
    requires cfg.enabled && cfg.emailEnabled && |reqs| > 0
    requires BurstOutcome(cfg, CreateAlert(cfg, s, reqs[0], now, failing), reqs[1..], now, failing)
    ensures BurstOutcome(cfg, s, reqs, now, failing)
  {
    if Notifies(cfg, s, now) {
      BurstStepMailed(cfg, s, reqs, now, failing);
    } else {
      BurstStepQuiet(cfg, s, reqs, now, failing);
    }
  }

  lemma BurstStepMailed(cfg: AlertConfig, s: Sink, reqs: seq<AlertRequest>, now: nat, failing: set<string>)
    requires cfg.enabled && cfg.emailEnabled && |reqs| > 0 && Notifies(cfg, s, now)
    requires BurstOutcome(cfg, CreateAlert(cfg, s, reqs[0], now, failing), reqs[1..], now, failing)
    ensures BurstOutcome(cfg, s, reqs, now, failing)
  {
    var s1 := CreateAlert(cfg, s, reqs[0], now, failing);
    var c := SentCount(s, now);
    var r := CreateAlerts(cfg, s1, reqs[1..], now, failing);
    assert CreateAlerts(cfg, s, reqs, now, failing) == r;
    var n := Budget(cfg, c, |reqs|);
    var n1 := Budget(cfg, c + 1, |reqs| - 1);
    assert n == 1 + n1;
    assert SentCount(s1, now) == c + 1;
    var d := Deliveries(cfg.recipients, s.nextId, failing);
    var rest := DeliveriesFrom(cfg.recipients, s1.nextId, n1, failing);
    assert r.outbox == s1.outbox + rest;
    assert s1.outbox == s.outbox + d;
    assert DeliveriesFrom(cfg.recipients, s.nextId, n, failing) == d + rest;
    assert r.outbox == s.outbox + (d + rest);
  }

  lemma BurstStepQuiet(cfg: AlertConfig, s: Sink, reqs: seq<AlertRequest>, now: nat, failing: set<string>)
    requires cfg.enabled && cfg.emailEnabled && |reqs| > 0 && !Notifies(cfg, s, now)
    requires BurstOutcome(cfg, CreateAlert(cfg, s, reqs[0], now, failing), reqs[1..], now, failing)
    ensures BurstOutcome(cfg, s, reqs, now, failing)
  {
    var s1 := CreateAlert(cfg, s, reqs[0], now, failing);
    var c := SentCount(s, now);
    var r := CreateAlerts(cfg, s1, reqs[1..], now, failing);
    assert CreateAlerts(cfg, s, reqs, now, failing) == r;
    assert SentCount(s1, now) == c;
    assert Budget(cfg, c, |reqs|) == 0;
    assert Budget(cfg, c, |reqs| - 1) == 0;
  }

  /** Once the counter entry has expired, the window starts over: with a
      positive cap the next alert is mailed again. */
  lemma RateLimitWindowExpires(cfg: AlertConfig, s: Sink, req: AlertRequest, now: nat, failing: set<string>)
    requires cfg.enabled && cfg.emailEnabled && cfg.maxAlertsPerHour > 0
    requires s.sentCounter.Some? && s.sentCounter.value.expiresAt <= now
    ensures var r := CreateAlert(cfg, s, req, now, failing);
      r.outbox == s.outbox + Deliveries(cfg.recipients, s.nextId, failing) && SentCount(r, now) == 1
  {
  }

  /** The row with id `id` after `acknowledgeAlert`. */
  function StampAcknowledged(a: Alert, actor: string, now: nat): Alert {
    a.(status := AlertStatus.Acknowledged, acknowledgedAt := Some(now), acknowledgedBy := Some(actor))
  }

  /** The row with id `id` after `resolveAlert`. */
  function StampResolved(a: Alert, actor: string, now: nat): Alert {
    a.(status := AlertStatus.Resolved, resolvedAt := Some(now), resolvedBy := Some(actor))
  }

  predicate HasAlert(s: Sink, id: nat) {
    exists k :: 0 <= k < |s.alerts| && s.alerts[k].id == id
  }

  function UpdateWhere(alerts: seq<Alert>, id: nat, f: Alert -> Alert): (r: seq<Alert>)
    ensures |r| == |alerts|
    ensures forall k :: 0 <= k < |r| ==> r[k] == if alerts[k].id == id then f(alerts[k]) else alerts[k]
  {
    if |alerts| == 0 then []
    else [if alerts[0].id == id then f(alerts[0]) else alerts[0]] + UpdateWhere(alerts[1..], id, f)
  }

  /** `acknowledgeAlert`: false and no change for an unknown id; otherwise
      the row is stamped whatever its current status (a resolved alert
      becomes acknowledged again). */
  function AcknowledgeAlert(s: Sink, id: nat, actor: string, now: nat): (r: (bool, Sink))
    ensures r.0 <==> HasAlert(s, id)
    ensures !r.0 ==> r.1 == s
    ensures r.1.nextId == s.nextId && r.1.outbox == s.outbox && r.1.sentCounter == s.sentCounter
    ensures |r.1.alerts| == |s.alerts|
    ensures forall k :: 0 <= k < |s.alerts| ==>
      r.1.alerts[k] == if s.alerts[k].id == id then StampAcknowledged(s.alerts[k], actor, now) else s.alerts[k]
  {
    if !HasAlert(s, id) then
      assert forall k :: 0 <= k < |s.alerts| ==> s.alerts[k].id != id;
      (false, s)
    else (true, s.(alerts := UpdateWhere(s.alerts, id, a => StampAcknowledged(a, actor, now))))
  }

  /** `resolveAlert`: as acknowledge, with the resolved stamp. */
  function ResolveAlert(s: Sink, id: nat, actor: string, now: nat): (r: (bool, Sink))
    ensures r.0 <==> HasAlert(s, id)
    ensures !r.0 ==> r.1 == s
    ensures r.1.nextId == s.nextId && r.1.outbox == s.outbox && r.1.sentCounter == s.sentCounter
    ensures |r.1.alerts| == |s.alerts|
    ensures forall k :: 0 <= k < |s.alerts| ==>
      r.1.alerts[k] == if s.alerts[k].id == id then StampResolved(s.alerts[k], actor, now) else s.alerts[k]
  {
    if !HasAlert(s, id) then
      assert forall k :: 0 <= k < |s.alerts| ==> s.alerts[k].id != id;
      (false, s)
    else (true, s.(alerts := UpdateWhere(s.alerts, id, a => StampResolved(a, actor, now))))
  }

  /** The dashboard figures of `getAlertStats`. */
  datatype AlertStats = AlertStats(
    total: nat,
    newAlerts: nat,
    acknowledged: nat,
    resolved: nat,
    critical: nat,
    recent: nat)

  predicate IsRecent(a: Alert, now: nat) {
    a.createdAt as int >= now as int - Day as int
  }

  predicate IsNewAlert(a: Alert) { a.status == AlertStatus.New }
  predicate IsAcknowledgedAlert(a: Alert) { a.status == AlertStatus.Acknowledged }
  predicate IsResolvedAlert(a: Alert) { a.status == AlertStatus.Resolved }
  predicate IsCriticalAlert(a: Alert) { a.severity == Critical }

  /** The three status counts together never exceed the table size. */
  lemma StatusCountsBounded(alerts: seq<Alert>)
    ensures Count(alerts, IsNewAlert) + Count(alerts, IsAcknowledgedAlert) + Count(alerts, IsResolvedAlert) <= |alerts|
  {
    var open := (a: Alert) => IsNewAlert(a) || IsAcknowledgedAlert(a);
    var closedOrOpen := (a: Alert) => open(a) || IsResolvedAlert(a);
    CountDisjoint(alerts, IsNewAlert, IsAcknowledgedAlert, open);
    CountDisjoint(alerts, open, IsResolvedAlert, closedOrOpen);
  }

  /** The recency test of `getAlertStats` as a row filter. */
  function RecentAt(now: nat): Alert -> bool {
    (a: Alert) => IsRecent(a, now)
  }

  /** Each count of `getAlertStats` is the number of row positions it selects. */
  lemma StatsFigures(alerts: seq<Alert>, now: nat)
    ensures Count(alerts, IsNewAlert) == |Positions(alerts, IsNewAlert)|
    ensures Count(alerts, IsAcknowledgedAlert) == |Positions(alerts, IsAcknowledgedAlert)|
    ensures Count(alerts, IsResolvedAlert) == |Positions(alerts, IsResolvedAlert)|
    ensures Count(alerts, IsCriticalAlert) == |Positions(alerts, IsCriticalAlert)|
    ensures Count(alerts, RecentAt(now)) == |Positions(alerts, RecentAt(now))|
  {
    CountPositions(alerts, IsNewAlert);
    CountPositions(alerts, IsAcknowledgedAlert);
    CountPositions(alerts, IsResolvedAlert);
    CountPositions(alerts, IsCriticalAlert);
    CountPositions(alerts, RecentAt(now));
  }

  /** `getAlertStats`: the number of rows, and for each figure the number
      of rows with that status, with critical severity, or created within
      the last day. The three status counts never exceed the total (false
      positives are counted in none of them). */
  function GetAlertStats(s: Sink, now: nat): (r: AlertStats)
    ensures r.total == |s.alerts|
    ensures r.newAlerts == |Positions(s.alerts, IsNewAlert)|
    ensures r.acknowledged == |Positions(s.alerts, IsAcknowledgedAlert)|
    ensures r.resolved == |Positions(s.alerts, IsResolvedAlert)|
    ensures r.critical == |Positions(s.alerts, IsCriticalAlert)|
    ensures r.recent == |Positions(s.alerts, RecentAt(now))|
    ensures r.newAlerts + r.acknowledged + r.resolved <= r.total
  {
    StatusCountsBounded(s.alerts);
    StatsFigures(s.alerts, now);
    AlertStats(
      |s.alerts|,
      Count(s.alerts, IsNewAlert),
      Count(s.alerts, IsAcknowledgedAlert),
      Count(s.alerts, IsResolvedAlert),
      Count(s.alerts, IsCriticalAlert),
      Count(s.alerts, RecentAt(now)))
  }

  /** Creating an alert adds one to the total, the new and the recent
      figures, one to the critical figure exactly when it is critical, and
      leaves the acknowledged and resolved figures alone. */
  lemma CreateAlertStats(cfg: AlertConfig, s: Sink, req: AlertRequest, now: nat, failing: set<string>)
    ensures var before := GetAlertStats(s, now);
      var after := GetAlertStats(CreateAlert(cfg, s, req, now, failing), now);
      && after.total == before.total + 1
      && after.newAlerts == before.newAlerts + 1
      && after.recent == before.recent + 1
      && after.critical == before.critical + (if req.severity == Critical then 1 else 0)
      && after.acknowledged == before.acknowledged
      && after.resolved == before.resolved
  {
    var a := NewAlert(s.nextId, req, now);
    var r := CreateAlert(cfg, s, req, now, failing);
    assert r.alerts == s.alerts + [a];
    CountConcat(s.alerts, [a], IsNewAlert);
    CountConcat(s.alerts, [a], IsAcknowledgedAlert);
    CountConcat(s.alerts, [a], IsResolvedAlert);
    CountConcat(s.alerts, [a], IsCriticalAlert);
    CountConcat(s.alerts, [a], RecentAt(now));
  }

  /** No ordering is enforced: resolving and then acknowledging leaves the
      alert acknowledged, with both stamps kept. */
  lemma AcknowledgeAfterResolveReopens(s: Sink, k: nat, actor: string, t1: nat, t2: nat)
    requires k < |s.alerts|
    ensures var id := s.alerts[k].id;
      var r := AcknowledgeAlert(ResolveAlert(s, id, actor, t1).1, id, actor, t2);
      && r.0
      && r.1.alerts[k].status == AlertStatus.Acknowledged
      && r.1.alerts[k].resolvedAt == Some(t1)
      && r.1.alerts[k].acknowledgedAt == Some(t2)
  {
  }
}

=== FILE: cleanup.dfy ===
/** Log retention (`watchdog:cleanup`): rows older than the retention
    window are deleted from the four watchdog tables, except integrity
    records still marked modified, malware not yet cleaned and alerts not
    resolved. */
module Cleanup {
  import opened Wrappers
  import opened Domain
  import opened Seqs

  /** `log_retention_days` when the key is absent. */
  const DefaultRetentionDays: int := 30

  /** The four tables the command prunes. */
  datatype Tables = Tables(
    activity: seq<ActivityLog>,
    integrity: Store,
    detections: seq<Detection>,
    alerts: seq<Alert>)

  /** How many rows each delete removed. */
  datatype Removed = Removed(activity: nat, integrity: nat, detections: nat, alerts: nat)

  /** One of the four deletes, in the order the command issues them. */
  datatype Step = PurgeActivityStep | PurgeIntegrityStep | PurgeMalwareStep | PurgeAlertsStep {
    function Index(): nat {
      match this
      case PurgeActivityStep => 0
      case PurgeIntegrityStep => 1
      case PurgeMalwareStep => 2
      case PurgeAlertsStep => 3
    }
  }

  /** The command's result: exit code, the tables afterwards and, on
      success, the per-table counts it reports. */
  datatype Outcome = Outcome(exitCode: int, tables: Tables, deleted: Option<Removed>)

  /** The `--days` option cast to int; zero (the cast of a non-numeric
      option) falls back to the configured retention. */
  function RetentionDays(daysOption: int, configured: Option<int>): (r: int)
    ensures daysOption != 0 ==> r == daysOption
    ensures daysOption == 0 && configured.Some? ==> r == configured.value
    ensures daysOption == 0 && configured.None? ==> r == DefaultRetentionDays
  {
    if daysOption != 0 then daysOption else configured.GetOr(DefaultRetentionDays)
  }

  /** The instant `now()->subDays($retentionDays)`; rows created strictly
      before it are old. */
  function Cutoff(now: nat, days: int): int {
    now as int - days * Day as int
  }

  predicate IsOld(createdAt: nat, cutoff: int) {
    createdAt as int < cutoff
  }

  function PurgeActivity(logs: seq<ActivityLog>, cutoff: int): (r: seq<ActivityLog>)
    ensures forall l :: l in r <==> l in logs && !IsOld(l.createdAt, cutoff)
    ensures |r| <= |logs|
  {
    Filter(logs, (l: ActivityLog) => !IsOld(l.createdAt, cutoff))
  }

  /** Old integrity records go unless they are still marked modified. */
  function PurgeIntegrity(store: Store, cutoff: int): (r: Store)
    ensures forall p :: p in r <==> p in store && !(IsOld(store[p].createdAt, cutoff) && store[p].status != Modified)
    ensures forall p :: p in r ==> r[p] == store[p]
    ensures r.Keys <= store.Keys
  {
    map p | p in store && !(IsOld(store[p].createdAt, cutoff) && store[p].status != Modified) :: store[p]
  }

  /** Old detections go only once cleaned. */
  function PurgeDetections(ds: seq<Detection>, cutoff: int): (r: seq<Detection>)
    ensures forall d :: d in r <==> d in ds && !(IsOld(d.createdAt, cutoff) && d.status == Cleaned)
    ensures |r| <= |ds|
  {
    Filter(ds, (d: Detection) => !(IsOld(d.createdAt, cutoff) && d.status == Cleaned))
  }

  /** Old alerts go only once resolved. */
  function PurgeAlerts(alerts: seq<Alert>, cutoff: int): (r: seq<Alert>)
    ensures forall a :: a in r <==> a in alerts && !(IsOld(a.createdAt, cutoff) && a.status == AlertStatus.Resolved)
    ensures |r| <= |alerts|
  {
    Filter(alerts, (a: Alert) => !(IsOld(a.createdAt, cutoff) && a.status == AlertStatus.Resolved))
  }

  /** All four deletes, or those before `failing` when that delete throws. */
  function Purge(t: Tables, cutoff: int, failing: Option<Step>): (r: Tables) {
    var stop := if failing.Some? then failing.value.Index() else 4;
    Tables(
      if stop > 0 then PurgeActivity(t.activity, cutoff) else t.activity,
      if stop > 1 then PurgeIntegrity(t.integrity, cutoff) else t.integrity,
      if stop > 2 then PurgeDetections(t.detections, cutoff) else t.detections,
      if stop > 3 then PurgeAlerts(t.alerts, cutoff) else t.alerts)
  }

  /** `handle`. Declining the confirmation changes nothing and exits 0.
      Otherwise every table is pruned and the counts reported with exit 0;
      if one delete throws the command exits 1, with the tables before it
      already pruned and it and those after it untouched (there is no
      transaction). */
  function Handle(t: Tables, daysOption: int, configured: Option<int>, force: bool, confirmed: bool,
                  failing: Option<Step>, now: nat): (r: Outcome)
    ensures !force && !confirmed ==> r == Outcome(0, t, None)
    ensures (force || confirmed) && failing.None? ==>
      var cutoff := Cutoff(now, RetentionDays(daysOption, configured));
      && r.exitCode == 0
      && r.tables == Tables(PurgeActivity(t.activity, cutoff), PurgeIntegrity(t.integrity, cutoff),
                            PurgeDetections(t.detections, cutoff), PurgeAlerts(t.alerts, cutoff))
      && r.deleted.Some?
      && r.deleted.value.activity + |r.tables.activity| == |t.activity|
      && r.deleted.value.integrity + |r.tables.integrity| == |t.integrity|
      && r.deleted.value.detections + |r.tables.detections| == |t.detections|
      && r.deleted.value.alerts + |r.tables.alerts| == |t.alerts|
    ensures (force || confirmed) && failing.Some? ==>
      var cutoff := Cutoff(now, RetentionDays(daysOption, configured));
      && r.exitCode == 1 && r.deleted.None?
      && (failing.value.Index() > 0 ==> r.tables.activity == PurgeActivity(t.activity, cutoff))
      && (failing.value.Index() > 1 ==> r.tables.integrity == PurgeIntegrity(t.integrity, cutoff))
      && (failing.value.Index() > 2 ==> r.tables.detections == PurgeDetections(t.detections, cutoff))
      && (failing.value.Index() <= 0 ==> r.tables.activity == t.activity)
      && (failing.value.Index() <= 1 ==> r.tables.integrity == t.integrity)
      && (failing.value.Index() <= 2 ==> r.tables.detections == t.detections)
      && r.tables.alerts == t.alerts
  {
    if !force && !confirmed then Outcome(0, t, None)
    else
      var cutoff := Cutoff(now, RetentionDays(daysOption, configured));
      var after := Purge(t, cutoff, failing);
      if failing.Some? then Outcome(1, after, None)
      else
        assert |after.integrity| <= |t.integrity| by {
          assert after.integrity.Keys <= t.integrity.Keys;
          CardinalityMono(after.integrity.Keys, t.integrity.Keys);
        }
        Outcome(0, after, Some(Removed(
          |t.activity| - |after.activity|,
          |t.integrity| - |after.integrity|,
          |t.detections| - |after.detections|,
          |t.alerts| - |after.alerts|)))
  }

  /** Nothing that still needs attention is ever deleted: an alert that is
      not resolved, a detection that is not cleaned, an integrity record
      still marked modified, and any row newer than the cutoff all
      survive. */
  lemma OpenWorkSurvives(t: Tables, daysOption: int, configured: Option<int>, force: bool, confirmed: bool,
                         failing: Option<Step>, now: nat)
    ensures var r := Handle(t, daysOption, configured, force, confirmed, failing, now).tables;
      var cutoff := Cutoff(now, RetentionDays(daysOption, configured));
      && (forall a :: a in t.alerts && (a.status != AlertStatus.Resolved || !IsOld(a.createdAt, cutoff)) ==> a in r.alerts)
      && (forall d :: d in t.detections && (d.status != Cleaned || !IsOld(d.createdAt, cutoff)) ==> d in r.detections)
      && (forall p :: p in t.integrity && (t.integrity[p].status == Modified || !IsOld(t.integrity[p].createdAt, cutoff))
            ==> p in r.integrity && r.integrity[p] == t.integrity[p])
      && (forall l :: l in t.activity && !IsOld(l.createdAt, cutoff) ==> l in r.activity)
  {
  }

  /** A second run at the same instant with the same window deletes
      nothing more. */
  lemma CleanupIdempotent(t: Tables, cutoff: int)
    ensures Purge(Purge(t, cutoff, None), cutoff, None) == Purge(t, cutoff, None)
  {
    var once := Purge(t, cutoff, None);
    FilterIdempotent(t.activity, (l: ActivityLog) => !IsOld(l.createdAt, cutoff));
    FilterIdempotent(t.detections, (d: Detection) => !(IsOld(d.createdAt, cutoff) && d.status == Cleaned));
    FilterIdempotent(t.alerts, (a: Alert) => !(IsOld(a.createdAt, cutoff) && a.status == AlertStatus.Resolved));
  }
}

=== FILE: domain.dfy ===
/** The persisted entities of the watchdog: the rows of the four tables
    created by the package migration (`file_integrity_checks`,
    `malware_detections`, `activity_logs`, `security_alerts`), the host
    application's `users` and `sessions` rows, and Laravel cache entries.
    Timestamps are whole seconds on one clock. */
module Domain {
  import opened Wrappers

  const Hour: nat := 3600
  const Day: nat := 86400

  /** The `enum('low', 'medium', 'high', 'critical')` used both as a risk
      level and as an alert severity. */
  datatype Level = Low | Medium | High | Critical

  /** The column value stored for a level. */
  function LevelName(l: Level): string {
    match l
    case Low => "low"
    case Medium => "medium"
    case High => "high"
    case Critical => "critical"
  }

  /** High and critical are the levels that raise alerts and that the
      lockdown treats as suspicious. */
  predicate IsHighRisk(l: Level) {
    l == High || l == Critical
  }

  // ---------------------------------------------------------------------
  // file_integrity_checks

  datatype FileStatus = Clean | New | Modified | Deleted

  /** The structured `changes` annotation a scan attaches to a record. */
  datatype FileChange =
    | NewFile(detectedAt: nat, fileSize: nat)
    | FileModified(oldHash: string, newHash: string, oldSize: nat, newSize: nat,
                   oldModified: nat, newModified: nat, detectedAt: nat)
    | FileDeleted(detectedAt: nat, previousHash: string, previousSize: nat)

  /** One row, keyed elsewhere by its relative path. */
  datatype FileRecord = FileRecord(
    hash: string,
    size: nat,
    lastModified: nat,
    status: FileStatus,
    changes: Option<FileChange>,
    createdAt: nat)

  /** The integrity store: at most one record per relative path. */
  type Store = map<string, FileRecord>

  // ---------------------------------------------------------------------
  // Free-form payloads (PHP arrays with scalar values)

  datatype Value = Str(s: string) | Int(i: int) | Null
  type Details = map<string, Value>

  /** `emergency_lockdown` options as passed to the service: a key the
      caller left out is `None`. */
  datatype LockdownOptions = LockdownOptions(
    maintenanceMode: Option<bool>,
    blockIps: Option<bool>,
    disableUsers: Option<bool>,
    clearSessions: Option<bool>,
    htaccessProtection: Option<bool>,
    notifyAdmins: Option<bool>,
    emergencyBackup: Option<bool>)

  // ---------------------------------------------------------------------
  // security_alerts

  datatype AlertStatus = New | Acknowledged | Resolved | FalsePositive

  /** The `metadata` payload, one shape per kind of alert the core raises. */
  datatype Meta =
    | NewFileMeta(filePath: string, fileSize: nat, detectedAt: nat)
    | ModifiedMeta(filePath: string, change: FileChange)
    | DeletedMeta(filePath: string, previousHash: string, previousSize: nat, detectedAt: nat)
    | MalwareMeta(filePath: string, threatType: string, riskLevel: Level)
    | ActivityMeta(activityLogId: nat, details: Details)
    | BruteForceMeta(ipAddress: string, attemptCount: nat)
    | LockdownMeta(lockdownId: string, activatedBy: string, activatedAt: nat,
                   ipAddress: string, options: LockdownOptions)
    | DeactivationMeta(deactivatedBy: string, deactivatedAt: nat, ipAddress: string)

  datatype Alert = Alert(
    id: nat,
    alertType: string,
    title: string,
    description: string,
    severity: Level,
    status: AlertStatus,
    metadata: Meta,
    createdAt: nat,
    acknowledgedAt: Option<nat>,
    acknowledgedBy: Option<string>,
    resolvedAt: Option<nat>,
    resolvedBy: Option<string>)

  // ---------------------------------------------------------------------
  // malware_detections

  datatype DetectionStatus = Detected | Quarantined | Cleaned | FalsePositive

  datatype Detection = Detection(
    filePath: string,
    threatType: string,
    signatureMatched: string,
    matchedText: string,
    fileSize: nat,
    scanTime: nat,
    lineNumber: nat,
    riskLevel: Level,
    status: DetectionStatus,
    createdAt: nat)

  // ---------------------------------------------------------------------
  // activity_logs

  datatype ActivityLog = ActivityLog(
    id: nat,
    eventType: string,
    userId: Option<string>,
    ipAddress: string,
    userAgent: Option<string>,
    details: Details,
    riskLevel: Level,
    sessionId: string,
    createdAt: nat)

  // ---------------------------------------------------------------------
  // The host application's users and sessions tables

  datatype User = User(id: nat, email: string, active: bool, disabledReason: Option<string>)

  datatype Session = Session(id: string, userId: Option<nat>)

  // ---------------------------------------------------------------------
  // Laravel cache entries

  /** A cached value with its absolute expiry time. */
  datatype Cached<T> = Cached(value: T, expiresAt: nat)

  /** `Cache::get`: the value while the entry has not expired. An entry
      is expired from its expiry instant on. */
  function Live<T>(e: Option<Cached<T>>, now: nat): (r: Option<T>)
    ensures r.Some? <==> e.Some? && now < e.value.expiresAt
    ensures r.Some? ==> r.value == e.value.value
  {
    match e
    case Some(c) => if now < c.expiresAt then Some(c.value) else None
    case None => None
  }
}

=== FILE: file_integrity.dfy ===
/** File-integrity monitoring: the baseline, the change scan and the
    deleted-file sweep. Two copies of this logic exist in the package, the
    `watchdog:scan` command and `FileIntegrityService`; they differ in the
    hash algorithm, in a size limit, and in the wording of their alerts,
    and only the command sweeps for deleted files. `Variant` selects
    which one is meant. */
module FileIntegrity {
  import opened Wrappers
  import opened Domain
  import opened Strings
  import opened Seqs
  import AlertService

  datatype Variant = ScanCommand | IntegrityService

  /** What the file system reports about one file. */
  datatype FileObs = FileObs(content: string, size: nat, mtime: nat)

  /** The files that exist, keyed by their path relative to the
      application root, and, for each monitored root that exists, the
      relative paths the recursive directory iteration yields, in
      iteration order. */
  datatype FileSystem = FileSystem(files: map<string, FileObs>, listings: map<string, seq<string>>)

  /** Every listed path names an existing file. */
  predicate WellFormedFs(fs: FileSystem) {
    forall root, k :: root in fs.listings && 0 <= k < |fs.listings[root]| ==> fs.listings[root][k] in fs.files
  }

  /** The `monitoring` and `file_integrity` configuration. */
  datatype MonitorConfig = MonitorConfig(
    monitored: seq<string>,
    excluded: seq<string>,
    hashAlgorithm: string,
    maxFileSize: nat)

  const DefaultExcluded: seq<string> := [
    "storage/logs", "storage/framework/cache", "storage/framework/sessions",
    "storage/framework/views", "node_modules", "vendor", ".git", ".env"]

  /** `hash_file(algorithm, file)`, supplied by the environment. */
  type Hasher = (string, string) -> string

  /** Everything one scan run works with besides the stores. `failing`
      holds the mail recipients whose delivery throws; `alertThrows` holds
      the paths for which `createAlert` itself throws (its insert fails). */
  datatype Ctx = Ctx(
    variant: Variant,
    cfg: MonitorConfig,
    alerts: AlertService.AlertConfig,
    failing: set<string>,
    alertThrows: set<string>,
    hash: Hasher,
    now: nat)

  /** The command always hashes with sha256; the service uses the
      configured algorithm. */
  function Algorithm(c: Ctx): string {
    if c.variant == ScanCommand then "sha256" else c.cfg.hashAlgorithm
  }

  function HashOf(c: Ctx, f: FileObs): string {
    c.hash(Algorithm(c), f.content)
  }

  /** `isExcluded`: some excluded entry is a raw character prefix of the
      path, so `.env` also excludes `.env.example` and `vendor` excludes
      `vendor-tools/x`. */
  function IsExcluded(path: string, excluded: seq<string>): (r: bool)
    ensures r <==> exists k :: 0 <= k < |excluded| && StartsWith(path, excluded[k])
  {
    if |excluded| == 0 then false
    else if StartsWith(path, excluded[0]) then true
    else
      var rest := IsExcluded(path, excluded[1..]);
      assert forall k :: 1 <= k < |excluded| ==> excluded[k] == excluded[1..][k - 1];
      rest
  }

  /** Prefix matching ignores directory boundaries. */
  lemma ExclusionIsRawPrefix()
    ensures IsExcluded(".env.example", DefaultExcluded)
    ensures IsExcluded("vendor-tools/run.php", DefaultExcluded)
    ensures !IsExcluded("app/Models/User.php", DefaultExcluded)
  {
    assert StartsWith(".env.example", DefaultExcluded[7]);
    assert StartsWith("vendor-tools/run.php", DefaultExcluded[5]);
    var p := "app/Models/User.php";
    forall k | 0 <= k < |DefaultExcluded| ensures !StartsWith(p, DefaultExcluded[k]) {
      assert p[0] != DefaultExcluded[k][0];
    }
  }

  /** A file the variant looks at: it exists, is not excluded and, for the
      service, is no larger than the size limit (a file exactly at the
      limit is still scanned). */
  predicate Eligible(c: Ctx, fs: FileSystem, p: string) {
    && p in fs.files
    && !IsExcluded(p, c.cfg.excluded)
    && (c.variant == IntegrityService ==> fs.files[p].size <= c.cfg.maxFileSize)
  }

  /** The eligible files under `roots`, root by root in configured order;
      a root that does not exist is skipped. */
  function Listed(c: Ctx, fs: FileSystem, roots: seq<string>): (r: seq<string>)
    ensures forall p :: p in r <==>
      exists k :: 0 <= k < |roots| && roots[k] in fs.listings && p in fs.listings[roots[k]] && Eligible(c, fs, p)
    ensures forall k :: 0 <= k < |r| ==> Eligible(c, fs, r[k])
  {
    if |roots| == 0 then []
    else
      var here := if roots[0] in fs.listings then Filter(fs.listings[roots[0]], p => Eligible(c, fs, p)) else [];
      var rest := Listed(c, fs, roots[1..]);
      assert forall k :: 1 <= k < |roots| ==> roots[k] == roots[1..][k - 1];
      here + rest
  }

  /** The files one run visits. */
  function Scanned(c: Ctx, fs: FileSystem): seq<string> {
    Listed(c, fs, c.cfg.monitored)
  }

  // ---------------------------------------------------------------------
  // Alerts about files

  /** Whether the alert about `p` is lost. The command wraps every
      `createAlert` in its own try/catch, so a throwing insert is swallowed:
      the record and the report stay and the scan goes on. The service has
      no such catch; for it `alertThrows` plays no part. */
  predicate AlertLost(c: Ctx, p: string) {
    c.variant == ScanCommand && p in c.alertThrows
  }

  /** `createAlert` about `p` as the variant calls it. */
  function RaiseAlert(c: Ctx, sink: AlertService.Sink, p: string, req: AlertService.AlertRequest): (r: AlertService.Sink)
    ensures r.alerts == sink.alerts + (if AlertLost(c, p) then [] else [AlertService.NewAlert(sink.nextId, req, c.now)])
  {
    if AlertLost(c, p) then sink else AlertService.CreateAlert(c.alerts, sink, req, c.now, c.failing)
  }

  /** How many of the alerts about `paths`, one each, are raised. */
  function AlertCount(c: Ctx, paths: seq<string>): (n: nat)
    ensures n <= |paths|
  {
    if |paths| == 0 then 0
    else (if AlertLost(c, paths[0]) then 0 else 1) + AlertCount(c, paths[1..])
  }

  /** Every alert is raised exactly when none of them is lost. */
  lemma {:induction false} AlertCountFull(c: Ctx, paths: seq<string>)
    ensures AlertCount(c, paths) == |paths| <==> forall k :: 0 <= k < |paths| ==> !AlertLost(c, paths[k])
    decreases |paths|
  {
    if |paths| > 0 {
      AlertCountFull(c, paths[1..]);
      assert forall k :: 1 <= k < |paths| ==> paths[k] == paths[1..][k - 1];
    }
  }

  lemma {:induction false} AlertCountConcat(c: Ctx, a: seq<string>, b: seq<string>)
    ensures AlertCount(c, a + b) == AlertCount(c, a) + AlertCount(c, b)
    decreases |a|
  {
    if |a| == 0 {
      assert a + b == b;
    } else {
      assert (a + b)[0] == a[0];
      assert (a + b)[1..] == a[1..] + b;
      AlertCountConcat(c, a[1..], b);
    }
  }

  // ---------------------------------------------------------------------
  // Baseline

  /** The record `updateOrCreate` leaves for a file: clean, no change
      annotation, the current hash, size and mtime; an existing row keeps
      its creation time. */
  function BaselineRecord(c: Ctx, store: Store, p: string, f: FileObs): FileRecord {
    FileRecord(HashOf(c, f), f.size, f.mtime, Clean, None,
               if p in store then store[p].createdAt else c.now)
  }

  /** Baseline upserts for `paths`, in order. */
  function BaselineFiles(c: Ctx, fs: FileSystem, store: Store, paths: seq<string>): (r: Store)
    requires forall k :: 0 <= k < |paths| ==> paths[k] in fs.files
    decreases |paths|
    ensures forall p :: p in r <==> p in store || p in paths
    ensures forall p :: p in paths ==> p in r && r[p] == BaselineRecord(c, store, p, fs.files[p])
    ensures forall p :: p in store && p !in paths ==> r[p] == store[p]
  {
    if |paths| == 0 then store
    else
      var p0 := paths[0];
      var next := store[p0 := BaselineRecord(c, store, p0, fs.files[p0])];
      var r := BaselineFiles(c, fs, next, paths[1..]);
      assert forall p :: p in paths <==> p == p0 || p in paths[1..];
      r
  }

  /** `createBaseline` (both variants): every visited file gets a clean
      record carrying its current hash; records of files not visited,
      including those of deleted files, are left as they are; no alert is
      raised. */
  function CreateBaseline(c: Ctx, fs: FileSystem, store: Store): (r: Store)
    ensures forall p :: p in r <==> p in store || p in Scanned(c, fs)
    ensures forall p :: p in Scanned(c, fs) ==>
      p in r && r[p].status == Clean && r[p].changes == None && r[p].hash == HashOf(c, fs.files[p])
    ensures forall p :: p in store && p !in Scanned(c, fs) ==> r[p] == store[p]
  {
    BaselineFiles(c, fs, store, Scanned(c, fs))
  }

  /** Taking the baseline twice is the same as taking it once. */
  lemma BaselineIdempotent(c: Ctx, fs: FileSystem, store: Store)
    ensures CreateBaseline(c, fs, CreateBaseline(c, fs, store)) == CreateBaseline(c, fs, store)
  {
    var once := CreateBaseline(c, fs, store);
    var twice := CreateBaseline(c, fs, once);
    forall p | p in twice ensures p in once && twice[p] == once[p] {
      if p in Scanned(c, fs) {
        assert p in once;
      }
    }
  }

  // ---------------------------------------------------------------------
  // Change scan

  /** The field a service entry carries beyond status and path: a new
      file's `size`, or a modified file's `changes` array. The command's
      entries carry neither. */
  datatype ReportDetail = NoDetail | SizeDetail(size: nat) | ChangesDetail(changes: FileChange)

  /** One entry of the scan's change report. */
  datatype ChangeReport = ChangeReport(status: FileStatus, path: string, detail: ReportDetail)

  /** The integrity store together with the alert sink. */
  datatype ScanState = ScanState(store: Store, sink: AlertService.Sink)

  function NewFileRequest(c: Ctx, p: string, f: FileObs): AlertService.AlertRequest {
    var description :=
      if c.variant == ScanCommand then "A new file has been detected in the monitored directories: " + p
      else "A new file has been detected: " + p;
    AlertService.AlertRequest("new_file_detected", "New File Detected: " + Basename(p), description,
                              Medium, NewFileMeta(p, f.size, c.now))
  }

  function ModifiedRequest(c: Ctx, p: string, change: FileChange): AlertService.AlertRequest {
    var description :=
      if c.variant == ScanCommand then "A monitored file has been modified: " + p
      else "The file " + p + " has been modified.";
    AlertService.AlertRequest("file_modified", "File Modified: " + Basename(p), description,
                              Medium, ModifiedMeta(p, change))
  }

  /** The annotation of a modification: old and new hash, size and mtime. */
  function ModifiedChange(c: Ctx, prev: FileRecord, f: FileObs): FileChange {
    FileModified(prev.hash, HashOf(c, f), prev.size, f.size, prev.lastModified, f.mtime, c.now)
  }

  /** The record created for a file seen for the first time. */
  function NewRecord(c: Ctx, f: FileObs): FileRecord {
    FileRecord(HashOf(c, f), f.size, f.mtime, FileStatus.New, Some(NewFile(c.now, f.size)), c.now)
  }

  /** An existing record brought up to date with a modified file; its
      creation time is kept. */
  function ModifiedRecord(c: Ctx, prev: FileRecord, f: FileObs): FileRecord {
    prev.(hash := HashOf(c, f), size := f.size, lastModified := f.mtime,
          status := Modified, changes := Some(ModifiedChange(c, prev, f)))
  }

  /** Whether the file at `p` exists and differs from what `store`
      recorded for it (or has no record at all). */
  predicate Changed(c: Ctx, fs: FileSystem, store: Store, p: string) {
    p in fs.files && (p !in store || store[p].hash != HashOf(c, fs.files[p]))
  }

  /** The detail a report on `p` carries, judged against the record `p`
      had before the visit: none for the command; for the service, the
      file's size when there was no record, otherwise the old and new hash,
      size and mtime of the modification. */
  predicate DetailAgrees(c: Ctx, fs: FileSystem, store: Store, p: string, d: ReportDetail) {
    p in fs.files &&
    if c.variant == ScanCommand then d == NoDetail
    else if p !in store then d == SizeDetail(fs.files[p].size)
    else d == ChangesDetail(ModifiedChange(c, store[p], fs.files[p]))
  }

  /** `checkFileIntegrity` outside baseline mode. A path without a record
      is new; a record whose hash differs is modified; otherwise nothing
      happens, whatever the record's status (a file that comes back after
      being marked deleted, unchanged, stays marked deleted). Each change
      raises one medium alert; afterwards the record carries the file's
      current hash. */
  function CheckFile(c: Ctx, fs: FileSystem, st: ScanState, p: string): (r: (Option<ChangeReport>, ScanState))
    requires p in fs.files
    ensures r.0.Some? <==> Changed(c, fs, st.store, p)
    ensures r.0.Some? ==>
      && r.0.value.path == p
      && (r.0.value.status == FileStatus.New <==> p !in st.store)
      && (r.0.value.status == FileStatus.New || r.0.value.status == Modified)
      && DetailAgrees(c, fs, st.store, p, r.0.value.detail)
    ensures r.0.None? ==> r.1 == st
    ensures p !in st.store ==>
      && r.1.store == st.store[p := NewRecord(c, fs.files[p])]
      && r.1.sink == RaiseAlert(c, st.sink, p, NewFileRequest(c, p, fs.files[p]))
    ensures p in st.store && Changed(c, fs, st.store, p) ==>
      && r.1.store == st.store[p := ModifiedRecord(c, st.store[p], fs.files[p])]
      && r.1.sink == RaiseAlert(c, st.sink, p, ModifiedRequest(c, p, ModifiedChange(c, st.store[p], fs.files[p])))
    ensures p in r.1.store && r.1.store[p].hash == HashOf(c, fs.files[p])
    ensures r.0.Some? && r.0.value.detail.SizeDetail? ==> r.0.value.detail.size == r.1.store[p].size
    ensures r.0.Some? && r.0.value.detail.ChangesDetail? ==> r.1.store[p].changes == Some(r.0.value.detail.changes)
    ensures |r.1.sink.alerts| == |st.sink.alerts| + (if r.0.Some? && !AlertLost(c, p) then 1 else 0)
  {
    var f := fs.files[p];
    if p !in st.store then
      var sink := RaiseAlert(c, st.sink, p, NewFileRequest(c, p, f));
      var detail := if c.variant == ScanCommand then NoDetail else SizeDetail(f.size);
      (Some(ChangeReport(FileStatus.New, p, detail)), ScanState(st.store[p := NewRecord(c, f)], sink))
    else if st.store[p].hash != HashOf(c, f) then
      var prev := st.store[p];
      var sink := RaiseAlert(c, st.sink, p, ModifiedRequest(c, p, ModifiedChange(c, prev, f)));
      var detail := if c.variant == ScanCommand then NoDetail else ChangesDetail(ModifiedChange(c, prev, f));
      (Some(ChangeReport(Modified, p, detail)), ScanState(st.store[p := ModifiedRecord(c, prev, f)], sink))
    else
      (None, st)
  }

  predicate Reported(reports: seq<ChangeReport>, p: string) {
    exists k :: 0 <= k < |reports| && reports[k].path == p
  }

  /** The paths of the reports, in report order. */
  function ReportPaths(reports: seq<ChangeReport>): (r: seq<string>)
    ensures |r| == |reports|
    ensures forall k :: 0 <= k < |r| ==> r[k] == reports[k].path
  {
    seq(|reports|, k requires 0 <= k < |reports| => reports[k].path)
  }

  lemma ReportPathsConcat(a: seq<ChangeReport>, b: seq<ChangeReport>)
    ensures ReportPaths(a + b) == ReportPaths(a) + ReportPaths(b)
  {
    var l := ReportPaths(a + b);
    var r := ReportPaths(a) + ReportPaths(b);
    forall k | 0 <= k < |l| ensures l[k] == r[k] {
      if k < |a| {
        assert (a + b)[k] == a[k];
      } else {
        assert (a + b)[k] == b[k - |a|];
      }
    }
  }

  /** `checkFileIntegrity` over `paths`, collecting the change reports. */
  function CheckFiles(c: Ctx, fs: FileSystem, st: ScanState, paths: seq<string>): (r: (seq<ChangeReport>, ScanState))
    requires forall k :: 0 <= k < |paths| ==> paths[k] in fs.files
    decreases |paths|
  {
    if |paths| == 0 then ([], st)
    else
      var (first, st1) := CheckFile(c, fs, st, paths[0]);
      var (rest, st2) := CheckFiles(c, fs, st1, paths[1..]);
      ((if first.Some? then [first.value] else []) + rest, st2)
  }

  /** What a pass over `paths` does to the store: every visited file ends
      up with a record carrying its current hash, no record is dropped,
      and records of paths not visited are untouched. */
  ghost predicate StoreOutcome(c: Ctx, fs: FileSystem, st: ScanState, paths: seq<string>)
    requires forall k :: 0 <= k < |paths| ==> paths[k] in fs.files
  {
    var st2 := CheckFiles(c, fs, st, paths).1;
    && (forall p :: p in paths ==> p in st2.store && st2.store[p].hash == HashOf(c, fs.files[p]))
    && (forall p :: p in st2.store <==> p in st.store || p in paths)
    && (forall p :: p in st.store && p !in paths ==> st2.store[p] == st.store[p])
  }

  lemma {:induction false} CheckFilesStore(c: Ctx, fs: FileSystem, st: ScanState, paths: seq<string>)
    requires forall k :: 0 <= k < |paths| ==> paths[k] in fs.files
    ensures StoreOutcome(c, fs, st, paths)
    decreases |paths|
  {
    if |paths| > 0 {
      var p0 := paths[0];
      var st1 := CheckFile(c, fs, st, p0).1;
      var st2 := CheckFiles(c, fs, st1, paths[1..]).1;
      CheckFilesStore(c, fs, st1, paths[1..]);
      CheckFileKeepsOthers(c, fs, st, p0);
      assert CheckFiles(c, fs, st, paths).1 == st2;
      assert forall p :: p in paths <==> p == p0 || p in paths[1..];
      forall p | p in paths ensures p in st2.store && st2.store[p].hash == HashOf(c, fs.files[p]) {
        if p !in paths[1..] {
          assert p == p0 && p in st1.store && st2.store[p] == st1.store[p];
        }
      }
    }
  }

  /** A visit touches only the record of the visited path. */
  lemma CheckFileKeepsOthers(c: Ctx, fs: FileSystem, st: ScanState, p: string)
    requires p in fs.files
    ensures var st1 := CheckFile(c, fs, st, p).1;
      && (forall q :: q in st1.store <==> q in st.store || q == p)
      && (forall q :: q in st.store && q != p ==> st1.store[q] == st.store[q])
  {
  }

  /** Each report names a visited file that differed from the store at the
      start, says new exactly when there was no record, and carries the
      detail of that change. */
  ghost predicate ReportsSound(c: Ctx, fs: FileSystem, store: Store, paths: seq<string>, reports: seq<ChangeReport>) {
    forall k :: 0 <= k < |reports| ==>
      && reports[k].path in paths
      && Changed(c, fs, store, reports[k].path)
      && (reports[k].status == FileStatus.New <==> reports[k].path !in store)
      && (reports[k].status == FileStatus.New || reports[k].status == Modified)
      && DetailAgrees(c, fs, store, reports[k].path, reports[k].detail)
  }

  /** Every visited file that differed is reported, once. */
  ghost predicate ReportsComplete(c: Ctx, fs: FileSystem, store: Store, paths: seq<string>, reports: seq<ChangeReport>) {
    && (forall p :: p in paths && Changed(c, fs, store, p) ==> Reported(reports, p))
    && (forall i, j :: 0 <= i < j < |reports| ==> reports[i].path != reports[j].path)
  }

  /** What a pass over `paths` reports: exactly the visited files that
      differed from the store at the start, once each, with one alert per
      report unless its insert throws; a pass that reports nothing changes
      nothing. */
  ghost predicate ReportOutcome(c: Ctx, fs: FileSystem, st: ScanState, paths: seq<string>)
    requires forall k :: 0 <= k < |paths| ==> paths[k] in fs.files
  {
    var r := CheckFiles(c, fs, st, paths);
    && ReportsSound(c, fs, st.store, paths, r.0)
    && ReportsComplete(c, fs, st.store, paths, r.0)
    && |r.1.sink.alerts| == |st.sink.alerts| + AlertCount(c, ReportPaths(r.0))
    && (|r.0| == 0 ==> r.1 == st)
  }

  lemma {:induction false} CheckFilesReports(c: Ctx, fs: FileSystem, st: ScanState, paths: seq<string>)
    requires forall k :: 0 <= k < |paths| ==> paths[k] in fs.files
    ensures ReportOutcome(c, fs, st, paths)
    decreases |paths|
  {
    if |paths| > 0 {
      var p0 := paths[0];
      var (first, st1) := CheckFile(c, fs, st, p0);
      var (rest, st2) := CheckFiles(c, fs, st1, paths[1..]);
      CheckFilesReports(c, fs, st1, paths[1..]);
      var head := if first.Some? then [first.value] else [];
      assert CheckFiles(c, fs, st, paths) == (head + rest, st2);
      FirstVisitHolds(c, fs, st, p0);
      SoundStep(c, fs, st.store, st1.store, paths, head, rest);
      CompleteStep(c, fs, st.store, st1.store, paths, head, rest);
      ReportPathsConcat(head, rest);
      AlertCountConcat(c, ReportPaths(head), ReportPaths(rest));
      assert |st1.sink.alerts| == |st.sink.alerts| + AlertCount(c, ReportPaths(head));
    }
  }

  /** What the visit of the first file of a pass establishes. */
  lemma FirstVisitHolds(c: Ctx, fs: FileSystem, st: ScanState, p0: string)
    requires p0 in fs.files
    ensures var (first, st1) := CheckFile(c, fs, st, p0);
      FirstVisit(c, fs, st.store, st1.store, p0, if first.Some? then [first.value] else [])
  {
    CheckFileFrame(c, fs, st, p0);
    CheckFileKeepsOthers(c, fs, st, p0);
  }

  /** The visit of the first file changes only that file's record. */
  lemma CheckFileFrame(c: Ctx, fs: FileSystem, st: ScanState, p: string)
    requires p in fs.files
    ensures var st1 := CheckFile(c, fs, st, p).1;
      && !Changed(c, fs, st1.store, p)
      && (forall q :: q != p ==> Changed(c, fs, st1.store, q) == Changed(c, fs, st.store, q))
      && (forall q :: q != p ==> (q in st1.store <==> q in st.store))
  {
    var st1 := CheckFile(c, fs, st, p).1;
    var f := fs.files[p];
    if p !in st.store {
      RecordUpdateFrame(c, fs, st.store, p, NewRecord(c, f));
    } else if st.store[p].hash != HashOf(c, f) {
      RecordUpdateFrame(c, fs, st.store, p, ModifiedRecord(c, st.store[p], f));
    } else {
      assert st1 == st;
    }
  }

  /** Writing the record of `p` leaves every other path's record, and
      whether it changed, as it was. */
  lemma RecordUpdateFrame(c: Ctx, fs: FileSystem, store: Store, p: string, rec: FileRecord)
    ensures forall q :: q != p ==> Changed(c, fs, store[p := rec], q) == Changed(c, fs, store, q)
    ensures forall q :: q != p ==> (q in store[p := rec] <==> q in store)
  {
    forall q | q != p
      ensures Changed(c, fs, store[p := rec], q) == Changed(c, fs, store, q)
    {
      assert (q in store[p := rec]) == (q in store);
      if q in store {
        assert store[p := rec][q] == store[q];
      }
    }
  }

  /** The facts about the first file's visit that the steps below use. */
  ghost predicate FirstVisit(c: Ctx, fs: FileSystem, store: Store, store1: Store, p0: string, head: seq<ChangeReport>) {
    && !Changed(c, fs, store1, p0)
    && (forall q :: q != p0 ==> Changed(c, fs, store1, q) == Changed(c, fs, store, q))
    && (forall q :: q != p0 ==> (q in store1 <==> q in store))
    && (forall q :: q != p0 && q in store ==> store1[q] == store[q])
    && |head| <= 1
    && (|head| == 1 <==> Changed(c, fs, store, p0))
    && (|head| == 1 ==>
          && head[0].path == p0
          && (head[0].status == FileStatus.New <==> p0 !in store)
          && (head[0].status == FileStatus.New || head[0].status == Modified)
          && DetailAgrees(c, fs, store, p0, head[0].detail))
  }

  lemma SoundStep(c: Ctx, fs: FileSystem, store: Store, store1: Store, paths: seq<string>,
                  head: seq<ChangeReport>, rest: seq<ChangeReport>)
    requires |paths| > 0
    requires FirstVisit(c, fs, store, store1, paths[0], head)
    requires ReportsSound(c, fs, store1, paths[1..], rest)
    ensures ReportsSound(c, fs, store, paths, head + rest)
  {
    var reports := head + rest;
    forall k | 0 <= k < |reports|
      ensures reports[k].path in paths
      ensures Changed(c, fs, store, reports[k].path)
      ensures reports[k].status == FileStatus.New <==> reports[k].path !in store
      ensures DetailAgrees(c, fs, store, reports[k].path, reports[k].detail)
    {
      if k >= |head| {
        assert reports[k] == rest[k - |head|];
        assert reports[k].path in paths[1..];
        assert reports[k].path != paths[0];
      }
    }
  }

  lemma CompleteStep(c: Ctx, fs: FileSystem, store: Store, store1: Store, paths: seq<string>,
                     head: seq<ChangeReport>, rest: seq<ChangeReport>)
    requires |paths| > 0
    requires FirstVisit(c, fs, store, store1, paths[0], head)
    requires ReportsSound(c, fs, store1, paths[1..], rest)
    requires ReportsComplete(c, fs, store1, paths[1..], rest)
    ensures ReportsComplete(c, fs, store, paths, head + rest)
  {
    var p0 := paths[0];
    var reports := head + rest;
    assert forall k :: 0 <= k < |rest| ==> rest[k].path != p0;
    forall i, j | 0 <= i < j < |reports| ensures reports[i].path != reports[j].path {
      assert reports[j] == rest[j - |head|];
      if i >= |head| {
        assert reports[i] == rest[i - |head|];
      }
    }
    forall p | p in paths && Changed(c, fs, store, p) ensures Reported(reports, p) {
      if p == p0 {
        assert reports[0].path == p0;
      } else {
        assert p in paths[1..];
        var k :| 0 <= k < |rest| && rest[k].path == p;
        assert reports[|head| + k].path == p;
      }
    }
  }

  /** `scanForChanges` (both variants): the store and report outcomes of a
      pass over every visited file. For the service this is a walk in
      which nothing throws: its catch around a whole root is not part of
      the model. */
  function ScanForChanges(c: Ctx, fs: FileSystem, st: ScanState): (r: (seq<ChangeReport>, ScanState))
    ensures StoreOutcome(c, fs, st, Scanned(c, fs))
    ensures ReportOutcome(c, fs, st, Scanned(c, fs))
  {
    CheckFilesStore(c, fs, st, Scanned(c, fs));
    CheckFilesReports(c, fs, st, Scanned(c, fs));
    CheckFiles(c, fs, st, Scanned(c, fs))
  }

  /** A pass over files none of which differ from the store reports
      nothing and changes nothing. */
  lemma {:induction false} NothingChangedNothingReported(c: Ctx, fs: FileSystem, st: ScanState, paths: seq<string>)
    requires forall k :: 0 <= k < |paths| ==> paths[k] in fs.files
    requires forall k :: 0 <= k < |paths| ==> !Changed(c, fs, st.store, paths[k])
    ensures CheckFiles(c, fs, st, paths) == ([], st)
    decreases |paths|
  {
    if |paths| > 0 {
      assert CheckFile(c, fs, st, paths[0]) == (None, st);
      NothingChangedNothingReported(c, fs, st, paths[1..]);
      var (rest, st2) := CheckFiles(c, fs, st, paths[1..]);
      assert rest == [] && st2 == st;
      assert CheckFiles(c, fs, st, paths) == ([] + rest, st2);
      assert [] + rest == [];
    } else {
      assert CheckFiles(c, fs, st, paths) == ([], st);
    }
  }

  /** A change scan right after a baseline of the same files, with the same
      hash algorithm, finds nothing and changes nothing. */
  lemma QuietAfterBaseline(c: Ctx, fs: FileSystem, st: ScanState)
    ensures var based := st.(store := CreateBaseline(c, fs, st.store));
      ScanForChanges(c, fs, based) == ([], based)
  {
    var based := st.(store := CreateBaseline(c, fs, st.store));
    var paths := Scanned(c, fs);
    assert forall k :: 0 <= k < |paths| ==> paths[k] in paths;
    NothingChangedNothingReported(c, fs, based, paths);
  }

  /** A file that reappears with the content it had when it was marked
      deleted stays marked deleted; one that reappears with other content
      becomes modified. */
  lemma ReappearedFiles(c: Ctx, fs: FileSystem, st: ScanState, p: string)
    requires p in fs.files && p in st.store && st.store[p].status == Deleted
    ensures st.store[p].hash == HashOf(c, fs.files[p]) ==>
      CheckFile(c, fs, st, p) == (None, st)
    ensures st.store[p].hash != HashOf(c, fs.files[p]) ==>
      CheckFile(c, fs, st, p).0.Some?
      && CheckFile(c, fs, st, p).0.value.path == p
      && CheckFile(c, fs, st, p).0.value.status == Modified
      && CheckFile(c, fs, st, p).1.store[p].status == Modified
  {
  }

  // ---------------------------------------------------------------------
  // Deleted-file sweep (command only)

  /** Whether the sweep marks the record of `p` deleted: its status is
      clean, new or modified, it is not excluded, some monitored entry is
      a raw prefix of it, and the file no longer exists. */
  predicate SweepTarget(cfg: MonitorConfig, fs: FileSystem, p: string, rec: FileRecord) {
    && rec.status != Deleted
    && !IsExcluded(p, cfg.excluded)
    && (exists k :: 0 <= k < |cfg.monitored| && StartsWith(p, cfg.monitored[k]))
    && p !in fs.files
  }

  function MarkDeleted(rec: FileRecord, now: nat): FileRecord {
    rec.(status := Deleted, changes := Some(FileDeleted(now, rec.hash, rec.size)))
  }

  function DeletedRequest(p: string, rec: FileRecord, now: nat): AlertService.AlertRequest {
    AlertService.AlertRequest("file_deleted", "File Deleted: " + Basename(p),
                              "A monitored file has been deleted: " + p,
                              High, DeletedMeta(p, rec.hash, rec.size, now))
  }

  /** `scanForDeletedFiles` over the records in `order` (the order the
      query returns them). */
  function SweepDeleted(c: Ctx, fs: FileSystem, st: ScanState, order: seq<string>): (r: (seq<string>, ScanState))
    decreases |order|
  {
    if |order| == 0 then ([], st)
    else
      var p := order[0];
      if p in st.store && SweepTarget(c.cfg, fs, p, st.store[p]) then
        var rec := st.store[p];
        var sink := RaiseAlert(c, st.sink, p, DeletedRequest(p, rec, c.now));
        var (rest, st2) := SweepDeleted(c, fs, ScanState(st.store[p := MarkDeleted(rec, c.now)], sink), order[1..]);
        ([p] + rest, st2)
      else SweepDeleted(c, fs, st, order[1..])
  }

  /** The sweep marks exactly the targeted records among those it visits,
      leaves every other record as it was, keeps the set of paths, and
      raises one high alert per deleted file unless its insert throws. */
  ghost predicate SweepOutcome(c: Ctx, fs: FileSystem, st: ScanState, order: seq<string>) {
    var (deleted, st2) := SweepDeleted(c, fs, st, order);
    && (forall p :: p in st2.store <==> p in st.store)
    && (forall p :: p in st.store ==>
          st2.store[p] == if p in order && SweepTarget(c.cfg, fs, p, st.store[p]) then MarkDeleted(st.store[p], c.now) else st.store[p])
    && (forall p :: p in deleted <==> p in order && p in st.store && SweepTarget(c.cfg, fs, p, st.store[p]))
    && |st2.sink.alerts| == |st.sink.alerts| + AlertCount(c, deleted)
  }

  lemma {:induction false} SweepDeletedSound(c: Ctx, fs: FileSystem, st: ScanState, order: seq<string>)
    ensures SweepOutcome(c, fs, st, order)
    decreases |order|
  {
    if |order| > 0 {
      var p0 := order[0];
      assert forall p :: p in order <==> p == p0 || p in order[1..];
      if p0 in st.store && SweepTarget(c.cfg, fs, p0, st.store[p0]) {
        var rec := st.store[p0];
        var sink := RaiseAlert(c, st.sink, p0, DeletedRequest(p0, rec, c.now));
        var st1 := ScanState(st.store[p0 := MarkDeleted(rec, c.now)], sink);
        SweepDeletedSound(c, fs, st1, order[1..]);
        assert !SweepTarget(c.cfg, fs, p0, st1.store[p0]);
        var rest := SweepDeleted(c, fs, st1, order[1..]).0;
        assert ([p0] + rest)[0] == p0 && ([p0] + rest)[1..] == rest;
      } else {
        SweepDeletedSound(c, fs, st, order[1..]);
      }
    }
  }

  /** A file that still exists is never marked deleted, so the sweep never
      contradicts a change scan of the same file system. */
  lemma SweepSparesExistingFiles(c: Ctx, fs: FileSystem, st: ScanState, order: seq<string>, p: string)
    requires p in st.store && p in fs.files
    ensures p in SweepDeleted(c, fs, st, order).1.store
    ensures SweepDeleted(c, fs, st, order).1.store[p] == st.store[p]
    ensures p !in SweepDeleted(c, fs, st, order).0
  {
    SweepDeletedSound(c, fs, st, order);
  }

  // ---------------------------------------------------------------------
  // getFileStats

  datatype FileStats = FileStats(total: nat, clean: nat, newFiles: nat, modified: nat, deleted: nat)

  function WithStatus(store: Store, s: FileStatus): set<string> {
    set p | p in store && store[p].status == s
  }

  lemma DisjointUnionCard(a: set<string>, b: set<string>)
    requires a !! b
    ensures |a + b| == |a| + |b|
  {
    assert a * b == {};
  }

  /** Every record has exactly one of the four statuses. */
  lemma StatusPartition(store: Store)
    ensures |WithStatus(store, Clean)| + |WithStatus(store, FileStatus.New)|
      + |WithStatus(store, Modified)| + |WithStatus(store, Deleted)| == |store|
  {
    var cl := WithStatus(store, Clean);
    var nw := WithStatus(store, FileStatus.New);
    var md := WithStatus(store, Modified);
    var dl := WithStatus(store, Deleted);
    forall p | p in store ensures p in cl + nw + md + dl {
      match store[p].status
      case Clean => assert p in cl;
      case New => assert p in nw;
      case Modified => assert p in md;
      case Deleted => assert p in dl;
    }
    assert store.Keys == cl + nw + md + dl;
    DisjointUnionCard(cl, nw);
    DisjointUnionCard(cl + nw, md);
    DisjointUnionCard(cl + nw + md, dl);
  }

  /** `getFileStats`: the number of records, and for each status the
      number of records that have it; the four add up to the total. */
  function GetFileStats(store: Store): (r: FileStats)
    ensures r.total == |store.Keys|
    ensures r.clean == |set p | p in store && store[p].status == Clean|
    ensures r.newFiles == |set p | p in store && store[p].status == FileStatus.New|
    ensures r.modified == |set p | p in store && store[p].status == Modified|
    ensures r.deleted == |set p | p in store && store[p].status == Deleted|
    ensures r.clean + r.newFiles + r.modified + r.deleted == r.total
  {
    StatusPartition(store);
    FileStats(|store|, |WithStatus(store, Clean)|, |WithStatus(store, FileStatus.New)|,
              |WithStatus(store, Modified)|, |WithStatus(store, Deleted)|)
  }

  /** The sweep as the statistics see it: the total stays, the deleted
      figure grows by the number of records the sweep marks, and the other
      three figures together shrink by as many. */
  lemma SweepStats(c: Ctx, fs: FileSystem, st: ScanState, order: seq<string>)
    ensures var before := GetFileStats(st.store);
      var after := GetFileStats(SweepDeleted(c, fs, st, order).1.store);
      var marked := set p | p in st.store && p in order && SweepTarget(c.cfg, fs, p, st.store[p]);
      && after.total == before.total
      && after.deleted == before.deleted + |marked|
      && after.clean + after.newFiles + after.modified + |marked| == before.clean + before.newFiles + before.modified
  {
    var st2 := SweepDeleted(c, fs, st, order).1;
    var marked := set p | p in st.store && p in order && SweepTarget(c.cfg, fs, p, st.store[p]);
    SweptDeleted(c, fs, st, order);
    assert |st2.store.Keys| == |st.store.Keys|;
    DisjointUnionCard(WithStatus(st.store, Deleted), marked);
    StatusPartition(st.store);
    StatusPartition(st2.store);
  }

  /** The records with status deleted after the sweep: those before, and
      the ones it marks. */
  lemma SweptDeleted(c: Ctx, fs: FileSystem, st: ScanState, order: seq<string>)
    ensures var st2 := SweepDeleted(c, fs, st, order).1;
      var marked := set p | p in st.store && p in order && SweepTarget(c.cfg, fs, p, st.store[p]);
      && st2.store.Keys == st.store.Keys
      && WithStatus(st2.store, Deleted) == WithStatus(st.store, Deleted) + marked
      && WithStatus(st.store, Deleted) !! marked
  {
    var st2 := SweepDeleted(c, fs, st, order).1;
    SweepDeletedSound(c, fs, st, order);
    var marked := set p | p in st.store && p in order && SweepTarget(c.cfg, fs, p, st.store[p]);
    assert forall p :: p in st2.store <==> p in st.store;
    forall p | p in st.store
      ensures p in WithStatus(st2.store, Deleted) <==> p in WithStatus(st.store, Deleted) || p in marked
    {
      assert st2.store[p] == if p in order && SweepTarget(c.cfg, fs, p, st.store[p]) then MarkDeleted(st.store[p], c.now) else st.store[p];
    }
  }
}

=== FILE: lockdown.dfy ===
/** The emergency lockdown (`EmergencyLockdownService`). Its state is
    three cache entries (the active flag, the maintenance bypass secret
    and the snapshot of disabled users), the `users` and `sessions`
    tables, the deny rules appended to `public/.htaccess` and the alert
    sink. Activation runs a sequence of steps, each of which catches its
    own errors; only a failure outside the steps (the initial alert)
    fails the activation. */
module Lockdown {
  import opened Wrappers
  import opened Domain
  import opened Strings
  import opened Seqs
  import AlertService

  /** `HAVING COUNT(*) >= 3` on the failed-login query. */
  const FailedLoginBlockThreshold: nat := 3

  /** Lifetime of the active flag and of the secret: 24 hours. */
  const FlagTtl: nat := Day

  /** Lifetime of the disabled-user snapshot: 7 days. */
  const SnapshotTtl: nat := 7 * Day

  /** The value cached under `emergency_lockdown_active`. */
  datatype ActiveInfo = ActiveInfo(
    lockdownId: string,
    activatedAt: nat,
    activatedBy: string,
    alertId: nat,
    options: LockdownOptions)

  datatype LockdownState = LockdownState(
    active: Option<Cached<ActiveInfo>>,
    secret: Option<Cached<string>>,
    snapshot: Option<Cached<seq<User>>>,
    users: seq<User>,
    sessions: seq<Session>,
    htaccess: string,
    sink: AlertService.Sink)

  /** The request the service runs in: the authenticated user's name and
      email (absent for a console run), the client address as
      `getRealIpAddress` resolves it, and the session id. */
  datatype Caller = Caller(name: Option<string>, email: Option<string>, ip: string, sessionId: string)

  /** `auth()->user()->name ?? 'System'`. */
  function ActorName(c: Caller): string {
    c.name.GetOr("System")
  }

  /** The configuration the service reads: the alert block and
      `alerts.admin_emails`. */
  datatype LockdownConfig = LockdownConfig(alerts: AlertService.AlertConfig, adminEmails: seq<string>)

  /** `getAdminEmails`: the alert recipients followed by the admin emails. */
  function AdminEmails(cfg: LockdownConfig): seq<string> {
    cfg.alerts.recipients + cfg.adminEmails
  }

  /** Everything that can fail inside an activation. `alertThrows` is the
      one failure outside the step helpers; the others are each caught by
      their own step. */
  datatype Faults = Faults(
    alertThrows: bool,
    downExitCode: int,
    ipQueryThrows: bool,
    appendFails: set<string>,
    usersThrow: bool,
    sessionsThrow: bool,
    htaccessFails: bool,
    backupFails: bool,
    mailFailing: set<string>)

  // ---------------------------------------------------------------------
  // Identity and secret

  /** `'emergency_' . time()`. */
  function LockdownId(now: nat): string {
    "emergency_" + NatToString(now)
  }

  /** The maintenance bypass secret: `admin_` followed by the last eight
      characters of the lockdown id. */
  function SecretFor(id: string): (r: string)
    ensures |r| == 6 + (if |id| <= 8 then |id| else 8)
    ensures StartsWith(r, "admin_") && EndsWith(id, r[6..])
    ensures Truthy(r)
  {
    var tail := LastN(id, 8);
    assert id[|id| - |tail|..] == tail;
    var r := "admin_" + tail;
    assert r[6..] == tail;
    assert r[..6] == "admin_";
    r
  }

  // ---------------------------------------------------------------------
  // Suspicious addresses

  /** The two queries of `blockSuspiciousIPs`. */
  datatype EventKind = FailedLoginEvent | HighRiskEvent

  /** `l` is a `kind` event of the last 24 hours. */
  predicate IsEvent(l: ActivityLog, kind: EventKind, now: nat) {
    && l.createdAt as int >= now as int - Day as int
    && match kind
       case FailedLoginEvent => l.eventType == "failed_login"
       case HighRiskEvent => IsHighRisk(l.riskLevel)
  }

  /** How many `kind` events of the last 24 hours came from `ip`. */
  function EventsFrom(logs: seq<ActivityLog>, kind: EventKind, ip: string, now: nat): nat {
    if |logs| == 0 then 0
    else (if IsEvent(logs[0], kind, now) && logs[0].ipAddress == ip then 1 else 0)
         + EventsFrom(logs[1..], kind, ip, now)
  }

  /** `pluck('ip_address')` over the `kind` events of the last 24 hours,
      in table order: exactly the addresses with at least one such event. */
  function EventIps(logs: seq<ActivityLog>, kind: EventKind, now: nat): (r: seq<string>)
    ensures forall ip :: ip in r <==> EventsFrom(logs, kind, ip, now) > 0
  {
    if |logs| == 0 then []
    else (if IsEvent(logs[0], kind, now) then [logs[0].ipAddress] else []) + EventIps(logs[1..], kind, now)
  }

  function RepeatOffenderFrom(logs: seq<ActivityLog>, now: nat): string -> bool {
    (ip: string) => EventsFrom(logs, FailedLoginEvent, ip, now) >= FailedLoginBlockThreshold
  }

  /** The grouped failed-login query: one entry per address with at least
      three failed logins in the last 24 hours. */
  function RepeatOffenders(logs: seq<ActivityLog>, now: nat): (r: seq<string>)
    ensures forall ip :: ip in r <==> EventsFrom(logs, FailedLoginEvent, ip, now) >= FailedLoginBlockThreshold
  {
    Filter(Dedup(EventIps(logs, FailedLoginEvent, now)), RepeatOffenderFrom(logs, now))
  }

  /** `$suspiciousIPs->merge($highRiskIPs)->unique()`: every address with
      three failed logins or one high or critical event in the last 24
      hours, once each. */
  function SuspiciousIps(logs: seq<ActivityLog>, now: nat): (r: seq<string>)
    ensures forall ip :: ip in r <==>
      EventsFrom(logs, FailedLoginEvent, ip, now) >= FailedLoginBlockThreshold
      || EventsFrom(logs, HighRiskEvent, ip, now) > 0
    ensures Distinct(r)
  {
    Dedup(RepeatOffenders(logs, now) + EventIps(logs, HighRiskEvent, now))
  }

  /** The `Require not ip` line of a rule: IPv6 addresses are quoted,
      IPv4 addresses are not. */
  function Directive(ip: string, isIpv6: bool): string {
    if isIpv6 then "Require not ip \"" + ip + "\"\n" else "Require not ip " + ip + "\n"
  }

  /** The comment line that opens a rule, naming the address family and
      the address. */
  function Comment(ip: string, isIpv6: bool): string {
    "\n# Emergency Lockdown - Block " + (if isIpv6 then "IPv6 " else "IPv4 ") + ip + "\n"
  }

  /** The rule `blockIPAddress` appends: the comment, then the directive. */
  function BlockRule(ip: string, isIpv6: bool): string {
    Comment(ip, isIpv6) + Directive(ip, isIpv6)
  }

  /** For an address without quote characters, the rule holds a quote
      exactly when the address is IPv6, and it ends with the directive
      naming the address. */
  lemma BlockRuleQuoting(ip: string, isIpv6: bool)
    requires '"' !in ip
    ensures '"' in BlockRule(ip, isIpv6) <==> isIpv6
    ensures isIpv6 ==> EndsWith(BlockRule(ip, isIpv6), "Require not ip \"" + ip + "\"\n")
    ensures !isIpv6 ==> EndsWith(BlockRule(ip, isIpv6), "Require not ip " + ip + "\n")
  {
    if isIpv6 {
      Ipv6RuleQuotes(ip);
    } else {
      Ipv4RuleUnquoted(ip);
    }
  }

  lemma Ipv6RuleQuotes(ip: string)
    ensures '"' in BlockRule(ip, true)
    ensures EndsWith(BlockRule(ip, true), "Require not ip \"" + ip + "\"\n")
  {
    var head := Comment(ip, true);
    var d := Directive(ip, true);
    assert BlockRule(ip, true) == head + d;
    assert (head + d)[|head|..] == d;
    assert d[15] == '"';
    assert (head + d)[|head| + 15] == d[15];
  }

  lemma Ipv4RuleUnquoted(ip: string)
    requires '"' !in ip
    ensures '"' !in BlockRule(ip, false)
    ensures EndsWith(BlockRule(ip, false), "Require not ip " + ip + "\n")
  {
    var head := Comment(ip, false);
    var d := Directive(ip, false);
    assert '"' !in "\n# Emergency Lockdown - Block " && '"' !in "IPv4 " && '"' !in "Require not ip ";
    assert BlockRule(ip, false) == head + d;
    assert (head + d)[|head|..] == d;
  }

  /** The rules for `ips`, in order. */
  function Rules(ips: seq<string>, isIpv6: string -> bool): string {
    if |ips| == 0 then "" else BlockRule(ips[0], isIpv6(ips[0])) + Rules(ips[1..], isIpv6)
  }

  /** The rules of a list are the first address's rule followed by the
      rules of the rest. */
  lemma RulesCons(ip: string, rest: seq<string>, isIpv6: string -> bool)
    ensures Rules([ip] + rest, isIpv6) == BlockRule(ip, isIpv6(ip)) + Rules(rest, isIpv6)
  {
    assert ([ip] + rest)[1..] == rest;
  }

  /** An address the loop blocks: truthy, not the caller's own, and its
      rule was appended without error. */
  predicate Blockable(ip: string, current: string, appendFails: set<string>) {
    Truthy(ip) && ip != current && ip !in appendFails
  }

  /** The loop of `blockSuspiciousIPs` over `ips`, appending one rule per
      blocked address. */
  function BlockEach(ips: seq<string>, current: string, isIpv6: string -> bool,
                     appendFails: set<string>, htaccess: string): (r: (seq<string>, string))
    ensures forall ip :: ip in r.0 <==> ip in ips && Blockable(ip, current, appendFails)
    ensures Distinct(ips) ==> Distinct(r.0)
    ensures r.1 == htaccess + Rules(r.0, isIpv6)
  {
    if |ips| == 0 then ([], htaccess)
    else
      var ip := ips[0];
      if Blockable(ip, current, appendFails) then
        var rule := BlockRule(ip, isIpv6(ip));
        var rest := BlockEach(ips[1..], current, isIpv6, appendFails, htaccess + rule);
        var blocked := [ip] + rest.0;
        assert blocked[1..] == rest.0;
        RulesCons(ip, rest.0, isIpv6);
        ConcatAssoc(htaccess, rule, Rules(rest.0, isIpv6));
        assert Distinct(ips) ==> ip !in ips[1..];
        (blocked, rest.1)
      else
        BlockEach(ips[1..], current, isIpv6, appendFails, htaccess)
  }

  /** `blockSuspiciousIPs`: every suspicious address except empty values
      and the caller's own, each once, and only those whose rule was
      written; a failing query blocks nothing. */
  function BlockSuspiciousIps(logs: seq<ActivityLog>, now: nat, current: string, isIpv6: string -> bool,
                              f: Faults, htaccess: string): (r: (seq<string>, string))
    ensures f.ipQueryThrows ==> r == ([], htaccess)
    ensures !f.ipQueryThrows ==> forall ip :: ip in r.0 <==>
      && (EventsFrom(logs, FailedLoginEvent, ip, now) >= FailedLoginBlockThreshold
          || EventsFrom(logs, HighRiskEvent, ip, now) > 0)
      && Blockable(ip, current, f.appendFails)
    ensures Distinct(r.0)
    ensures current !in r.0
    ensures r.1 == htaccess + Rules(r.0, isIpv6)
  {
    if f.ipQueryThrows then ([], htaccess)
    else BlockEach(SuspiciousIps(logs, now), current, isIpv6, f.appendFails, htaccess)
  }

  // ---------------------------------------------------------------------
  // Users and sessions

  /** Users the lockdown never disables: the caller and the configured
      administrators. */
  predicate Exempt(u: User, currentEmail: string, adminEmails: seq<string>) {
    u.email == currentEmail || u.email in adminEmails
  }

  predicate ToDisable(u: User, currentEmail: string, adminEmails: seq<string>) {
    u.active && !Exempt(u, currentEmail, adminEmails)
  }

  function ToDisableFrom(currentEmail: string, adminEmails: seq<string>): User -> bool {
    (u: User) => ToDisable(u, currentEmail, adminEmails)
  }

  /** The rows the `disableNonAdminUsers` query selects, in table order. */
  function DisableTargets(users: seq<User>, currentEmail: string, adminEmails: seq<string>): (r: seq<User>)
    ensures forall u :: u in r <==> u in users && ToDisable(u, currentEmail, adminEmails)
    ensures |r| <= |users|
  {
    Filter(users, ToDisableFrom(currentEmail, adminEmails))
  }

  /** The `update` of `disableNonAdminUsers`, row by row. */
  function DisableRows(users: seq<User>, currentEmail: string, adminEmails: seq<string>, reason: string): (r: seq<User>)
    ensures |r| == |users|
    ensures forall k :: 0 <= k < |users| ==> r[k].id == users[k].id && r[k].email == users[k].email
    ensures forall k :: 0 <= k < |users| && ToDisable(users[k], currentEmail, adminEmails) ==>
      !r[k].active && r[k].disabledReason == Some(reason)
    ensures forall k :: 0 <= k < |users| && !ToDisable(users[k], currentEmail, adminEmails) ==> r[k] == users[k]
    ensures forall k :: 0 <= k < |users| && r[k].active ==> Exempt(r[k], currentEmail, adminEmails)
  {
    if |users| == 0 then []
    else
      var u := users[0];
      var head := if ToDisable(u, currentEmail, adminEmails) then u.(active := false, disabledReason := Some(reason)) else u;
      [head] + DisableRows(users[1..], currentEmail, adminEmails, reason)
  }

  /** `disableNonAdminUsers`: the selected rows are cached as the snapshot
      for seven days and then disabled, and their number is returned; a
      failing query changes nothing and returns 0. */
  function DisableNonAdminUsers(cfg: LockdownConfig, caller: Caller, st: LockdownState, now: nat,
                                stamp: string, f: Faults): (r: (nat, LockdownState))
    ensures f.usersThrow ==> r == (0, st)
    ensures !f.usersThrow ==>
      var targets := DisableTargets(st.users, caller.email.GetOr(""), AdminEmails(cfg));
      && r.0 == |targets|
      && r.1.snapshot == Some(Cached(targets, now + SnapshotTtl))
      && r.1.users == DisableRows(st.users, caller.email.GetOr(""), AdminEmails(cfg), "Emergency Lockdown - " + stamp)
    ensures r.1 == st.(users := r.1.users, snapshot := r.1.snapshot)
  {
    if f.usersThrow then (0, st)
    else
      var email := caller.email.GetOr("");
      var targets := DisableTargets(st.users, email, AdminEmails(cfg));
      (|targets|, st.(snapshot := Some(Cached(targets, now + SnapshotTtl)),
                      users := DisableRows(st.users, email, AdminEmails(cfg), "Emergency Lockdown - " + stamp)))
  }

  function KeepSessionFrom(currentId: string): Session -> bool {
    (s: Session) => s.id == currentId
  }

  /** `clearUserSessions`: every session but the caller's is deleted and
      the step succeeds even when there was nothing to delete; a failing
      delete leaves the table and reports false. */
  function ClearUserSessions(st: LockdownState, currentId: string, f: Faults): (r: (bool, LockdownState))
    ensures r.0 <==> !f.sessionsThrow
    ensures f.sessionsThrow ==> r.1 == st
    ensures !f.sessionsThrow ==>
      && (forall s :: s in r.1.sessions <==> s in st.sessions && s.id == currentId)
      && |r.1.sessions| <= |st.sessions|
    ensures r.1 == st.(sessions := r.1.sessions)
  {
    if f.sessionsThrow then (false, st)
    else (true, st.(sessions := Filter(st.sessions, KeepSessionFrom(currentId))))
  }

  /** The ids of the users in a snapshot. */
  function SnapshotIds(snapshot: seq<User>): set<nat> {
    set u | u in snapshot :: u.id
  }

  /** `restoreDisabledUsers`, corrected: every row whose id is in the
      snapshot becomes active with no reason, the rest are untouched, and
      the count is the snapshot's size. */
  function RestoreDisabledUsers(users: seq<User>, snapshot: seq<User>): (r: (nat, seq<User>))
    ensures r.0 == |snapshot|
    ensures |r.1| == |users|
    ensures forall k :: 0 <= k < |users| && users[k].id in SnapshotIds(snapshot) ==>
      r.1[k] == users[k].(active := true, disabledReason := None)
    ensures forall k :: 0 <= k < |users| && users[k].id !in SnapshotIds(snapshot) ==> r.1[k] == users[k]
  {
    (|snapshot|, RestoreRows(users, SnapshotIds(snapshot)))
  }

  function RestoreRows(users: seq<User>, ids: set<nat>): (r: seq<User>)
    ensures |r| == |users|
    ensures forall k :: 0 <= k < |users| ==>
      r[k] == if users[k].id in ids then users[k].(active := true, disabledReason := None) else users[k]
  {
    if |users| == 0 then []
    else
      var u := users[0];
      [if u.id in ids then u.(active := true, disabledReason := None) else u] + RestoreRows(users[1..], ids)
  }

  /** `restoreDisabledUsers` as written. The snapshot holds the rows the
      query builder returned, which are objects, and `$user['id']` on an
      object raises an `Error`; the surrounding `catch (\Exception)`
      blocks do not catch it. `None` is that escaping error: any
      non-empty snapshot raises it on the first row. */
  function RestoreDisabledUsersAsWritten(users: seq<User>, snapshot: seq<User>): (r: Option<(nat, seq<User>)>)
    ensures r.Some? <==> |snapshot| == 0
    ensures r.Some? ==> r.value == RestoreDisabledUsers(users, snapshot)
  {
    if |snapshot| == 0 then
      assert SnapshotIds(snapshot) == {};
      assert RestoreRows(users, {}) == users;
      Some((0, users))
    else None
  }

  /** Unique ids, as the `users` primary key guarantees. */
  predicate UniqueIds(users: seq<User>) {
    forall i, j :: 0 <= i < j < |users| ==> users[i].id != users[j].id
  }

  /** Disabling and then restoring from the snapshot gives every user back
      the active flag they had. */
  lemma DisableThenRestore(users: seq<User>, currentEmail: string, adminEmails: seq<string>, reason: string)
    requires UniqueIds(users)
    ensures var targets := DisableTargets(users, currentEmail, adminEmails);
      var back := RestoreDisabledUsers(DisableRows(users, currentEmail, adminEmails, reason), targets).1;
      && |back| == |users|
      && forall k :: 0 <= k < |users| ==>
           back[k].id == users[k].id && back[k].email == users[k].email && back[k].active == users[k].active
  {
    var targets := DisableTargets(users, currentEmail, adminEmails);
    var disabled := DisableRows(users, currentEmail, adminEmails, reason);
    forall k | 0 <= k < |users| && disabled[k].id in SnapshotIds(targets)
      ensures ToDisable(users[k], currentEmail, adminEmails)
    {
      var u :| u in targets && u.id == disabled[k].id;
      var j :| 0 <= j < |users| && users[j] == u;
      assert users[j].id == users[k].id;
      assert j == k;
    }
    forall k | 0 <= k < |users| && ToDisable(users[k], currentEmail, adminEmails)
      ensures disabled[k].id in SnapshotIds(targets)
    {
      assert users[k] in targets;
    }
  }

  // ---------------------------------------------------------------------
  // Activation

  /** A missing option key means the step runs, except for
      `disable_users`, which defaults to off. */
  function Runs(option: Option<bool>, default: bool): bool {
    option.GetOr(default)
  }

  datatype Status = Success | Failed

  /** The `$results` array of `activateEmergencyLockdown`; a step that did
      not run leaves its key absent (`None`). */
  datatype Activation = Activation(
    status: Status,
    alertId: Option<nat>,
    maintenanceMode: Option<bool>,
    blockedIps: Option<seq<string>>,
    disabledUsers: Option<nat>,
    sessionsCleared: Option<bool>,
    htaccessProtection: Option<bool>,
    adminNotifications: Option<nat>,
    emergencyBackup: Option<bool>,
    lockdownActive: bool)

  /** The critical alert that opens every activation. */
  function LockdownRequest(id: string, caller: Caller, now: nat, opts: LockdownOptions): AlertService.AlertRequest {
    AlertService.AlertRequest(
      "emergency_lockdown",
      "\U{1F6A8} EMERGENCY LOCKDOWN ACTIVATED",
      "System-wide emergency lockdown has been activated. All non-essential access has been restricted.",
      Critical,
      LockdownMeta(id, ActorName(caller), now, caller.ip, opts))
  }

  /** `enableMaintenanceMode`: the secret is cached for 24 hours whether or
      not `artisan down` succeeds, and the step reports the command's
      success. A failure to publish the emergency view is caught inside
      `ensureEmergencyViewExists` and does not stop the step. */
  function EnableMaintenanceMode(id: string, st: LockdownState, now: nat, f: Faults): (r: (bool, LockdownState))
    ensures r.0 <==> f.downExitCode == 0
    ensures r.1.secret == Some(Cached(SecretFor(id), now + FlagTtl))
    ensures r.1 == st.(secret := r.1.secret)
  {
    (f.downExitCode == 0, st.(secret := Some(Cached(SecretFor(id), now + FlagTtl))))
  }

  /** What step 2 does to the secret: cached for 24 hours when the step
      runs, untouched otherwise. */
  ghost predicate SecretOutcome(opts: LockdownOptions, id: string, now: nat, f: Faults,
                          before: Option<Cached<string>>, after: Option<Cached<string>>) {
    if Runs(opts.maintenanceMode, true) then after == Some(Cached(SecretFor(id), now + FlagTtl))
    else after == before
  }

  /** What step 3 does to the deny list: one rule per blocked address,
      never the caller's own. */
  ghost predicate HtaccessOutcome(caller: Caller, isIpv6: string -> bool, blocked: Option<seq<string>>,
                            before: string, after: string) {
    match blocked
    case Some(ips) => caller.ip !in ips && after == before + Rules(ips, isIpv6)
    case None => after == before
  }

  /** What step 4 does to the users and the snapshot, and the count it
      reports. */
  ghost predicate UsersOutcome(opts: LockdownOptions, cfg: LockdownConfig, caller: Caller, now: nat, stamp: string, f: Faults,
                         users: seq<User>, snapshot: Option<Cached<seq<User>>>, count: Option<nat>,
                         users': seq<User>, snapshot': Option<Cached<seq<User>>>) {
    var targets := DisableTargets(users, caller.email.GetOr(""), AdminEmails(cfg));
    if !Runs(opts.disableUsers, false) then count == None && users' == users && snapshot' == snapshot
    else if f.usersThrow then count == Some(0) && users' == users && snapshot' == snapshot
    else
      && count == Some(|targets|)
      && snapshot' == Some(Cached(targets, now + SnapshotTtl))
      && users' == DisableRows(users, caller.email.GetOr(""), AdminEmails(cfg), "Emergency Lockdown - " + stamp)
  }

  /** What step 5 does to the sessions: only the caller's are left. */
  ghost predicate SessionsOutcome(opts: LockdownOptions, caller: Caller, f: Faults, before: seq<Session>, after: seq<Session>) {
    if Runs(opts.clearSessions, true) && !f.sessionsThrow then
      forall s :: s in after <==> s in before && s.id == caller.sessionId
    else after == before
  }

  /** Step 2, maintenance mode, when its option says so; it reports
      whether `artisan down` succeeded. */
  function MaintenanceStep(opts: LockdownOptions, id: string, st: LockdownState, now: nat, f: Faults): (r: (Option<bool>, LockdownState))
    ensures r.0.Some? <==> Runs(opts.maintenanceMode, true)
    ensures r.0 == if Runs(opts.maintenanceMode, true) then Some(f.downExitCode == 0) else None
    ensures r.1 == st.(secret := r.1.secret)
    ensures SecretOutcome(opts, id, now, f, st.secret, r.1.secret)
  {
    if Runs(opts.maintenanceMode, true) then
      var x := EnableMaintenanceMode(id, st, now, f);
      (Some(x.0), x.1)
    else (None, st)
  }

  /** Step 3, the deny list, when its option says so; it reports the
      addresses `blockSuspiciousIPs` blocked. */
  function BlockStep(opts: LockdownOptions, logs: seq<ActivityLog>, caller: Caller, st: LockdownState, now: nat,
                     isIpv6: string -> bool, f: Faults): (r: (Option<seq<string>>, LockdownState))
    ensures r.0.Some? <==> Runs(opts.blockIps, true)
    ensures r.0 == if Runs(opts.blockIps, true) then Some(BlockSuspiciousIps(logs, now, caller.ip, isIpv6, f, st.htaccess).0) else None
    ensures r.1 == st.(htaccess := r.1.htaccess)
    ensures HtaccessOutcome(caller, isIpv6, r.0, st.htaccess, r.1.htaccess)
  {
    if Runs(opts.blockIps, true) then
      var x := BlockSuspiciousIps(logs, now, caller.ip, isIpv6, f, st.htaccess);
      (Some(x.0), st.(htaccess := x.1))
    else (None, st)
  }

  /** Step 4, disabling users, when its option says so (off by default). */
  function UsersStep(opts: LockdownOptions, cfg: LockdownConfig, caller: Caller, st: LockdownState, now: nat,
                     stamp: string, f: Faults): (r: (Option<nat>, LockdownState))
    ensures r.1 == st.(users := r.1.users, snapshot := r.1.snapshot)
    ensures UsersOutcome(opts, cfg, caller, now, stamp, f, st.users, st.snapshot, r.0, r.1.users, r.1.snapshot)
  {
    if Runs(opts.disableUsers, false) then
      var x := DisableNonAdminUsers(cfg, caller, st, now, stamp, f);
      (Some(x.0), x.1)
    else (None, st)
  }

  /** Step 5, clearing sessions, when its option says so. */
  function SessionsStep(opts: LockdownOptions, caller: Caller, st: LockdownState, f: Faults): (r: (Option<bool>, LockdownState))
    ensures r.0 == if Runs(opts.clearSessions, true) then Some(!f.sessionsThrow) else None
    ensures r.1 == st.(sessions := r.1.sessions)
    ensures SessionsOutcome(opts, caller, f, st.sessions, r.1.sessions)
  {
    if Runs(opts.clearSessions, true) then
      var x := ClearUserSessions(st, caller.sessionId, f);
      (Some(x.0), x.1)
    else (None, st)
  }

  /** The steps after the alert, in source order, each run when its option
      says so; `alertId` is the id of the alert just created. Steps 6 to 8
      (the advisory files, the notification mails and the backup) are
      reduced to what they report: the notification count is the number
      of configured recipients, because a failed send is only logged. */
  function RunSteps(cfg: LockdownConfig, caller: Caller, logs: seq<ActivityLog>, opts: LockdownOptions,
                    id: string, alertId: nat, st: LockdownState, now: nat, stamp: string,
                    isIpv6: string -> bool, f: Faults): (r: (Activation, LockdownState))
    ensures r.0.status == Success && r.0.lockdownActive && r.0.alertId == Some(alertId)
    ensures r.0.maintenanceMode.Some? <==> Runs(opts.maintenanceMode, true)
    ensures r.0.maintenanceMode == if Runs(opts.maintenanceMode, true) then Some(f.downExitCode == 0) else None
    ensures r.0.blockedIps.Some? <==> Runs(opts.blockIps, true)
    ensures r.0.blockedIps ==
      if Runs(opts.blockIps, true) then Some(BlockSuspiciousIps(logs, now, caller.ip, isIpv6, f, st.htaccess).0) else None
    ensures r.0.disabledUsers.Some? <==> Runs(opts.disableUsers, false)
    ensures r.0.sessionsCleared == (if Runs(opts.clearSessions, true) then Some(!f.sessionsThrow) else None)
    ensures r.0.htaccessProtection == (if Runs(opts.htaccessProtection, true) then Some(!f.htaccessFails) else None)
    ensures r.0.adminNotifications == (if Runs(opts.notifyAdmins, true) then Some(|cfg.alerts.recipients|) else None)
    ensures r.0.emergencyBackup == (if Runs(opts.emergencyBackup, true) then Some(!f.backupFails) else None)
    ensures r.1.sink == st.sink
    ensures r.1.active == Some(Cached(ActiveInfo(id, now, ActorName(caller), alertId, opts), now + FlagTtl))
    ensures SecretOutcome(opts, id, now, f, st.secret, r.1.secret)
    ensures HtaccessOutcome(caller, isIpv6, r.0.blockedIps, st.htaccess, r.1.htaccess)
    ensures UsersOutcome(opts, cfg, caller, now, stamp, f, st.users, st.snapshot, r.0.disabledUsers, r.1.users, r.1.snapshot)
    ensures SessionsOutcome(opts, caller, f, st.sessions, r.1.sessions)
  {
    var m := MaintenanceStep(opts, id, st, now, f);
    var b := BlockStep(opts, logs, caller, m.1, now, isIpv6, f);
    var u := UsersStep(opts, cfg, caller, b.1, now, stamp, f);
    var c := SessionsStep(opts, caller, u.1, f);
    var h := if Runs(opts.htaccessProtection, true) then Some(!f.htaccessFails) else None;
    var n := if Runs(opts.notifyAdmins, true) then Some(|cfg.alerts.recipients|) else None;
    var k := if Runs(opts.emergencyBackup, true) then Some(!f.backupFails) else None;
    var fin := c.1.(active := Some(Cached(ActiveInfo(id, now, ActorName(caller), alertId, opts), now + FlagTtl)));
    (Activation(Success, Some(alertId), m.0, b.0, u.0, c.0, h, n, k, true), fin)
  }

  /** The result of an activation that failed before any step ran. */
  const FailedActivation := Activation(Failed, None, None, None, None, None, None, None, None, false)

  /** `activateEmergencyLockdown`. The lockdown id is `emergency_` and the
      current second. A failing initial alert fails the whole activation
      and changes nothing; otherwise the steps run in order, a failing step
      only records its own failure, and the active flag is set for 24
      hours whatever the steps reported. */
  function Activate(cfg: LockdownConfig, caller: Caller, logs: seq<ActivityLog>, opts: LockdownOptions,
                    st: LockdownState, now: nat, stamp: string, isIpv6: string -> bool, f: Faults): (r: (Activation, LockdownState))
    ensures f.alertThrows ==> r == (FailedActivation, st)
    ensures r.0.status == Success <==> !f.alertThrows
    ensures !f.alertThrows ==>
      && r.0.alertId == Some(st.sink.nextId)
      && r.1.sink == AlertService.CreateAlert(cfg.alerts, st.sink, LockdownRequest(LockdownId(now), caller, now, opts), now, f.mailFailing)
      && r.1.active == Some(Cached(ActiveInfo(LockdownId(now), now, ActorName(caller), st.sink.nextId, opts), now + FlagTtl))
      && IsLockdownActive(r.1, now)
    ensures !f.alertThrows ==> r == RunSteps(cfg, caller, logs, opts, LockdownId(now), st.sink.nextId,
      st.(sink := AlertService.CreateAlert(cfg.alerts, st.sink, LockdownRequest(LockdownId(now), caller, now, opts), now, f.mailFailing)),
      now, stamp, isIpv6, f)
  {
    if f.alertThrows then (FailedActivation, st)
    else
      var id := LockdownId(now);
      var sink := AlertService.CreateAlert(cfg.alerts, st.sink, LockdownRequest(id, caller, now, opts), now, f.mailFailing);
      RunSteps(cfg, caller, logs, opts, id, st.sink.nextId, st.(sink := sink), now, stamp, isIpv6, f)
  }

  // ---------------------------------------------------------------------
  // Queries

  /** `isLockdownActive`: the active flag is in the cache. */
  predicate IsLockdownActive(st: LockdownState, now: nat) {
    Live(st.active, now).Some?
  }

  /** `url('/' . $path)` on the application's root URL `baseUrl` (no
      trailing slash), for a path without a query string. */
  function Url(baseUrl: string, path: string): string {
    baseUrl + "/" + path
  }

  /** `url('/?' . $query)`: the URL generator splits the query string off,
      trims the now empty path away, and appends the query to the root. */
  function UrlWithQuery(baseUrl: string, query: string): string {
    baseUrl + "?" + query
  }

  /** `getEmergencyAccessUrl`: the bypass URL while a truthy secret is
      cached, otherwise none. */
  function GetEmergencyAccessUrl(st: LockdownState, now: nat, baseUrl: string): (r: Option<string>)
    ensures r.Some? <==> Live(st.secret, now).Some? && Truthy(Live(st.secret, now).value)
    ensures r.Some? ==> r.value == Url(baseUrl, Live(st.secret, now).value)
  {
    var secret := Live(st.secret, now);
    if secret.Some? && Truthy(secret.value) then Some(Url(baseUrl, secret.value)) else None
  }

  /** What `getEmergencyAccessInfo` returns. */
  datatype AccessInfo =
    | Unavailable(message: string)
    | Available(secretKey: string, primaryUrl: string, alternativeUrls: seq<string>,
                cliCommand: string, lockdownInfo: Option<ActiveInfo>)

  /** `getEmergencyAccessInfo`: available exactly when the access URL is;
      its primary URL is that URL and its command brings the site up with
      the same secret. */
  function GetEmergencyAccessInfo(st: LockdownState, now: nat, baseUrl: string): (r: AccessInfo)
    ensures r.Available? <==> GetEmergencyAccessUrl(st, now, baseUrl).Some?
    ensures r.Available? ==>
      && Some(r.primaryUrl) == GetEmergencyAccessUrl(st, now, baseUrl)
      && r.secretKey == Live(st.secret, now).value
      && r.cliCommand == "php artisan up --secret=" + r.secretKey
      && r.primaryUrl == baseUrl + "/" + r.secretKey
      && r.alternativeUrls == [baseUrl + "?secret=" + r.secretKey, baseUrl + "/index.php/" + r.secretKey]
      && |r.alternativeUrls| == 2
      && r.lockdownInfo == Live(st.active, now)
    ensures r.Unavailable? ==> r.message == "No emergency access configured"
  {
    var secret := Live(st.secret, now);
    if secret.None? || !Truthy(secret.value) then Unavailable("No emergency access configured")
    else
      var s := secret.value;
      assert UrlWithQuery(baseUrl, "secret=" + s) == baseUrl + "?secret=" + s;
      assert Url(baseUrl, "index.php/" + s) == baseUrl + "/index.php/" + s;
      Available(s, Url(baseUrl, s), [UrlWithQuery(baseUrl, "secret=" + s), Url(baseUrl, "index.php/" + s)],
                "php artisan up --secret=" + s, Live(st.active, now))
  }

  // ---------------------------------------------------------------------
  // Deactivation

  /** The `$results` array of `deactivateEmergencyLockdown`. */
  datatype Deactivation = Deactivation(
    status: Status,
    maintenanceDisabled: bool,
    usersRestored: nat,
    htaccessCleaned: bool,
    cacheCleared: bool)

  /** The high alert that closes a deactivation. */
  function DeactivationRequest(caller: Caller, now: nat): AlertService.AlertRequest {
    AlertService.AlertRequest(
      "emergency_lockdown_deactivated",
      "\U{2705} Emergency Lockdown Deactivated",
      "System emergency lockdown has been deactivated. Normal operations resumed.",
      High,
      DeactivationMeta(ActorName(caller), now, caller.ip))
  }

  /** `deactivateEmergencyLockdown` with the restore step corrected: the
      snapshot users are re-enabled, the three cache keys are forgotten
      (so the lockdown is inactive and no access URL is offered), and one
      high alert is raised; a failure of that last alert only turns the
      status to failed. `upExitCode` is what `artisan up` returned. */
  function Deactivate(cfg: LockdownConfig, caller: Caller, st: LockdownState, now: nat,
                      upExitCode: int, alertThrows: bool, mailFailing: set<string>): (r: (Deactivation, LockdownState))
    ensures r.0.status == Success <==> !alertThrows
    ensures r.0.maintenanceDisabled <==> upExitCode == 0
    ensures r.0.usersRestored == |Live(st.snapshot, now).GetOr([])|
    ensures r.1.users == RestoreDisabledUsers(st.users, Live(st.snapshot, now).GetOr([])).1
    ensures r.1.active.None? && r.1.secret.None? && r.1.snapshot.None?
    ensures !IsLockdownActive(r.1, now) && GetEmergencyAccessUrl(r.1, now, "").None?
    ensures forall baseUrl :: GetEmergencyAccessInfo(r.1, now, baseUrl).Unavailable?
    ensures r.1.sessions == st.sessions && r.1.htaccess == st.htaccess
    ensures alertThrows ==> r.1.sink == st.sink
    ensures !alertThrows ==> r.1.sink == AlertService.CreateAlert(cfg.alerts, st.sink, DeactivationRequest(caller, now), now, mailFailing)
  {
    var restored := RestoreDisabledUsers(st.users, Live(st.snapshot, now).GetOr([]));
    var cleared := st.(users := restored.1, active := None, secret := None, snapshot := None);
    if alertThrows then (Deactivation(Failed, upExitCode == 0, restored.0, true, true), cleared)
    else
      var sink := AlertService.CreateAlert(cfg.alerts, st.sink, DeactivationRequest(caller, now), now, mailFailing);
      (Deactivation(Success, upExitCode == 0, restored.0, true, true), cleared.(sink := sink))
  }

  /** `deactivateEmergencyLockdown` as written, with the restore step that
      raises an uncaught `Error` on a non-empty snapshot. `None` is that
      error escaping after `artisan up` ran: no user is re-enabled, no
      cache key is forgotten and no alert is raised. */
  function DeactivateAsWritten(cfg: LockdownConfig, caller: Caller, st: LockdownState, now: nat,
                               upExitCode: int, alertThrows: bool, mailFailing: set<string>): (r: (Option<Deactivation>, LockdownState))
    ensures r.0.None? <==> |Live(st.snapshot, now).GetOr([])| > 0
    ensures r.0.None? ==> r.1 == st
    ensures r.0.Some? ==> (r.0.value, r.1) == Deactivate(cfg, caller, st, now, upExitCode, alertThrows, mailFailing)
  {
    var snap := Live(st.snapshot, now).GetOr([]);
    match RestoreDisabledUsersAsWritten(st.users, snap)
    case None => (None, st)
    case Some(_) =>
      var d := Deactivate(cfg, caller, st, now, upExitCode, alertThrows, mailFailing);
      (Some(d.0), d.1)
  }

  // ---------------------------------------------------------------------
  // Properties across operations

  /** A successful activation that ran the maintenance step offers the
      bypass URL built from its own lockdown id, and keeps the lockdown
      active, for the next 24 hours. */
  lemma ActivationOffersAccess(cfg: LockdownConfig, caller: Caller, logs: seq<ActivityLog>, opts: LockdownOptions,
                               st: LockdownState, now: nat, stamp: string, isIpv6: string -> bool, f: Faults,
                               later: nat, baseUrl: string)
    requires !f.alertThrows && Runs(opts.maintenanceMode, true)
    requires now <= later < now + FlagTtl
    ensures var st1 := Activate(cfg, caller, logs, opts, st, now, stamp, isIpv6, f).1;
      && IsLockdownActive(st1, later)
      && GetEmergencyAccessUrl(st1, later, baseUrl) == Some(Url(baseUrl, SecretFor(LockdownId(now))))
      && GetEmergencyAccessInfo(st1, later, baseUrl).Available?
  {
    var st1 := Activate(cfg, caller, logs, opts, st, now, stamp, isIpv6, f).1;
    assert st1.secret == Some(Cached(SecretFor(LockdownId(now)), now + FlagTtl));
  }

  /** Activating with `disable_users` and deactivating within the
      snapshot's seven days gives every user back the active flag they
      had before, and leaves no lockdown behind. */
  lemma LockdownRoundTripRestoresUsers(cfg: LockdownConfig, caller: Caller, logs: seq<ActivityLog>, opts: LockdownOptions,
                                       st: LockdownState, now: nat, stamp: string, isIpv6: string -> bool, f: Faults,
                                       later: nat, upExitCode: int, alertThrows: bool, mailFailing: set<string>)
    requires UniqueIds(st.users)
    requires !f.alertThrows && Runs(opts.disableUsers, false) && !f.usersThrow
    requires now <= later < now + SnapshotTtl
    ensures var st1 := Activate(cfg, caller, logs, opts, st, now, stamp, isIpv6, f).1;
      var st2 := Deactivate(cfg, caller, st1, later, upExitCode, alertThrows, mailFailing).1;
      && !IsLockdownActive(st2, later)
      && |st2.users| == |st.users|
      && forall k :: 0 <= k < |st.users| ==>
           st2.users[k].id == st.users[k].id && st2.users[k].active == st.users[k].active
  {
    var email := caller.email.GetOr("");
    var reason := "Emergency Lockdown - " + stamp;
    var st1 := Activate(cfg, caller, logs, opts, st, now, stamp, isIpv6, f).1;
    var targets := DisableTargets(st.users, email, AdminEmails(cfg));
    assert st1.snapshot == Some(Cached(targets, now + SnapshotTtl));
    assert st1.users == DisableRows(st.users, email, AdminEmails(cfg), reason);
    assert Live(st1.snapshot, later).GetOr([]) == targets;
    DisableThenRestore(st.users, email, AdminEmails(cfg), reason);
  }

  /** With the restore step as written, the same round trip fails as soon
      as one user was disabled: the deactivation stops with an error, the
      lockdown stays active and that user stays disabled. */
  lemma DeactivationAsWrittenStrandsUsers(cfg: LockdownConfig, caller: Caller, logs: seq<ActivityLog>, opts: LockdownOptions,
                                          st: LockdownState, now: nat, stamp: string, isIpv6: string -> bool, f: Faults,
                                          later: nat, upExitCode: int, alertThrows: bool, mailFailing: set<string>, k: nat)
    requires !f.alertThrows && Runs(opts.disableUsers, false) && !f.usersThrow
    requires now <= later < now + FlagTtl
    requires k < |st.users| && ToDisable(st.users[k], caller.email.GetOr(""), AdminEmails(cfg))
    ensures var st1 := Activate(cfg, caller, logs, opts, st, now, stamp, isIpv6, f).1;
      var r := DeactivateAsWritten(cfg, caller, st1, later, upExitCode, alertThrows, mailFailing);
      && r.0.None?
      && IsLockdownActive(r.1, later)
      && !r.1.users[k].active
  {
    var email := caller.email.GetOr("");
    var st1 := Activate(cfg, caller, logs, opts, st, now, stamp, isIpv6, f).1;
    var targets := DisableTargets(st.users, email, AdminEmails(cfg));
    assert st.users[k] in targets;
    assert st1.snapshot == Some(Cached(targets, now + SnapshotTtl));
    assert Live(st1.snapshot, later).GetOr([]) == targets;
  }
}

=== FILE: lockdown_command.dfy ===
/** `watchdog:emergency-lockdown {action}`: validates the action, guards
    against activating an active lockdown or deactivating an inactive one,
    asks for confirmation unless `--force` is given, maps the flags to
    service options and turns the service's status into the exit code. */
module LockdownCommand {
  import opened Wrappers
  import opened Domain
  import opened Strings
  import opened Lockdown

  /** The seven step flags as the console hands them over (strings), and
      `--force`. */
  datatype CliOptions = CliOptions(
    maintenanceMode: string,
    blockIps: string,
    disableUsers: string,
    clearSessions: string,
    htaccessProtection: string,
    notifyAdmins: string,
    emergencyBackup: string,
    force: bool)

  /** The signature's defaults: `--disable-users=0`, every other flag `1`,
      no `--force`. */
  const DefaultCli := CliOptions("1", "1", "0", "1", "1", "1", "1", false)

  /** PHP's `(bool)` cast of a string: false only for `""` and `"0"`. */
  predicate CastBool(s: string) {
    Truthy(s)
  }

  /** The `$options` array the command builds: every key present. */
  function OptionsFrom(cli: CliOptions): (r: LockdownOptions)
    ensures r.maintenanceMode.Some? && r.blockIps.Some? && r.disableUsers.Some? && r.clearSessions.Some?
    ensures r.htaccessProtection.Some? && r.notifyAdmins.Some? && r.emergencyBackup.Some?
    ensures r.maintenanceMode.value <==> cli.maintenanceMode != "" && cli.maintenanceMode != "0"
    ensures r.blockIps.value <==> cli.blockIps != "" && cli.blockIps != "0"
    ensures r.disableUsers.value <==> cli.disableUsers != "" && cli.disableUsers != "0"
    ensures r.clearSessions.value <==> cli.clearSessions != "" && cli.clearSessions != "0"
    ensures r.htaccessProtection.value <==> cli.htaccessProtection != "" && cli.htaccessProtection != "0"
    ensures r.notifyAdmins.value <==> cli.notifyAdmins != "" && cli.notifyAdmins != "0"
    ensures r.emergencyBackup.value <==> cli.emergencyBackup != "" && cli.emergencyBackup != "0"
  {
    LockdownOptions(
      Some(CastBool(cli.maintenanceMode)),
      Some(CastBool(cli.blockIps)),
      Some(CastBool(cli.disableUsers)),
      Some(CastBool(cli.clearSessions)),
      Some(CastBool(cli.htaccessProtection)),
      Some(CastBool(cli.notifyAdmins)),
      Some(CastBool(cli.emergencyBackup)))
  }

  /** An options array with no key at all: the service's own defaults. */
  const NoOptions := LockdownOptions(None, None, None, None, None, None, None)

  /** One run of the command: its exit code, the state afterwards and the
      service result, if the service was called. */
  datatype Run = Run(exitCode: int, state: LockdownState, activation: Option<Activation>, deactivation: Option<Deactivation>)

  /** The command never got to the service. */
  function Untouched(exitCode: int, st: LockdownState): Run {
    Run(exitCode, st, None, None)
  }

  /** `handle`. `confirmed` is the operator's answer to the prompt, asked
      only without `--force`; `f` and `upExitCode` are the failures the
      service meets. Deactivation is the corrected `Deactivate`, whose
      restore of the disabled users always succeeds; as written, a
      non-empty snapshot makes the restore throw and the command end in an
      uncaught error (`DeactivateAsWritten`). */
  function Handle(action: string, cli: CliOptions, confirmed: bool, cfg: LockdownConfig, caller: Caller,
                  logs: seq<ActivityLog>, st: LockdownState, now: nat, stamp: string, isIpv6: string -> bool,
                  f: Faults, upExitCode: int): (r: Run)
    ensures action != "activate" && action != "deactivate" ==> r == Untouched(1, st)
    ensures action == "activate" && IsLockdownActive(st, now) ==> r == Untouched(0, st)
    ensures action == "deactivate" && !IsLockdownActive(st, now) ==> r == Untouched(0, st)
    ensures (action == "activate" || action == "deactivate") && !cli.force && !confirmed ==> r == Untouched(0, st)
    ensures r.activation.Some? <==>
      action == "activate" && !IsLockdownActive(st, now) && (cli.force || confirmed)
    ensures r.deactivation.Some? <==>
      action == "deactivate" && IsLockdownActive(st, now) && (cli.force || confirmed)
    ensures r.activation.Some? ==>
      (r.activation.value, r.state) == Activate(cfg, caller, logs, OptionsFrom(cli), st, now, stamp, isIpv6, f)
    ensures r.deactivation.Some? ==>
      (r.deactivation.value, r.state) == Deactivate(cfg, caller, st, now, upExitCode, f.alertThrows, f.mailFailing)
    ensures r.exitCode == 0 || r.exitCode == 1
    ensures r.exitCode == 1 <==>
      || (action != "activate" && action != "deactivate")
      || (r.activation.Some? && r.activation.value.status == Failed)
      || (r.deactivation.Some? && r.deactivation.value.status == Failed)
  {
    if action != "activate" && action != "deactivate" then Untouched(1, st)
    else if action == "activate" then
      if IsLockdownActive(st, now) then Untouched(0, st)
      else if !cli.force && !confirmed then Untouched(0, st)
      else
        var a := Activate(cfg, caller, logs, OptionsFrom(cli), st, now, stamp, isIpv6, f);
        Run(if a.0.status == Success then 0 else 1, a.1, Some(a.0), None)
    else
      if !IsLockdownActive(st, now) then Untouched(0, st)
      else if !cli.force && !confirmed then Untouched(0, st)
      else
        var d := Deactivate(cfg, caller, st, now, upExitCode, f.alertThrows, f.mailFailing);
        Run(if d.0.status == Success then 0 else 1, d.1, None, Some(d.0))
  }

  /** The command's flag defaults select the same steps as the service's
      defaults for a missing key: user disabling off, every other step on. */
  lemma DefaultFlagsMatchServiceDefaults()
    ensures var o := OptionsFrom(DefaultCli);
      && Runs(o.maintenanceMode, true) == Runs(NoOptions.maintenanceMode, true) == true
      && Runs(o.blockIps, true) == Runs(NoOptions.blockIps, true) == true
      && Runs(o.disableUsers, false) == Runs(NoOptions.disableUsers, false) == false
      && Runs(o.clearSessions, true) == Runs(NoOptions.clearSessions, true) == true
      && Runs(o.htaccessProtection, true) == Runs(NoOptions.htaccessProtection, true) == true
      && Runs(o.notifyAdmins, true) == Runs(NoOptions.notifyAdmins, true) == true
      && Runs(o.emergencyBackup, true) == Runs(NoOptions.emergencyBackup, true) == true
  {
    assert "0" != "" && "1" != "" && "1" != "0";
  }

  /** Running the command with the default flags reports exactly what the
      service reports when called with no options at all. */
  lemma DefaultFlagsSameActivation(cfg: LockdownConfig, caller: Caller, logs: seq<ActivityLog>, st: LockdownState,
                                   now: nat, stamp: string, isIpv6: string -> bool, f: Faults)
    ensures Activate(cfg, caller, logs, OptionsFrom(DefaultCli), st, now, stamp, isIpv6, f).0
         == Activate(cfg, caller, logs, NoOptions, st, now, stamp, isIpv6, f).0
  {
    DefaultFlagsMatchServiceDefaults();
  }

  /** Activating twice in a row: the second run finds the lockdown active
      and exits 0 without touching anything. */
  lemma SecondActivationIsRefused(cli: CliOptions, confirmed: bool, cfg: LockdownConfig, caller: Caller,
                                  logs: seq<ActivityLog>, st: LockdownState, now: nat, later: nat, stamp: string,
                                  isIpv6: string -> bool, f: Faults, g: Faults, upExitCode: int)
    requires cli.force && !f.alertThrows && !IsLockdownActive(st, now)
    requires now <= later < now + FlagTtl
    ensures var first := Handle("activate", cli, confirmed, cfg, caller, logs, st, now, stamp, isIpv6, f, upExitCode);
      && first.exitCode == 0
      && Handle("activate", cli, confirmed, cfg, caller, logs, first.state, later, stamp, isIpv6, g, upExitCode)
         == Untouched(0, first.state)
  {
    var first := Handle("activate", cli, confirmed, cfg, caller, logs, st, now, stamp, isIpv6, f, upExitCode);
    assert IsLockdownActive(first.state, later);
  }

  /** A forced deactivation after a forced activation exits 0 when the
      closing alert succeeds, and leaves no lockdown (with the corrected
      restore of disabled users). */
  lemma ActivateThenDeactivate(cli: CliOptions, cfg: LockdownConfig, caller: Caller, logs: seq<ActivityLog>,
                               st: LockdownState, now: nat, later: nat, stamp: string, isIpv6: string -> bool,
                               f: Faults, upExitCode: int)
    requires cli.force && !f.alertThrows && !IsLockdownActive(st, now)
    requires now <= later < now + FlagTtl
    ensures var first := Handle("activate", cli, false, cfg, caller, logs, st, now, stamp, isIpv6, f, upExitCode);
      var second := Handle("deactivate", cli, false, cfg, caller, logs, first.state, later, stamp, isIpv6, f, upExitCode);
      && first.exitCode == 0 && first.activation.Some?
      && second.exitCode == 0 && second.deactivation.Some?
      && !IsLockdownActive(second.state, later)
  {
  }
}

=== FILE: malware.dfy ===
/** Signature-based malware detection of the `watchdog:scan` command:
    every `.php` file the scan visits is matched against the configured
    signatures in order, and the first signature that matches produces one
    detection row and one critical alert. Pattern matching itself
    (`preg_match`) is a parameter. */
module Malware {
  import opened Wrappers
  import opened Domain
  import opened Strings
  import AlertService
  import FileIntegrity

  /** One configured signature: a threat name and its PCRE pattern. */
  datatype Signature = Signature(threatType: string, pattern: string)

  /** The shipped `malware_detection.signatures`, in configuration order. */
  const DefaultSignatures: seq<Signature> := [
    Signature("php_eval", "/eval\\s*\\(/i"),
    Signature("php_system", "/system\\s*\\(/i"),
    Signature("php_exec", "/exec\\s*\\(/i"),
    Signature("php_shell_exec", "/shell_exec\\s*\\(/i"),
    Signature("php_passthru", "/passthru\\s*\\(/i"),
    Signature("base64_decode", "/base64_decode\\s*\\(/i"),
    Signature("file_get_contents", "/file_get_contents\\s*\\(\\s*['\"]https?:/i"),
    Signature("curl_exec", "/curl_exec\\s*\\(/i"),
    Signature("web_shell", "/\\$_(?:GET|POST|REQUEST)\\s*\\[\\s*['\"](?:cmd|command|exec|system)/i")]

  /** `preg_match($pattern, $content, $matches)`: the text of the first
      match (`$matches[0]`), or `None` when the pattern does not match. */
  type Matcher = (string, string) -> Option<string>

  predicate Matches(m: Matcher, s: Signature, content: string) {
    m(s.pattern, content).Some?
  }

  /** The index of the first signature at or after `i` that matches. */
  function FirstMatchFrom(sigs: seq<Signature>, m: Matcher, content: string, i: nat): (r: Option<nat>)
    requires i <= |sigs|
    ensures r.Some? ==> i <= r.value < |sigs| && Matches(m, sigs[r.value], content)
    ensures r.Some? ==> forall k :: i <= k < r.value ==> !Matches(m, sigs[k], content)
    ensures r.None? ==> forall k :: i <= k < |sigs| ==> !Matches(m, sigs[k], content)
    decreases |sigs| - i
  {
    if i == |sigs| then None
    else if Matches(m, sigs[i], content) then Some(i)
    else FirstMatchFrom(sigs, m, content, i + 1)
  }

  /** The signature that wins for `content`: the first in order that
      matches, and none exactly when no signature matches. */
  function FirstMatch(sigs: seq<Signature>, m: Matcher, content: string): (r: Option<nat>)
    ensures r.Some? ==> r.value < |sigs| && Matches(m, sigs[r.value], content)
    ensures r.Some? ==> forall k :: 0 <= k < r.value ==> !Matches(m, sigs[k], content)
    ensures r.None? <==> forall k :: 0 <= k < |sigs| ==> !Matches(m, sigs[k], content)
  {
    FirstMatchFrom(sigs, m, content, 0)
  }

  /** The search from `j` lands on `i` when `i` matches and nothing from
      `j` up to it does. */
  lemma {:induction false} FirstMatchFromIs(sigs: seq<Signature>, m: Matcher, content: string, j: nat, i: nat)
    requires j <= i < |sigs| && Matches(m, sigs[i], content)
    requires forall k :: j <= k < i ==> !Matches(m, sigs[k], content)
    ensures FirstMatchFrom(sigs, m, content, j) == Some(i)
    decreases i - j
  {
    if j < i {
      FirstMatchFromIs(sigs, m, content, j + 1, i);
    }
  }

  /** The winner is unique: any index that matches with no match before it
      is the one `FirstMatch` returns. */
  lemma FirstMatchUnique(sigs: seq<Signature>, m: Matcher, content: string, i: nat)
    requires i < |sigs| && Matches(m, sigs[i], content)
    requires forall k :: 0 <= k < i ==> !Matches(m, sigs[k], content)
    ensures FirstMatch(sigs, m, content) == Some(i)
  {
    FirstMatchFromIs(sigs, m, content, 0, i);
  }

  const CriticalThreats: seq<string> := ["php_system", "php_exec", "php_shell_exec", "web_shell"]
  const HighThreats: seq<string> := ["php_eval", "file_get_contents", "curl_exec"]

  /** `calculateRiskLevel`: a fixed table by threat name; names in neither
      list (`php_passthru`, `base64_decode`, or any name a user adds) are
      medium. */
  function RiskOf(threatType: string): (r: Level)
    ensures r == Critical <==> threatType in CriticalThreats
    ensures r == High <==> threatType in HighThreats
    ensures r == Medium <==> threatType !in CriticalThreats && threatType !in HighThreats
    ensures r != Low
  {
    if threatType in CriticalThreats then Critical
    else if threatType in HighThreats then High
    else Medium
  }

  /** The risk levels of the shipped signatures: four critical, three
      high, and `php_passthru` and `base64_decode` medium. */
  lemma DefaultSignatureRisks()
    ensures RiskOf(DefaultSignatures[0].threatType) == High
    ensures RiskOf(DefaultSignatures[1].threatType) == Critical
    ensures RiskOf(DefaultSignatures[2].threatType) == Critical
    ensures RiskOf(DefaultSignatures[3].threatType) == Critical
    ensures RiskOf(DefaultSignatures[4].threatType) == Medium
    ensures RiskOf(DefaultSignatures[5].threatType) == Medium
    ensures RiskOf(DefaultSignatures[6].threatType) == High
    ensures RiskOf(DefaultSignatures[7].threatType) == High
    ensures RiskOf(DefaultSignatures[8].threatType) == Critical
  {
    assert DefaultSignatures[4].threatType != CriticalThreats[0];
    assert DefaultSignatures[5].threatType != HighThreats[1];
  }

  /** The 1-based number of the first of `lines` from `k` on that contains
      `needle`, or 0 when none does. */
  function FirstLineFrom(lines: seq<string>, needle: string, k: nat): (r: nat)
    requires k <= |lines|
    ensures r == 0 <==> forall j :: k <= j < |lines| ==> !Contains(lines[j], needle)
    ensures r != 0 ==> k < r <= |lines| && Contains(lines[r - 1], needle)
    ensures r != 0 ==> forall j :: k <= j < r - 1 ==> !Contains(lines[j], needle)
    decreases |lines| - k
  {
    if k == |lines| then 0
    else if Contains(lines[k], needle) then k + 1
    else FirstLineFrom(lines, needle, k + 1)
  }

  /** `getLineNumber`: 0 for an empty match (PHP's `empty` also holds for
      `"0"`); otherwise the 1-based number of the first line that contains
      the match whole, or 0 when no single line does. */
  function LineNumber(content: string, text: string): (r: nat)
    ensures !Truthy(text) ==> r == 0
    ensures Truthy(text) && r != 0 ==>
      var lines := Split(content, '\n');
      && r <= |lines| && Contains(lines[r - 1], text)
      && forall j :: 0 <= j < r - 1 ==> !Contains(lines[j], text)
    ensures Truthy(text) ==> (r == 0 <==>
      forall j :: 0 <= j < |Split(content, '\n')| ==> !Contains(Split(content, '\n')[j], text))
  {
    if !Truthy(text) then 0 else FirstLineFrom(Split(content, '\n'), text, 0)
  }

  /** The search from line `k` lands on line `i` when it holds the
      needle and no line from `k` up to it does. */
  lemma {:induction false} FirstLineFromIs(lines: seq<string>, needle: string, k: nat, i: nat)
    requires k <= i < |lines| && Contains(lines[i], needle)
    requires forall j :: k <= j < i ==> !Contains(lines[j], needle)
    ensures FirstLineFrom(lines, needle, k) == i + 1
    decreases i - k
  {
    if k < i {
      FirstLineFromIs(lines, needle, k + 1, i);
    }
  }

  /** Numbering agrees with the lines the file is made of: in a file built
      from separator-free lines, the match is reported on the first line
      holding it. */
  lemma LineNumberOfJoinedLines(lines: seq<string>, text: string, i: nat)
    requires |lines| >= 1 && i < |lines|
    requires forall k :: 0 <= k < |lines| ==> '\n' !in lines[k]
    requires Truthy(text)
    requires Contains(lines[i], text)
    requires forall k :: 0 <= k < i ==> !Contains(lines[k], text)
    ensures LineNumber(Join(lines, '\n'), text) == i + 1
  {
    SplitJoin(lines, '\n');
    FirstLineFromIs(lines, text, 0, i);
  }

  /** A character of a contained needle is a character of the haystack. */
  lemma ContainedCharacter(hay: string, needle: string, c: char)
    requires Contains(hay, needle) && c in needle
    ensures c in hay
  {
    var i :| OccursAt(hay, needle, i);
    var j :| 0 <= j < |needle| && needle[j] == c;
    assert hay[i..i + |needle|][j] == c;
  }

  /** A match spanning a line break lies on no single line, so it is
      reported on line 0. */
  lemma MultiLineMatchHasNoLine(content: string, text: string)
    requires '\n' in text
    ensures LineNumber(content, text) == 0
  {
    var lines := Split(content, '\n');
    forall j | 0 <= j < |lines| ensures !Contains(lines[j], text) {
      if Contains(lines[j], text) {
        ContainedCharacter(lines[j], text, '\n');
        assert false;
      }
    }
  }

  /** The detection rows and the alert sink the malware scan writes to. */
  datatype MalwareState = MalwareState(detections: seq<Detection>, sink: AlertService.Sink)

  function MalwareRequest(p: string, threatType: string): AlertService.AlertRequest {
    AlertService.AlertRequest("malware_detected", "Malware Detected: " + Basename(p),
                              "Malware threat detected in file: " + p + " (Type: " + threatType + ")",
                              Critical, MalwareMeta(p, threatType, RiskOf(threatType)))
  }

  /** `scanFileForMalware`: the first matching signature yields one row in
      status detected, carrying the signature, the matched text and its
      line, and one critical alert whatever the signature's own risk
      level (lost when its insert throws, as the call is wrapped in its
      own try/catch); a file no signature matches leaves everything as it
      was. */
  function ScanFile(c: FileIntegrity.Ctx, sigs: seq<Signature>, m: Matcher, fs: FileIntegrity.FileSystem,
                    st: MalwareState, p: string): (r: (Option<Detection>, MalwareState))
    requires p in fs.files
    ensures r.0.Some? <==> FirstMatch(sigs, m, fs.files[p].content).Some?
    ensures r.0.None? ==> r.1 == st
    ensures r.0.Some? ==>
      var f := fs.files[p];
      var sig := sigs[FirstMatch(sigs, m, f.content).value];
      var d := r.0.value;
      && d.filePath == p && d.threatType == sig.threatType && d.signatureMatched == sig.pattern
      && Some(d.matchedText) == m(sig.pattern, f.content)
      && d.lineNumber == LineNumber(f.content, d.matchedText)
      && d.riskLevel == RiskOf(sig.threatType) && d.status == Detected
      && d.fileSize == f.size && d.createdAt == c.now
      && r.1.detections == st.detections + [d]
      && r.1.sink == FileIntegrity.RaiseAlert(c, st.sink, p, MalwareRequest(p, sig.threatType))
  {
    var f := fs.files[p];
    match FirstMatch(sigs, m, f.content)
    case None => (None, st)
    case Some(i) =>
      var sig := sigs[i];
      var text := m(sig.pattern, f.content).value;
      var d := Detection(p, sig.threatType, sig.pattern, text, f.size, c.now,
                         LineNumber(f.content, text), RiskOf(sig.threatType), Detected, c.now);
      var sink := FileIntegrity.RaiseAlert(c, st.sink, p, MalwareRequest(p, sig.threatType));
      (Some(d), MalwareState(st.detections + [d], sink))
  }

  /** Only files whose extension is exactly `php` are scanned. */
  predicate IsPhp(p: string) {
    Extension(p) == "php"
  }

  /** Whether scanning `p` produces a detection. */
  predicate Hit(sigs: seq<Signature>, m: Matcher, fs: FileIntegrity.FileSystem, p: string) {
    p in fs.files && IsPhp(p) && FirstMatch(sigs, m, fs.files[p].content).Some?
  }

  /** One file of the pass: scanned when it is a `.php` file, skipped
      otherwise. */
  function Visit(c: FileIntegrity.Ctx, sigs: seq<Signature>, m: Matcher, fs: FileIntegrity.FileSystem,
                 st: MalwareState, p: string): (Option<Detection>, MalwareState)
    requires p in fs.files
  {
    if IsPhp(p) then ScanFile(c, sigs, m, fs, st, p) else (None, st)
  }

  function AsSeq<T>(o: Option<T>): seq<T> {
    if o.Some? then [o.value] else []
  }

  /** The file paths of the detections, in order. */
  function DetectionPaths(found: seq<Detection>): (r: seq<string>)
    ensures |r| == |found|
    ensures forall k :: 0 <= k < |r| ==> r[k] == found[k].filePath
  {
    seq(|found|, k requires 0 <= k < |found| => found[k].filePath)
  }

  lemma DetectionPathsConcat(a: seq<Detection>, b: seq<Detection>)
    ensures DetectionPaths(a + b) == DetectionPaths(a) + DetectionPaths(b)
  {
    var l := DetectionPaths(a + b);
    var r := DetectionPaths(a) + DetectionPaths(b);
    forall k | 0 <= k < |l| ensures l[k] == r[k] {
      if k < |a| {
        assert (a + b)[k] == a[k];
      } else {
        assert (a + b)[k] == b[k - |a|];
      }
    }
  }

  /** The malware pass over `paths`, collecting the detections. */
  function ScanFiles(c: FileIntegrity.Ctx, sigs: seq<Signature>, m: Matcher, fs: FileIntegrity.FileSystem,
                     st: MalwareState, paths: seq<string>): (r: (seq<Detection>, MalwareState))
    requires forall k :: 0 <= k < |paths| ==> paths[k] in fs.files
    decreases |paths|
  {
    if |paths| == 0 then ([], st)
    else
      var (first, st1) := Visit(c, sigs, m, fs, st, paths[0]);
      var (rest, st2) := ScanFiles(c, sigs, m, fs, st1, paths[1..]);
      (AsSeq(first) + rest, st2)
  }

  /** `Hit` for one configuration, as a predicate on paths. */
  function HitOf(sigs: seq<Signature>, m: Matcher, fs: FileIntegrity.FileSystem): string -> bool {
    p => Hit(sigs, m, fs, p)
  }

  /** Every detection names a visited file that is a hit. */
  ghost predicate FoundSound(hit: string -> bool, paths: seq<string>, found: seq<Detection>) {
    forall k :: 0 <= k < |found| ==> found[k].filePath in paths && hit(found[k].filePath)
  }

  /** Every visited file that is a hit is detected. */
  ghost predicate FoundComplete(hit: string -> bool, paths: seq<string>, found: seq<Detection>) {
    forall p :: p in paths && hit(p) ==> exists k :: 0 <= k < |found| && found[k].filePath == p
  }

  /** `after` extends `before` with critical `malware_detected` alerts only. */
  ghost predicate AddsMalwareAlerts(before: seq<Alert>, after: seq<Alert>) {
    && |before| <= |after|
    && after[..|before|] == before
    && (forall k :: |before| <= k < |after| ==>
          after[k].severity == Critical && after[k].alertType == "malware_detected")
  }

  /** What a malware pass does: the detections found are appended to the
      table; they name exactly the visited `.php` files some signature
      matches, each with one new critical `malware_detected` alert unless
      its insert throws, and earlier alerts are kept. */
  ghost predicate ScanOutcome(c: FileIntegrity.Ctx, sigs: seq<Signature>, m: Matcher, fs: FileIntegrity.FileSystem,
                              st: MalwareState, paths: seq<string>)
    requires forall k :: 0 <= k < |paths| ==> paths[k] in fs.files
  {
    var r := ScanFiles(c, sigs, m, fs, st, paths);
    PassFacts(c, HitOf(sigs, m, fs), paths, st, r.0, r.1)
  }

  /** A pass over `paths` from `st` to `st2` that found `found`. */
  ghost predicate PassFacts(c: FileIntegrity.Ctx, hit: string -> bool, paths: seq<string>, st: MalwareState,
                            found: seq<Detection>, st2: MalwareState) {
    && st2.detections == st.detections + found
    && FoundSound(hit, paths, found)
    && FoundComplete(hit, paths, found)
    && |st2.sink.alerts| == |st.sink.alerts| + FileIntegrity.AlertCount(c, DetectionPaths(found))
    && AddsMalwareAlerts(st.sink.alerts, st2.sink.alerts)
  }

  /** The visit of one file: at most one detection, for that file, exactly
      when it is a hit, with one alert of its own unless it is lost. */
  ghost predicate VisitFacts(c: FileIntegrity.Ctx, hit: string -> bool, st: MalwareState, st1: MalwareState, p: string, head: seq<Detection>) {
    && |head| <= 1
    && (|head| == 1 <==> hit(p))
    && (|head| == 1 ==> head[0].filePath == p)
    && st1.detections == st.detections + head
    && |st1.sink.alerts| == |st.sink.alerts| + FileIntegrity.AlertCount(c, DetectionPaths(head))
    && AddsMalwareAlerts(st.sink.alerts, st1.sink.alerts)
  }

  /** A malware alert adds one critical `malware_detected` row, or none
      when it is lost. */
  lemma MalwareAlertAdds(c: FileIntegrity.Ctx, sink: AlertService.Sink, p: string, threatType: string)
    ensures var after := FileIntegrity.RaiseAlert(c, sink, p, MalwareRequest(p, threatType));
      && AddsMalwareAlerts(sink.alerts, after.alerts)
      && |after.alerts| == |sink.alerts| + FileIntegrity.AlertCount(c, [p])
  {
    var after := FileIntegrity.RaiseAlert(c, sink, p, MalwareRequest(p, threatType));
    assert after.alerts[..|sink.alerts|] == sink.alerts;
    assert [p][1..] == [];
  }

  /** The visit of a file that is a hit: one detection, for it, appended
      to the table, and one malware alert. */
  lemma VisitHit(c: FileIntegrity.Ctx, sigs: seq<Signature>, m: Matcher, fs: FileIntegrity.FileSystem,
                 st: MalwareState, p: string)
    requires p in fs.files && Hit(sigs, m, fs, p)
    ensures var (first, st1) := Visit(c, sigs, m, fs, st, p);
      && first.Some? && first.value.filePath == p
      && st1.detections == st.detections + [first.value]
      && |st1.sink.alerts| == |st.sink.alerts| + FileIntegrity.AlertCount(c, [p])
      && AddsMalwareAlerts(st.sink.alerts, st1.sink.alerts)
  {
    var sig := sigs[FirstMatch(sigs, m, fs.files[p].content).value];
    MalwareAlertAdds(c, st.sink, p, sig.threatType);
  }

  /** The visit of a file that is not a hit changes nothing. */
  lemma VisitMiss(c: FileIntegrity.Ctx, sigs: seq<Signature>, m: Matcher, fs: FileIntegrity.FileSystem,
                  st: MalwareState, p: string)
    requires p in fs.files && !Hit(sigs, m, fs, p)
    ensures Visit(c, sigs, m, fs, st, p) == (None, st)
  {
  }

  lemma VisitStep(c: FileIntegrity.Ctx, sigs: seq<Signature>, m: Matcher, fs: FileIntegrity.FileSystem,
                  st: MalwareState, p: string)
    requires p in fs.files
    ensures VisitFacts(c, HitOf(sigs, m, fs), st, Visit(c, sigs, m, fs, st, p).1, p, AsSeq(Visit(c, sigs, m, fs, st, p).0))
  {
    if Hit(sigs, m, fs, p) {
      VisitStepHit(c, sigs, m, fs, st, p);
    } else {
      VisitStepMiss(c, sigs, m, fs, st, p);
    }
  }

  lemma VisitStepHit(c: FileIntegrity.Ctx, sigs: seq<Signature>, m: Matcher, fs: FileIntegrity.FileSystem,
                     st: MalwareState, p: string)
    requires p in fs.files && Hit(sigs, m, fs, p)
    ensures VisitFacts(c, HitOf(sigs, m, fs), st, Visit(c, sigs, m, fs, st, p).1, p, AsSeq(Visit(c, sigs, m, fs, st, p).0))
  {
    var v := Visit(c, sigs, m, fs, st, p);
    VisitHit(c, sigs, m, fs, st, p);
    assert HitOf(sigs, m, fs)(p);
    HitFacts(c, HitOf(sigs, m, fs), st, v.0, v.1, p);
  }

  /** The visit facts of a hit, from what the visit returned. */
  lemma HitFacts(c: FileIntegrity.Ctx, hit: string -> bool, st: MalwareState, first: Option<Detection>,
                 st1: MalwareState, p: string)
    requires hit(p) && first.Some? && first.value.filePath == p
    requires st1.detections == st.detections + [first.value]
    requires |st1.sink.alerts| == |st.sink.alerts| + FileIntegrity.AlertCount(c, [p])
    requires AddsMalwareAlerts(st.sink.alerts, st1.sink.alerts)
    ensures VisitFacts(c, hit, st, st1, p, AsSeq(first))
  {
    var paths := DetectionPaths(AsSeq(first));
    assert |paths| == 1 && paths[0] == p;
    assert paths == [p];
  }

  lemma VisitStepMiss(c: FileIntegrity.Ctx, sigs: seq<Signature>, m: Matcher, fs: FileIntegrity.FileSystem,
                      st: MalwareState, p: string)
    requires p in fs.files && !Hit(sigs, m, fs, p)
    ensures VisitFacts(c, HitOf(sigs, m, fs), st, Visit(c, sigs, m, fs, st, p).1, p, AsSeq(Visit(c, sigs, m, fs, st, p).0))
  {
    VisitMiss(c, sigs, m, fs, st, p);
    assert !HitOf(sigs, m, fs)(p);
    assert DetectionPaths([]) == [];
    assert st.sink.alerts[..|st.sink.alerts|] == st.sink.alerts;
  }

  lemma FoundStep(hit: string -> bool, paths: seq<string>, head: seq<Detection>, rest: seq<Detection>)
    requires |paths| > 0 && |head| <= 1
    requires |head| == 1 <==> hit(paths[0])
    requires |head| == 1 ==> head[0].filePath == paths[0]
    requires FoundSound(hit, paths[1..], rest) && FoundComplete(hit, paths[1..], rest)
    ensures FoundSound(hit, paths, head + rest) && FoundComplete(hit, paths, head + rest)
  {
    var found := head + rest;
    forall k | 0 <= k < |found|
      ensures found[k].filePath in paths && hit(found[k].filePath)
    {
      if k >= |head| {
        assert found[k] == rest[k - |head|];
      }
    }
    forall p | p in paths && hit(p)
      ensures exists k :: 0 <= k < |found| && found[k].filePath == p
    {
      if p == paths[0] {
        assert found[0].filePath == p;
      } else {
        assert p in paths[1..];
        var k :| 0 <= k < |rest| && rest[k].filePath == p;
        assert found[|head| + k].filePath == p;
      }
    }
  }

  /** Adding malware alerts twice adds malware alerts. */
  lemma AddsMalwareAlertsTransitive(a0: seq<Alert>, a1: seq<Alert>, a2: seq<Alert>)
    requires AddsMalwareAlerts(a0, a1) && AddsMalwareAlerts(a1, a2)
    ensures AddsMalwareAlerts(a0, a2)
  {
    forall k | |a0| <= k < |a1| ensures a2[k] == a1[k] {
      assert a2[..|a1|][k] == a2[k];
    }
    assert a2[..|a0|] == a2[..|a1|][..|a0|];
  }

  /** One file of the pass: from the facts about the rest to the facts
      about the whole. */
  lemma PassStep(c: FileIntegrity.Ctx, hit: string -> bool, paths: seq<string>, st: MalwareState, st1: MalwareState,
                 head: seq<Detection>, rest: seq<Detection>, st2: MalwareState)
    requires |paths| > 0
    requires VisitFacts(c, hit, st, st1, paths[0], head)
    requires PassFacts(c, hit, paths[1..], st1, rest, st2)
    ensures PassFacts(c, hit, paths, st, head + rest, st2)
  {
    FoundStep(hit, paths, head, rest);
    assert st2.detections == st.detections + (head + rest);
    assert FoundSound(hit, paths, head + rest);
    assert FoundComplete(hit, paths, head + rest);
    DetectionPathsConcat(head, rest);
    FileIntegrity.AlertCountConcat(c, DetectionPaths(head), DetectionPaths(rest));
    var n1 := FileIntegrity.AlertCount(c, DetectionPaths(head));
    var n2 := FileIntegrity.AlertCount(c, DetectionPaths(rest));
    assert |st2.sink.alerts| == |st.sink.alerts| + n1 + n2;
    assert FileIntegrity.AlertCount(c, DetectionPaths(head + rest)) == n1 + n2;
    AddsMalwareAlertsTransitive(st.sink.alerts, st1.sink.alerts, st2.sink.alerts);
  }

  lemma {:induction false} ScanFilesOutcome(c: FileIntegrity.Ctx, sigs: seq<Signature>, m: Matcher,
                                            fs: FileIntegrity.FileSystem, st: MalwareState, paths: seq<string>)
    requires forall k :: 0 <= k < |paths| ==> paths[k] in fs.files
    ensures ScanOutcome(c, sigs, m, fs, st, paths)
    decreases |paths|
  {
    if |paths| > 0 {
      var v := Visit(c, sigs, m, fs, st, paths[0]);
      var r := ScanFiles(c, sigs, m, fs, v.1, paths[1..]);
      assert ScanFiles(c, sigs, m, fs, st, paths) == (AsSeq(v.0) + r.0, r.1);
      VisitStep(c, sigs, m, fs, st, paths[0]);
      ScanFilesOutcome(c, sigs, m, fs, v.1, paths[1..]);
      PassStep(c, HitOf(sigs, m, fs), paths, st, v.1, AsSeq(v.0), r.0, r.1);
    } else {
      assert st.sink.alerts[..|st.sink.alerts|] == st.sink.alerts;
    }
  }

  /** `scanForMalware`: nothing when malware detection is disabled;
      otherwise every `.php` file the command's walk visits, root by root.
      A file under two configured roots is scanned, and detected, twice. */
  function ScanForMalware(c: FileIntegrity.Ctx, enabled: bool, sigs: seq<Signature>, m: Matcher,
                          fs: FileIntegrity.FileSystem, st: MalwareState): (r: (seq<Detection>, MalwareState))
    requires FileIntegrity.WellFormedFs(fs)
    ensures !enabled ==> r == ([], st)
    ensures var cc := c.(variant := FileIntegrity.ScanCommand);
      enabled ==> ScanOutcome(cc, sigs, m, fs, st, FileIntegrity.Scanned(cc, fs))
  {
    if !enabled then ([], st)
    else
      var cc := c.(variant := FileIntegrity.ScanCommand);
      ScanFilesOutcome(cc, sigs, m, fs, st, FileIntegrity.Scanned(cc, fs));
      ScanFiles(cc, sigs, m, fs, st, FileIntegrity.Scanned(cc, fs))
  }

  /** A matcher that finds `exec(` wherever it occurs literally, as the
      `php_exec` pattern does. */
  ghost predicate FindsExecCall(m: Matcher) {
    forall content: string :: Contains(content, "exec(") ==> m(DefaultSignatures[2].pattern, content).Some?
  }

  /** The `php_exec` pattern matches the tail of `shell_exec(` and of
      `curl_exec(`, and comes earlier in the signature order, so with the
      shipped signatures a file calling either is reported by one of the
      first three signatures: `php_shell_exec` and `curl_exec` never win,
      and a `curl_exec(` call is reported with critical rather than high
      risk. */
  lemma ShellAndCurlExecShadowed(m: Matcher, content: string)
    requires FindsExecCall(m)
    requires Contains(content, "shell_exec(") || Contains(content, "curl_exec(")
    ensures FirstMatch(DefaultSignatures, m, content).Some?
    ensures FirstMatch(DefaultSignatures, m, content).value <= 2
    ensures RiskOf(DefaultSignatures[FirstMatch(DefaultSignatures, m, content).value].threatType) != Medium
  {
    if Contains(content, "shell_exec(") {
      assert OccursAt("shell_exec(", "exec(", 6);
      ContainsTransitive(content, "shell_exec(", "exec(");
    } else {
      assert OccursAt("curl_exec(", "exec(", 5);
      ContainsTransitive(content, "curl_exec(", "exec(");
    }
    assert Matches(m, DefaultSignatures[2], content);
    DefaultSignatureRisks();
  }
}

=== FILE: navigation.dfy ===
/** When the security pages show up in the admin panel's navigation
    (`ConfiguresWatchdogNavigation`). The current route name, the
    `navigation.security` configuration and a page's own visibility and
    default sort overrides are parameters. */
module Navigation {
  import opened Wrappers
  import opened Strings

  /** The `navigation.security` configuration block; a missing `sort` key
      is `None`. */
  datatype NavConfig = NavConfig(hidden: bool, onlyOnSecurityPages: bool, sort: Option<int>)

  /** The visibility a page declares when it does not override it. */
  const DefaultVisibility: string := "conditional"

  const DashboardRoute: string := "filament.admin.pages.security.dashboard"

  /** Route-name fragments that mark a security page. */
  const SecurityRouteTokens: seq<string> := [
    "security.dashboard", "security", "file-integrity", "threat-timeline",
    "malware-detection", "forensic-analysis", "activity-logs", "security-alerts"]

  predicate IsOnSecurityDashboard(route: string) {
    route == DashboardRoute
  }

  /** Whether some token of `tokens` occurs in `route`, trying them in
      order. */
  function AnyTokenIn(route: string, tokens: seq<string>): (r: bool)
    ensures r <==> exists k :: 0 <= k < |tokens| && Contains(route, tokens[k])
  {
    if |tokens| == 0 then false
    else if Contains(route, tokens[0]) then true
    else
      var rest := AnyTokenIn(route, tokens[1..]);
      assert forall k :: 1 <= k < |tokens| ==> tokens[k] == tokens[1..][k - 1];
      rest
  }

  /** `isOnAnySecurityPage`: some security token occurs in the route
      name. */
  function IsOnAnySecurityPage(route: string): (r: bool)
    ensures r <==> exists k :: 0 <= k < |SecurityRouteTokens| && Contains(route, SecurityRouteTokens[k])
  {
    AnyTokenIn(route, SecurityRouteTokens)
  }

  /** The security dashboard is itself a security page. */
  lemma DashboardIsSecurityPage()
    ensures IsOnAnySecurityPage(DashboardRoute)
  {
    assert OccursAt(DashboardRoute, SecurityRouteTokens[0], 21);
    OccurrenceIsContained(DashboardRoute, SecurityRouteTokens[0], 21);
  }

  /** `shouldRegisterNavigation`. Hidden navigation shows nothing; with
      `only_on_security_pages` a page shows exactly on the dashboard route;
      otherwise `always` shows everywhere, `conditional` on any security
      page, and every other visibility nowhere. */
  function ShouldRegisterNavigation(cfg: NavConfig, visibility: string, route: string): (r: bool)
    ensures cfg.hidden ==> !r
    ensures !cfg.hidden && cfg.onlyOnSecurityPages ==> (r <==> route == DashboardRoute)
    ensures !cfg.hidden && !cfg.onlyOnSecurityPages ==>
      (r <==> visibility == "always" || (visibility == "conditional" && IsOnAnySecurityPage(route)))
  {
    if cfg.hidden then false
    else if cfg.onlyOnSecurityPages then IsOnSecurityDashboard(route)
    else
      match visibility
      case "always" => true
      case "conditional" => IsOnAnySecurityPage(route)
      case _ => false
  }

  /** On the security dashboard every page whose visibility is `always` or
      the default is listed, whatever `only_on_security_pages` says, unless
      navigation is hidden. */
  lemma DashboardShowsVisiblePages(cfg: NavConfig, visibility: string)
    requires !cfg.hidden && (visibility == "always" || visibility == DefaultVisibility)
    ensures ShouldRegisterNavigation(cfg, visibility, DashboardRoute)
  {
    DashboardIsSecurityPage();
  }

  /** `shouldAnySecurityPageRegister`: shown exactly on the dashboard
      route when navigation is not hidden. */
  function ShouldAnySecurityPageRegister(cfg: NavConfig, route: string): (r: bool)
    ensures r <==> !cfg.hidden && route == DashboardRoute
  {
    if cfg.hidden then false
    else if cfg.onlyOnSecurityPages then route == DashboardRoute
    else route == DashboardRoute
  }

  /** Both branches of `shouldAnySecurityPageRegister` agree, so the
      `only_on_security_pages` flag has no effect on it; and it agrees with
      the trait's own check for a page restricted to security pages. */
  lemma AnySecurityPageIgnoresOnlyFlag(cfg: NavConfig, route: string, visibility: string)
    ensures ShouldAnySecurityPageRegister(cfg, route)
      == ShouldAnySecurityPageRegister(cfg.(onlyOnSecurityPages := !cfg.onlyOnSecurityPages), route)
    ensures ShouldAnySecurityPageRegister(cfg, route)
      == ShouldRegisterNavigation(cfg.(onlyOnSecurityPages := true), visibility, route)
  {
  }

  /** `getNavigationGroup`: `Security`, or none when hidden. */
  function NavigationGroup(cfg: NavConfig): (r: Option<string>)
    ensures r.None? <==> cfg.hidden
    ensures r.Some? ==> r.value == "Security"
  {
    if cfg.hidden then None else Some("Security")
  }

  /** `getNavigationSort`: the configured sort (100 when absent) offset by
      the page's default sort (0 unless overridden). */
  function NavigationSort(cfg: NavConfig, defaultSort: int): (r: int)
    ensures cfg.sort.None? ==> r == 100 + defaultSort
    ensures cfg.sort.Some? ==> r - defaultSort == cfg.sort.value
  {
    cfg.sort.GetOr(100) + defaultSort
  }

  /** Pages keep their relative order whatever base sort is configured. */
  lemma SortOffsetsPreserveOrder(cfg1: NavConfig, cfg2: NavConfig, d1: int, d2: int)
    ensures NavigationSort(cfg1, d1) < NavigationSort(cfg1, d2) <==> NavigationSort(cfg2, d1) < NavigationSort(cfg2, d2)
    ensures NavigationSort(cfg1, d1) < NavigationSort(cfg1, d2) <==> d1 < d2
  {
  }
}

=== FILE: scan_command.dfy ===
/** `watchdog:scan` as a whole: the mode selection of `handle` and the
    order of its phases. In scan mode the change scan, the deleted-file
    sweep and the malware scan run one after the other; an exception
    escaping a phase ends the command with exit code 1, keeping what the
    earlier phases wrote. */
module ScanCommand {
  import opened Wrappers
  import opened Domain
  import opened FileIntegrity
  import Malware
  import AlertService

  /** The phases of one run, in order. */
  datatype Phase = BaselinePhase | ChangesPhase | DeletedPhase | MalwarePhase

  /** The tables the command writes. */
  datatype World = World(store: Store, detections: seq<Detection>, sink: AlertService.Sink)

  /** The command's result: exit code, the tables afterwards and the three
      lists it prints. */
  datatype ScanRun = ScanRun(
    exitCode: int,
    world: World,
    changes: seq<ChangeReport>,
    deleted: seq<string>,
    malware: seq<Detection>)

  /** The phases a mode runs. */
  predicate RunsIn(phase: Phase, baseline: bool) {
    if baseline then phase == BaselinePhase else phase != BaselinePhase
  }

  /** The context the command runs with: sha256, no size limit, and a
      try/catch around every alert. */
  function CommandCtx(c: Ctx): Ctx {
    c.(variant := ScanCommand)
  }

  /** Every file a walk visits exists. */
  lemma ScannedExist(c: Ctx, fs: FileSystem)
    ensures forall p :: p in Scanned(c, fs) ==> p in fs.files
  {
    var ps := Scanned(c, fs);
    forall p | p in ps ensures p in fs.files {
      var k :| 0 <= k < |ps| && ps[k] == p;
    }
  }

  /** The change report of a run against the records `before`: exactly
      the visited files that differ from their record, once each, new
      exactly when they had none. */
  ghost predicate ChangesReported(c: Ctx, fs: FileSystem, before: Store, changes: seq<ChangeReport>) {
    && ReportsSound(c, fs, before, Scanned(c, fs), changes)
    && ReportsComplete(c, fs, before, Scanned(c, fs), changes)
  }

  /** The records after the change scan: every visited file carries its
      current hash, no record is lost, and the others are as they were. */
  ghost predicate ScannedStore(c: Ctx, fs: FileSystem, before: Store, after: Store) {
    && (forall p :: p in after <==> p in before || p in Scanned(c, fs))
    && (forall p :: p in Scanned(c, fs) ==> p in after && after[p].hash == HashOf(c, fs.files[p]))
    && (forall p :: p in before && p !in Scanned(c, fs) ==> after[p] == before[p])
  }

  /** The records after the change scan and the sweep: as above, except
      that every record the sweep targets is marked deleted, and those are
      exactly the files reported deleted. */
  ghost predicate SweptStore(c: Ctx, fs: FileSystem, before: Store, after: Store, deleted: seq<string>) {
    && (forall p :: p in after <==> p in before || p in Scanned(c, fs))
    && (forall p :: p in Scanned(c, fs) ==> p in after && after[p].hash == HashOf(c, fs.files[p]))
    && (forall p :: p in before && p !in Scanned(c, fs) ==>
          after[p] == if SweepTarget(c.cfg, fs, p, before[p]) then MarkDeleted(before[p], c.now) else before[p])
    && (forall p :: p in deleted <==> p in before && SweepTarget(c.cfg, fs, p, before[p]))
  }

  /** The change-scan phase: the report and the records above, and one
      alert per report unless its insert throws. */
  function ChangesStep(c: Ctx, fs: FileSystem, st: ScanState): (r: (seq<ChangeReport>, ScanState))
    requires WellFormedFs(fs)
    ensures ChangesReported(c, fs, st.store, r.0)
    ensures ScannedStore(c, fs, st.store, r.1.store)
    ensures |r.1.sink.alerts| == |st.sink.alerts| + AlertCount(c, ReportPaths(r.0))
    ensures forall k :: 0 <= k < |r.0| ==> r.0[k].path in fs.files
  {
    var r := ScanForChanges(c, fs, st);
    ScannedExist(c, fs);
    assert forall k :: 0 <= k < |r.0| ==> r.0[k].path in Scanned(c, fs);
    r
  }

  /** The sweep after the change scan, with `order` naming every record
      not marked deleted before it: the records and the deleted list of
      `SweptStore`. */
  lemma SweepAfterScan(c: Ctx, fs: FileSystem, before: Store, st1: ScanState, order: seq<string>)
    requires ScannedStore(c, fs, before, st1.store)
    requires OrderCovers(before, order)
    ensures var sw := SweepDeleted(c, fs, st1, order);
      SweptStore(c, fs, before, sw.1.store, sw.0)
  {
    var sw := SweepDeleted(c, fs, st1, order);
    SweepDeletedSound(c, fs, st1, order);
    ScannedExist(c, fs);
    forall p | p in Scanned(c, fs) ensures p in sw.1.store && sw.1.store[p] == st1.store[p] {
      assert !SweepTarget(c.cfg, fs, p, st1.store[p]);
    }
    forall p | p in sw.0 ensures p in before && SweepTarget(c.cfg, fs, p, before[p]) {
      assert p !in fs.files;
    }
    forall p | p in before && SweepTarget(c.cfg, fs, p, before[p]) ensures p in sw.0 {
      assert p !in Scanned(c, fs);
    }
  }

  /** The sweep phase: one alert per deleted file unless its insert
      throws, no deleted file exists, and the set of records is kept. */
  function SweepStep(c: Ctx, fs: FileSystem, st: ScanState, order: seq<string>): (r: (seq<string>, ScanState))
    ensures |r.1.sink.alerts| == |st.sink.alerts| + AlertCount(c, r.0)
    ensures forall p :: p in r.0 ==> p !in fs.files
    ensures r.1.store.Keys == st.store.Keys
  {
    SweepDeletedSound(c, fs, st, order);
    SweepDeleted(c, fs, st, order)
  }

  /** The malware phase: nothing when detection is disabled; otherwise
      the detections name exactly the visited `.php` files some signature
      matches and are appended, one alert each unless its insert throws. */
  function MalwareStep(c: Ctx, enabled: bool, sigs: seq<Malware.Signature>, m: Malware.Matcher,
                       fs: FileSystem, st: Malware.MalwareState): (r: (seq<Detection>, Malware.MalwareState))
    requires WellFormedFs(fs) && c.variant == ScanCommand
    ensures !enabled ==> r == ([], st)
    ensures enabled ==> MalwareFound(c, sigs, m, fs, r.0)
    ensures r.1.detections == st.detections + r.0
    ensures |r.1.sink.alerts| == |st.sink.alerts| + AlertCount(c, Malware.DetectionPaths(r.0))
  {
    assert c.(variant := ScanCommand) == c;
    Malware.ScanForMalware(c, enabled, sigs, m, fs, st)
  }

  /** The detections of a malware pass over the command's walk: exactly
      the visited files that are hits. */
  ghost predicate MalwareFound(c: Ctx, sigs: seq<Malware.Signature>, m: Malware.Matcher, fs: FileSystem, found: seq<Detection>) {
    && Malware.FoundSound(Malware.HitOf(sigs, m, fs), Scanned(c, fs), found)
    && Malware.FoundComplete(Malware.HitOf(sigs, m, fs), Scanned(c, fs), found)
  }

  /** Baseline mode: the baseline alone, with no alert and no report. */
  function BaselineMode(c: Ctx, fs: FileSystem, w: World, failing: Option<Phase>): (r: ScanRun)
    requires c.variant == ScanCommand
    ensures r.exitCode == 0 <==> failing != Some(BaselinePhase)
    ensures r.exitCode == 0 ==> r.world.store == CreateBaseline(c, fs, w.store)
    ensures r.exitCode != 0 ==> r.world == w && r.exitCode == 1
    ensures r.changes == [] && r.deleted == [] && r.malware == []
    ensures r.world.sink == w.sink && r.world.detections == w.detections
    ensures w.store.Keys <= r.world.store.Keys
  {
    if failing == Some(BaselinePhase) then ScanRun(1, w, [], [], [])
    else
      var store := CreateBaseline(c, fs, w.store);
      assert w.store.Keys <= store.Keys;
      ScanRun(0, w.(store := store), [], [], [])
  }

  /** Scan mode from the malware phase on, after the change scan
      reported `changes` and the sweep reported `deleted`. */
  function FromMalwarePhase(c: Ctx, fs: FileSystem, w: World, malwareEnabled: bool,
                            sigs: seq<Malware.Signature>, m: Malware.Matcher, failing: Option<Phase>,
                            changes: seq<ChangeReport>, deleted: seq<string>, st: ScanState): (r: ScanRun)
    requires WellFormedFs(fs) && c.variant == ScanCommand
    ensures r.exitCode == (if failing == Some(MalwarePhase) then 1 else 0)
    ensures r.changes == changes && r.deleted == deleted
    ensures r.world.store == st.store
    ensures r.world.detections == w.detections + r.malware
    ensures |r.world.sink.alerts| == |st.sink.alerts| + AlertCount(c, Malware.DetectionPaths(r.malware))
    ensures failing == Some(MalwarePhase) || !malwareEnabled ==> r.malware == []
    ensures failing != Some(MalwarePhase) && malwareEnabled ==> MalwareFound(c, sigs, m, fs, r.malware)
  {
    if failing == Some(MalwarePhase) then ScanRun(1, World(st.store, w.detections, st.sink), changes, deleted, [])
    else
      var mw := MalwareStep(c, malwareEnabled, sigs, m, fs, Malware.MalwareState(w.detections, st.sink));
      ScanRun(0, World(st.store, mw.1.detections, mw.1.sink), changes, deleted, mw.0)
  }

  /** Scan mode from the sweep on, after the change scan reported
      `changes`. */
  function FromSweepPhase(c: Ctx, fs: FileSystem, w: World, malwareEnabled: bool,
                          sigs: seq<Malware.Signature>, m: Malware.Matcher, order: seq<string>,
                          failing: Option<Phase>, changes: seq<ChangeReport>, st: ScanState): (r: ScanRun)
    requires WellFormedFs(fs) && c.variant == ScanCommand
    ensures r.exitCode == (if failing == Some(DeletedPhase) || failing == Some(MalwarePhase) then 1 else 0)
    ensures r.changes == changes
    ensures failing == Some(DeletedPhase) ==> r.world.store == st.store && r.deleted == []
    ensures failing != Some(DeletedPhase) ==>
      r.deleted == SweepDeleted(c, fs, st, order).0 && r.world.store == SweepDeleted(c, fs, st, order).1.store
    ensures r.world.detections == w.detections + r.malware
    ensures |r.world.sink.alerts| == |st.sink.alerts| + AlertCount(c, r.deleted) + AlertCount(c, Malware.DetectionPaths(r.malware))
    ensures failing == Some(DeletedPhase) || failing == Some(MalwarePhase) || !malwareEnabled ==> r.malware == []
    ensures failing != Some(DeletedPhase) && failing != Some(MalwarePhase) && malwareEnabled ==>
      MalwareFound(c, sigs, m, fs, r.malware)
    ensures forall p :: p in r.deleted ==> p !in fs.files
  {
    if failing == Some(DeletedPhase) then ScanRun(1, World(st.store, w.detections, st.sink), changes, [], [])
    else
      var sw := SweepStep(c, fs, st, order);
      FromMalwarePhase(c, fs, w, malwareEnabled, sigs, m, failing, changes, sw.0, sw.1)
  }

  /** Whether `failing` names a phase of scan mode. */
  predicate ScanThrows(failing: Option<Phase>) {
    failing == Some(ChangesPhase) || failing == Some(DeletedPhase) || failing == Some(MalwarePhase)
  }

  /** What scan mode does, measured against the world `w` it starts from:
      up to the phase that throws, the change report and records of
      `ChangesReported` and `ScannedStore`, then the sweep of
      `SweptStore`, then the malware detections of `MalwareFound`; one
      alert per reported item unless its insert throws. */
  ghost predicate ScanModeOutcome(c: Ctx, fs: FileSystem, w: World, malwareEnabled: bool,
                                  sigs: seq<Malware.Signature>, m: Malware.Matcher, failing: Option<Phase>, r: ScanRun) {
    && r.exitCode == (if ScanThrows(failing) then 1 else 0)
    && (failing == Some(ChangesPhase) ==> r == ScanRun(1, w, [], [], []))
    && (failing != Some(ChangesPhase) ==> ChangesReported(c, fs, w.store, r.changes))
    && (failing == Some(DeletedPhase) ==> ScannedStore(c, fs, w.store, r.world.store) && r.deleted == [])
    && (!ScanThrows(failing) || failing == Some(MalwarePhase) ==> SweptStore(c, fs, w.store, r.world.store, r.deleted))
    && (!ScanThrows(failing) && malwareEnabled ==> MalwareFound(c, sigs, m, fs, r.malware))
    && (ScanThrows(failing) || !malwareEnabled ==> r.malware == [])
    && r.world.detections == w.detections + r.malware
    && |r.world.sink.alerts| == |w.sink.alerts| + AlertCount(c, ReportPaths(r.changes))
                                 + AlertCount(c, r.deleted) + AlertCount(c, Malware.DetectionPaths(r.malware))
  }

  /** The records the sweep's query returns, in `order`: every record not
      already marked deleted is among them. */
  predicate OrderCovers(store: Store, order: seq<string>) {
    forall p :: p in store && store[p].status != Deleted ==> p in order
  }

  /** Scan mode: the three phases in turn, up to the one that throws. */
  function ScanMode(c: Ctx, fs: FileSystem, w: World, malwareEnabled: bool, sigs: seq<Malware.Signature>,
                    m: Malware.Matcher, order: seq<string>, failing: Option<Phase>): (r: ScanRun)
    requires WellFormedFs(fs) && c.variant == ScanCommand
    requires OrderCovers(w.store, order)
    ensures ScanModeOutcome(c, fs, w, malwareEnabled, sigs, m, failing, r)
    ensures w.store.Keys <= r.world.store.Keys
    ensures forall k :: 0 <= k < |r.changes| ==> r.changes[k].path in fs.files
    ensures forall p :: p in r.deleted ==> p !in fs.files
  {
    if failing == Some(ChangesPhase) then ScanRun(1, w, [], [], [])
    else
      var ch := ChangesStep(c, fs, ScanState(w.store, w.sink));
      SweepAfterScan(c, fs, w.store, ch.1, order);
      FromSweepPhase(c, fs, w, malwareEnabled, sigs, m, order, failing, ch.0, ch.1)
  }

  /** `handle`. Monitoring disabled without `--force` exits 1 and does
      nothing. `--baseline` only takes the baseline. Otherwise the change
      scan, the sweep over the records in `order` (the order the query
      returns them) and, when enabled, the malware scan run in turn, as
      `ScanModeOutcome` states; `failing` names the phase, if any, that
      throws. The command itself always uses sha256 and no size limit, and
      swallows an alert whose insert throws. */
  function Handle(c: Ctx, fs: FileSystem, w: World, monitoringEnabled: bool, force: bool, baseline: bool,
                  malwareEnabled: bool, sigs: seq<Malware.Signature>, m: Malware.Matcher,
                  order: seq<string>, failing: Option<Phase>): (r: ScanRun)
    requires WellFormedFs(fs)
    requires OrderCovers(w.store, order)
    ensures !monitoringEnabled && !force ==> r == ScanRun(1, w, [], [], [])
    ensures (monitoringEnabled || force) ==>
      (r.exitCode == 0 <==> failing.None? || !RunsIn(failing.value, baseline))
    ensures r.exitCode == 0 || r.exitCode == 1
    ensures baseline ==>
      && r.changes == [] && r.deleted == [] && r.malware == []
      && r.world.sink == w.sink && r.world.detections == w.detections
    ensures baseline && r.exitCode == 0 ==>
      r.world.store == CreateBaseline(CommandCtx(c), fs, w.store)
    ensures (monitoringEnabled || force) && !baseline ==>
      ScanModeOutcome(CommandCtx(c), fs, w, malwareEnabled, sigs, m, failing, r)
    ensures r.world.detections == w.detections + r.malware
    ensures |r.world.sink.alerts| == |w.sink.alerts| + AlertCount(CommandCtx(c), ReportPaths(r.changes))
      + AlertCount(CommandCtx(c), r.deleted) + AlertCount(CommandCtx(c), Malware.DetectionPaths(r.malware))
    ensures w.store.Keys <= r.world.store.Keys
    ensures forall k :: 0 <= k < |r.changes| ==> r.changes[k].path in fs.files
    ensures forall p :: p in r.deleted ==> p !in fs.files
  {
    var cc := CommandCtx(c);
    if !monitoringEnabled && !force then ScanRun(1, w, [], [], [])
    else if baseline then BaselineMode(cc, fs, w, failing)
    else ScanMode(cc, fs, w, malwareEnabled, sigs, m, order, failing)
  }

  /** A scan right after a successful baseline finds no changed file: the
      baseline records exactly the hashes the change scan compares
      against. */
  lemma BaselineThenScanFindsNoChanges(c: Ctx, fs: FileSystem, w: World, malwareEnabled: bool,
                                       sigs: seq<Malware.Signature>, m: Malware.Matcher, order: seq<string>)
    requires WellFormedFs(fs)
    requires forall p :: p in w.store || p in fs.files ==> p in order
    ensures var based := Handle(c, fs, w, true, false, true, malwareEnabled, sigs, m, order, None).world;
      && OrderCovers(based.store, order)
      && var r := Handle(c, fs, based, true, false, false, malwareEnabled, sigs, m, order, None);
      r.exitCode == 0 && r.changes == []
  {
    var cc := CommandCtx(c);
    var based := Handle(c, fs, w, true, false, true, malwareEnabled, sigs, m, order, None).world;
    ScannedExist(cc, fs);
    QuietAfterBaseline(cc, fs, ScanState(w.store, w.sink));
  }

  /** A file reported as new or modified in a run still exists, so the
      same run never also reports it deleted. */
  lemma ChangedFilesAreNotDeleted(c: Ctx, fs: FileSystem, w: World, monitoringEnabled: bool, force: bool,
                                  baseline: bool, malwareEnabled: bool, sigs: seq<Malware.Signature>,
                                  m: Malware.Matcher, order: seq<string>, failing: Option<Phase>)
    requires WellFormedFs(fs)
    requires OrderCovers(w.store, order)
    ensures var r := Handle(c, fs, w, monitoringEnabled, force, baseline, malwareEnabled, sigs, m, order, failing);
      forall k :: 0 <= k < |r.changes| ==> r.changes[k].path !in r.deleted
  {
  }
}

=== FILE: security_alert.dfy ===
/** The `SecurityAlert` model's query scopes and its severity colour
    accessor. */
module SecurityAlertModel {
  import opened Domain
  import opened Seqs
  import AlertService

  predicate IsUnresolved(a: Alert) {
    a.status == AlertStatus.New || a.status == AlertStatus.Acknowledged
  }

  /** `scopeUnresolved`: status new or acknowledged. */
  function Unresolved(alerts: seq<Alert>): (r: seq<Alert>)
    ensures forall a :: a in r <==> a in alerts && (a.status == AlertStatus.New || a.status == AlertStatus.Acknowledged)
  {
    Filter(alerts, IsUnresolved)
  }

  /** `scopeCritical`: severity critical. */
  function CriticalAlerts(alerts: seq<Alert>): (r: seq<Alert>)
    ensures forall a :: a in r <==> a in alerts && a.severity == Critical
  {
    Filter(alerts, (a: Alert) => a.severity == Critical)
  }

  /** `scopeRecent`: created no earlier than one day before now; the
      boundary instant itself counts as recent. */
  function Recent(alerts: seq<Alert>, now: nat): (r: seq<Alert>)
    ensures forall a :: a in r <==> a in alerts && a.createdAt + Day >= now
  {
    Filter(alerts, (a: Alert) => a.createdAt as int >= now as int - Day as int)
  }

  /** Every alert is either in the unresolved scope or has been resolved
      or marked a false positive: the scope and its complement partition
      the table. */
  lemma {:induction false} UnresolvedPartition(alerts: seq<Alert>)
    ensures |Unresolved(alerts)|
      + Count(alerts, (a: Alert) => a.status == AlertStatus.Resolved || a.status == AlertStatus.FalsePositive)
      == |alerts|
  {
    var closed := (a: Alert) => a.status == AlertStatus.Resolved || a.status == AlertStatus.FalsePositive;
    if |alerts| > 0 {
      UnresolvedPartition(alerts[1..]);
      assert Filter(alerts, IsUnresolved) == (if IsUnresolved(alerts[0]) then [alerts[0]] else []) + Filter(alerts[1..], IsUnresolved);
      assert Filter(alerts, closed) == (if closed(alerts[0]) then [alerts[0]] else []) + Filter(alerts[1..], closed);
    }
  }

  /** Acknowledging keeps an alert in the unresolved scope; resolving takes
      it out, whatever its status was before. */
  lemma AcknowledgeAndResolveScopes(s: AlertService.Sink, k: nat, actor: string, now: nat)
    requires k < |s.alerts|
    ensures var id := s.alerts[k].id;
      && AlertService.AcknowledgeAlert(s, id, actor, now).1.alerts[k] in Unresolved(AlertService.AcknowledgeAlert(s, id, actor, now).1.alerts)
      && AlertService.ResolveAlert(s, id, actor, now).1.alerts[k] !in Unresolved(AlertService.ResolveAlert(s, id, actor, now).1.alerts)
  {
  }

  /** `getSeverityColorAttribute` over the stored column text. */
  function SeverityColor(severity: string): (r: string)
    ensures r == "secondary" <==> severity !in {"critical", "high", "medium", "low"}
  {
    match severity
    case "critical" => "danger"
    case "high" => "warning"
    case "medium" => "info"
    case "low" => "success"
    case _ => "secondary"
  }

  /** The colour of every level, and distinct levels get distinct colours. */
  lemma SeverityColorOfLevels()
    ensures SeverityColor(LevelName(Critical)) == "danger"
    ensures SeverityColor(LevelName(High)) == "warning"
    ensures SeverityColor(LevelName(Medium)) == "info"
    ensures SeverityColor(LevelName(Low)) == "success"
    ensures forall l1: Level, l2: Level :: l1 != l2 ==> SeverityColor(LevelName(l1)) != SeverityColor(LevelName(l2))
  {
  }
}

=== FILE: seqs.dfy ===
/** Sequence helpers standing in for query-builder `where(...)` filters,
    `count()` and Collection `unique()`. */
module Seqs {

  /** The elements of `xs` that satisfy `p`, in their original order (a
      `where` clause over a table kept in id order). */
  function Filter<T(!new)>(xs: seq<T>, p: T -> bool): (r: seq<T>)
    ensures |r| <= |xs|
    ensures forall x :: x in r <==> x in xs && p(x)
    ensures forall k :: 0 <= k < |r| ==> p(r[k])
  {
    if |xs| == 0 then []
    else (if p(xs[0]) then [xs[0]] else []) + Filter(xs[1..], p)
  }

  /** Filtering distributes over concatenation. */
  lemma {:induction false} FilterConcat<T(!new)>(a: seq<T>, b: seq<T>, p: T -> bool)
    ensures Filter(a + b, p) == Filter(a, p) + Filter(b, p)
  {
    if |a| == 0 {
      assert a + b == b;
    } else {
      assert (a + b)[1..] == a[1..] + b;
      FilterConcat(a[1..], b, p);
    }
  }

  /** A filter whose predicate holds of nothing in `xs` is empty, and one
      that holds of everything keeps `xs` whole. */
  lemma {:induction false} FilterNone<T(!new)>(xs: seq<T>, p: T -> bool)
    requires forall k :: 0 <= k < |xs| ==> !p(xs[k])
    ensures Filter(xs, p) == []
  {
    if |xs| > 0 {
      FilterNone(xs[1..], p);
    }
  }

  lemma {:induction false} FilterAll<T(!new)>(xs: seq<T>, p: T -> bool)
    requires forall k :: 0 <= k < |xs| ==> p(xs[k])
    ensures Filter(xs, p) == xs
  {
    if |xs| > 0 {
      FilterAll(xs[1..], p);
      assert xs == [xs[0]] + xs[1..];
    }
  }

  /** `count()` of a filtered query. */
  function Count<T(!new)>(xs: seq<T>, p: T -> bool): (n: nat)
    ensures n <= |xs|
    ensures n > 0 <==> exists k :: 0 <= k < |xs| && p(xs[k])
  {
    var r := Filter(xs, p);
    assert |r| > 0 ==> p(r[0]) && r[0] in xs;
    |r|
  }

  lemma CountConcat<T(!new)>(a: seq<T>, b: seq<T>, p: T -> bool)
    ensures Count(a + b, p) == Count(a, p) + Count(b, p)
  {
    FilterConcat(a, b, p);
  }

  /** Filtering twice by the same predicate is filtering once. */
  lemma FilterIdempotent<T(!new)>(xs: seq<T>, p: T -> bool)
    ensures Filter(Filter(xs, p), p) == Filter(xs, p)
  {
    FilterAll(Filter(xs, p), p);
  }

  /** A subset is no larger than its superset. */
  lemma CardinalityMono<T>(a: set<T>, b: set<T>)
    requires a <= b
    ensures |a| <= |b|
  {
    assert b == a + (b - a);
  }

  /** The positions of `xs` whose element satisfies `p`. */
  function Positions<T>(xs: seq<T>, p: T -> bool): set<int> {
    set k | 0 <= k < |xs| && p(xs[k])
  }

  /** `count()` is the number of matching rows. */
  lemma {:induction false} CountPositions<T(!new)>(xs: seq<T>, p: T -> bool)
    ensures Count(xs, p) == |Positions(xs, p)|
    decreases |xs|
  {
    if |xs| > 0 {
      var init := xs[..|xs| - 1];
      var last := xs[|xs| - 1];
      assert xs == init + [last];
      CountPositions(init, p);
      CountSnoc(init, last, p);
      PositionsSnoc(init, last, p);
      var tail := if p(last) then {|init|} else {};
      assert Positions(init, p) !! tail;
    }
  }

  lemma CountSnoc<T(!new)>(init: seq<T>, last: T, p: T -> bool)
    ensures Count(init + [last], p) == Count(init, p) + (if p(last) then 1 else 0)
  {
    CountConcat(init, [last], p);
    assert Filter([last], p) == (if p(last) then [last] else []) + Filter([last][1..], p);
  }

  lemma PositionsSnoc<T>(init: seq<T>, last: T, p: T -> bool)
    ensures Positions(init + [last], p) == Positions(init, p) + (if p(last) then {|init|} else {})
  {
    var xs := init + [last];
    forall k | 0 <= k < |init| ensures xs[k] == init[k] { }
    assert xs[|init|] == last;
  }

  /** Counting two predicates that never hold together is counting their
      disjunction `pq`. */
  lemma {:induction false} CountDisjoint<T(!new)>(xs: seq<T>, p: T -> bool, q: T -> bool, pq: T -> bool)
    requires forall x :: !(p(x) && q(x))
    requires forall x :: pq(x) == (p(x) || q(x))
    ensures Count(xs, p) + Count(xs, q) == Count(xs, pq)
  {
    if |xs| > 0 {
      CountDisjoint(xs[1..], p, q, pq);
      assert Filter(xs, p) == (if p(xs[0]) then [xs[0]] else []) + Filter(xs[1..], p);
      assert Filter(xs, q) == (if q(xs[0]) then [xs[0]] else []) + Filter(xs[1..], q);
      assert Filter(xs, pq) == (if pq(xs[0]) then [xs[0]] else []) + Filter(xs[1..], pq);
    }
  }

  /** A count under a weaker predicate is at least as large. */
  lemma {:induction false} CountMono<T(!new)>(xs: seq<T>, p: T -> bool, q: T -> bool)
    requires forall x :: p(x) ==> q(x)
    ensures Count(xs, p) <= Count(xs, q)
  {
    if |xs| > 0 {
      CountMono(xs[1..], p, q);
      assert Filter(xs, p) == (if p(xs[0]) then [xs[0]] else []) + Filter(xs[1..], p);
      assert Filter(xs, q) == (if q(xs[0]) then [xs[0]] else []) + Filter(xs[1..], q);
    }
  }

  predicate Distinct<T(==)>(xs: seq<T>) {
    forall i, j :: 0 <= i < j < |xs| ==> xs[i] != xs[j]
  }

  /** Collection `unique()`: every value of `xs`, each exactly once. The
      order of the result is not part of this contract. */
  function Dedup<T(==,!new)>(xs: seq<T>): (r: seq<T>)
    ensures forall x :: x in r <==> x in xs
    ensures Distinct(r)
  {
    if |xs| == 0 then []
    else
      var rest := Dedup(xs[..|xs| - 1]);
      var last := xs[|xs| - 1];
      assert xs == xs[..|xs| - 1] + [last];
      if last in rest then rest else rest + [last]
  }

  /** Concatenation regroups freely; stated as a lemma so that a caller
      can use it without the solver searching for it. */
  lemma ConcatAssoc<T>(a: seq<T>, b: seq<T>, c: seq<T>)
    ensures (a + b) + c == a + (b + c)
  {
  }
}

=== FILE: strings.dfy ===
/** The PHP string primitives the core relies on, over `seq<char>`:
    `str_starts_with`, `str_contains`, `explode("\n", ...)`, `basename`,
    `pathinfo(..., PATHINFO_EXTENSION)`, `substr($s, -n)`, `strtoupper`,
    integer-to-decimal conversion and PHP truthiness of strings. */
module Strings {

  /** `str_starts_with`: a raw character prefix, with no separator check. */
  predicate StartsWith(s: string, prefix: string) {
    |prefix| <= |s| && s[..|prefix|] == prefix
  }

  /** `s` ends with `suffix`. */
  predicate EndsWith(s: string, suffix: string) {
    |suffix| <= |s| && s[|s| - |suffix|..] == suffix
  }

  /** `needle` occurs in `hay` starting at offset `i`. */
  predicate OccursAt(hay: string, needle: string, i: int) {
    0 <= i && i + |needle| <= |hay| && hay[i..i + |needle|] == needle
  }

  lemma OccursAtShift(hay: string, needle: string, i: int)
    requires |hay| > 0 && 0 <= i
    ensures OccursAt(hay[1..], needle, i) <==> OccursAt(hay, needle, i + 1)
  {
    if 0 <= i && i + |needle| <= |hay| - 1 {
      assert hay[1..][i..i + |needle|] == hay[i + 1..i + 1 + |needle|];
    }
  }

  /** `str_contains`, computed by trying every offset from the left; it
      holds exactly when the needle occurs somewhere (the empty needle
      occurs everywhere, as in PHP 8). */
  function Contains(hay: string, needle: string): (r: bool)
    ensures r <==> exists i :: OccursAt(hay, needle, i)
    decreases |hay|
  {
    if StartsWith(hay, needle) then
      assert OccursAt(hay, needle, 0);
      true
    else if |hay| == 0 then
      false
    else
      var rest := Contains(hay[1..], needle);
      assert rest <==> exists i :: OccursAt(hay, needle, i) by {
        forall i | OccursAt(hay[1..], needle, i)
          ensures OccursAt(hay, needle, i + 1)
        {
          OccursAtShift(hay, needle, i);
        }
        forall j | OccursAt(hay, needle, j)
          ensures OccursAt(hay[1..], needle, j - 1)
        {
          assert j != 0;
          OccursAtShift(hay, needle, j - 1);
        }
      }
      rest
  }

  /** A needle that occurs at offset `i` is contained in the haystack. */
  lemma OccurrenceIsContained(hay: string, needle: string, i: int)
    requires OccursAt(hay, needle, i)
    ensures Contains(hay, needle)
  {
  }

  /** Containment is transitive: a needle inside a piece of the haystack
      is inside the haystack. */
  lemma ContainsTransitive(hay: string, mid: string, needle: string)
    requires Contains(hay, mid) && Contains(mid, needle)
    ensures Contains(hay, needle)
  {
    var i :| OccursAt(hay, mid, i);
    var j :| OccursAt(mid, needle, j);
    assert mid == hay[i..i + |mid|];
    forall t | 0 <= t < |needle| ensures hay[i + j + t] == needle[t] {
      assert needle[t] == mid[j + t];
    }
    assert hay[i + j..i + j + |needle|] == needle;
    assert OccursAt(hay, needle, i + j);
  }

  /** Index of the first occurrence of character `c`. */
  function IndexOf(s: string, c: char): (i: nat)
    requires c in s
    ensures i < |s| && s[i] == c
    ensures c !in s[..i]
  {
    if s[0] == c then 0
    else
      var k := IndexOf(s[1..], c);
      assert s[..k + 1] == [s[0]] + s[1..][..k];
      k + 1
  }

  /** Index of the last occurrence of character `c`. */
  function LastIndexOf(s: string, c: char): (i: nat)
    requires c in s
    ensures i < |s| && s[i] == c
    ensures c !in s[i + 1..]
  {
    if s[|s| - 1] == c then |s| - 1
    else
      assert c in s[..|s| - 1] by {
        var j :| 0 <= j < |s| && s[j] == c;
        assert s[..|s| - 1][j] == c;
      }
      var k := LastIndexOf(s[..|s| - 1], c);
      assert s[k + 1..] == s[..|s| - 1][k + 1..] + [s[|s| - 1]];
      k
  }

  /** The pieces joined back together with the separator (`implode`). */
  function Join(parts: seq<string>, sep: char): string
    requires |parts| >= 1
  {
    if |parts| == 1 then parts[0] else parts[0] + [sep] + Join(parts[1..], sep)
  }

  /** `explode($sep, $s)`: the maximal separator-free pieces, in order;
      joining them with the separator gives back the input. */
  function Split(s: string, sep: char): (r: seq<string>)
    ensures |r| >= 1
    ensures forall k :: 0 <= k < |r| ==> sep !in r[k]
    ensures Join(r, sep) == s
    decreases |s|
  {
    if sep !in s then [s]
    else
      var i := IndexOf(s, sep);
      var rest := Split(s[i + 1..], sep);
      assert s == s[..i] + [sep] + s[i + 1..];
      [s[..i]] + rest
  }

  /** The other half of the round trip: splitting a join of separator-free
      pieces gives the pieces back. */
  lemma {:induction false} SplitJoin(parts: seq<string>, sep: char)
    requires |parts| >= 1
    requires forall k :: 0 <= k < |parts| ==> sep !in parts[k]
    ensures Split(Join(parts, sep), sep) == parts
  {
    if |parts| > 1 {
      var tail := Join(parts[1..], sep);
      FirstSeparator(parts[0], sep, tail);
      SplitJoin(parts[1..], sep);
      assert Split(parts[0] + [sep] + tail, sep) == [parts[0]] + Split(tail, sep);
      assert parts == [parts[0]] + parts[1..];
    }
  }

  /** In a separator-free piece followed by the separator, the first
      separator is the one after the piece. */
  lemma FirstSeparator(piece: string, sep: char, tail: string)
    requires sep !in piece
    ensures var s := piece + [sep] + tail;
      && sep in s && IndexOf(s, sep) == |piece|
      && s[..|piece|] == piece && s[|piece| + 1..] == tail
  {
    var s := piece + [sep] + tail;
    assert s[|piece|] == sep;
    assert s[..|piece|] == piece;
    assert s[|piece| + 1..] == tail;
  }

  /** `substr($s, -n)`: the last `n` characters, or all of `s` when it is
      shorter. */
  function LastN(s: string, n: nat): (r: string)
    ensures |r| == if |s| <= n then |s| else n
    ensures s == s[..|s| - |r|] + r
  {
    if |s| <= n then s else s[|s| - n..]
  }

  /** `basename` of a file path: the text after the last `/`. */
  function Basename(path: string): (r: string)
    ensures '/' !in r
    ensures EndsWith(path, r)
    ensures |r| < |path| ==> path[|path| - |r| - 1] == '/'
  {
    if '/' !in path then path else path[LastIndexOf(path, '/') + 1..]
  }

  /** `pathinfo($p, PATHINFO_EXTENSION)`: the text after the last `.` of
      the basename, or empty when the basename has no `.`. */
  function Extension(path: string): (r: string)
    ensures '.' !in r
    ensures '.' in Basename(path) ==> EndsWith(Basename(path), ['.'] + r)
    ensures '.' !in Basename(path) ==> r == ""
  {
    var b := Basename(path);
    if '.' !in b then ""
    else
      var i := LastIndexOf(b, '.');
      var ext := b[i + 1..];
      assert b[|b| - |ext| - 1..] == ['.'] + ext;
      ext
  }

  /** `strtoupper` on ASCII letters (PHP 8 is locale-insensitive). */
  function UpperChar(c: char): char {
    if 'a' <= c <= 'z' then (c as int - 32) as char else c
  }

  function ToUpper(s: string): (r: string)
    ensures |r| == |s|
    ensures forall k :: 0 <= k < |s| ==> r[k] == UpperChar(s[k])
  {
    if |s| == 0 then [] else [UpperChar(s[0])] + ToUpper(s[1..])
  }

  /** PHP truthiness of a string: only `""` and `"0"` are falsy (so
      `empty($s)` is its negation). */
  predicate Truthy(s: string) {
    s != "" && s != "0"
  }

  function DigitChar(d: nat): (c: char)
    requires d < 10
    ensures '0' <= c <= '9'
  {
    ('0' as int + d) as char
  }

  function DigitValue(c: char): nat
    requires '0' <= c <= '9'
  {
    c as int - '0' as int
  }

  /** Decimal rendering of a natural number, as PHP's string
      concatenation renders an int. */
  function NatToString(n: nat): (r: string)
    ensures |r| >= 1
    ensures forall k :: 0 <= k < |r| ==> '0' <= r[k] <= '9'
    ensures n >= 10 ==> r[0] != '0'
  {
    if n < 10 then [DigitChar(n)] else NatToString(n / 10) + [DigitChar(n % 10)]
  }

  function ParseDigits(s: string): nat
    requires forall k :: 0 <= k < |s| ==> '0' <= s[k] <= '9'
  {
    if |s| == 0 then 0 else 10 * ParseDigits(s[..|s| - 1]) + DigitValue(s[|s| - 1])
  }

  /** Reading the digits back gives the number: the rendering is
      faithful. */
  lemma {:induction false} NatToStringRoundTrip(n: nat)
    ensures ParseDigits(NatToString(n)) == n
  {
    if n >= 10 {
      var r := NatToString(n);
      assert r[..|r| - 1] == NatToString(n / 10);
      NatToStringRoundTrip(n / 10);
    }
  }
}

=== FILE: threat_level.dfy ===
/** The dashboard's threat-level indicator (`ThreatLevelWidget`): one
    overall level derived from the open alerts and the malware found in
    the last day. */
module ThreatLevel {
  import opened Domain
  import opened Seqs
  import AlertService

  datatype Threat = LowThreat | MediumThreat | HighThreat | CriticalThreat {
    function Label(): string {
      match this
      case LowThreat => "LOW"
      case MediumThreat => "MEDIUM"
      case HighThreat => "HIGH"
      case CriticalThreat => "CRITICAL"
    }

    function Color(): string {
      match this
      case LowThreat => "green"
      case MediumThreat => "yellow"
      case HighThreat => "orange"
      case CriticalThreat => "red"
    }

    function Description(): string {
      match this
      case LowThreat => "All systems operating normally"
      case MediumThreat => "Some alerts require attention"
      case HighThreat => "Monitor system closely"
      case CriticalThreat => "Immediate action required"
    }

    /** The order of the levels. */
    function Rank(): nat {
      match this
      case LowThreat => 0
      case MediumThreat => 1
      case HighThreat => 2
      case CriticalThreat => 3
    }
  }

  /** What the widget hands to its view. */
  datatype ThreatView = ThreatView(
    level: Threat,
    threatLevel: string,
    color: string,
    description: string,
    criticalCount: nat,
    highCount: nat,
    malwareCount: nat)

  predicate IsNewWithSeverity(a: Alert, l: Level) {
    a.status == AlertStatus.New && a.severity == l
  }

  /** A detection still in status detected, created within the last day. */
  predicate IsRecentMalware(d: Detection, now: nat) {
    d.status == Detected && d.createdAt as int >= now as int - Day as int
  }

  /** The widget's alert query for one severity, as a row filter. */
  function NewWithSeverity(l: Level): Alert -> bool {
    (a: Alert) => IsNewWithSeverity(a, l)
  }

  /** The widget's malware query, as a row filter. */
  function RecentMalwareAt(now: nat): Detection -> bool {
    (d: Detection) => IsRecentMalware(d, now)
  }

  predicate SomeNewWithSeverity(alerts: seq<Alert>, l: Level) {
    exists k :: 0 <= k < |alerts| && IsNewWithSeverity(alerts[k], l)
  }

  predicate SomeNew(alerts: seq<Alert>) {
    exists k :: 0 <= k < |alerts| && alerts[k].status == AlertStatus.New
  }

  predicate SomeRecentMalware(detections: seq<Detection>, now: nat) {
    exists k :: 0 <= k < |detections| && IsRecentMalware(detections[k], now)
  }

  /** `getViewData`. The level is critical when a new critical alert or a
      recent detected malware row exists; otherwise high when a new high
      alert exists; otherwise medium when any alert is new; otherwise low.
      Acknowledged alerts do not count at all. The three counts handed to
      the view are the numbers of rows the three queries select. */
  function ViewData(alerts: seq<Alert>, detections: seq<Detection>, now: nat): (r: ThreatView)
    ensures r.level == CriticalThreat <==>
      SomeNewWithSeverity(alerts, Critical) || SomeRecentMalware(detections, now)
    ensures r.level == HighThreat <==>
      !SomeNewWithSeverity(alerts, Critical) && !SomeRecentMalware(detections, now)
      && SomeNewWithSeverity(alerts, High)
    ensures r.level == MediumThreat <==>
      !SomeRecentMalware(detections, now) && SomeNew(alerts)
      && !SomeNewWithSeverity(alerts, Critical) && !SomeNewWithSeverity(alerts, High)
    ensures r.level == LowThreat <==> !SomeNew(alerts) && !SomeRecentMalware(detections, now)
    ensures r.threatLevel == r.level.Label() && r.color == r.level.Color()
      && r.description == r.level.Description()
    ensures r.criticalCount == |Positions(alerts, NewWithSeverity(Critical))|
    ensures r.highCount == |Positions(alerts, NewWithSeverity(High))|
    ensures r.malwareCount == |Positions(detections, RecentMalwareAt(now))|
    ensures r.criticalCount <= |alerts| && r.highCount <= |alerts| && r.malwareCount <= |detections|
  {
    var critical := Count(alerts, NewWithSeverity(Critical));
    var high := Count(alerts, NewWithSeverity(High));
    var malware := Count(detections, RecentMalwareAt(now));
    CountPositions(alerts, NewWithSeverity(Critical));
    CountPositions(alerts, NewWithSeverity(High));
    CountPositions(detections, RecentMalwareAt(now));
    var anyNew := Count(alerts, (a: Alert) => a.status == AlertStatus.New);
    var level :=
      if critical > 0 || malware > 0 then CriticalThreat
      else if high > 0 then HighThreat
      else if high > 0 || anyNew > 0 then MediumThreat
      else LowThreat;
    ThreatView(level, level.Label(), level.Color(), level.Description(), critical, high, malware)
  }

  /** The level only depends on which of the four findings exist, and
      more findings never give a lower level. */
  lemma RankMonotone(a1: seq<Alert>, d1: seq<Detection>, a2: seq<Alert>, d2: seq<Detection>, now: nat)
    requires SomeNewWithSeverity(a1, Critical) ==> SomeNewWithSeverity(a2, Critical)
    requires SomeNewWithSeverity(a1, High) ==> SomeNewWithSeverity(a2, High)
    requires SomeNew(a1) ==> SomeNew(a2)
    requires SomeRecentMalware(d1, now) ==> SomeRecentMalware(d2, now)
    ensures ViewData(a1, d1, now).level.Rank() <= ViewData(a2, d2, now).level.Rank()
  {
  }

  /** A new alert or a new detection never lowers the level. */
  lemma MoreFindingsNeverLower(alerts: seq<Alert>, detections: seq<Detection>, a: Alert, d: Detection, now: nat)
    ensures ViewData(alerts, detections, now).level.Rank() <= ViewData(alerts + [a], detections, now).level.Rank()
    ensures ViewData(alerts, detections, now).level.Rank() <= ViewData(alerts, detections + [d], now).level.Rank()
  {
    var a2 := alerts + [a];
    var d2 := detections + [d];
    assert forall k :: 0 <= k < |alerts| ==> a2[k] == alerts[k];
    assert forall k :: 0 <= k < |detections| ==> d2[k] == detections[k];
    RankMonotone(alerts, detections, a2, detections, now);
    RankMonotone(alerts, detections, alerts, d2, now);
  }

  /** Resolving an alert never raises the level. */
  lemma ResolvingNeverRaises(s: AlertService.Sink, id: nat, actor: string, detections: seq<Detection>, now: nat)
    ensures var after := AlertService.ResolveAlert(s, id, actor, now).1.alerts;
      ViewData(after, detections, now).level.Rank() <= ViewData(s.alerts, detections, now).level.Rank()
  {
    var after := AlertService.ResolveAlert(s, id, actor, now).1.alerts;
    assert forall k :: 0 <= k < |after| && after[k].status == AlertStatus.New ==> after[k] == s.alerts[k];
    assert SomeNewWithSeverity(after, Critical) ==> SomeNewWithSeverity(s.alerts, Critical);
    assert SomeNewWithSeverity(after, High) ==> SomeNewWithSeverity(s.alerts, High);
    assert SomeNew(after) ==> SomeNew(s.alerts);
    RankMonotone(after, detections, s.alerts, detections, now);
  }
}

=== FILE: wrappers.dfy ===
/** The optional value used for nullable columns, cache lookups and
    PHP's `?array` / `?string` returns. */
module Wrappers {

  datatype Option<+T> = None | Some(value: T) {

    /** The wrapped value, or `default` when there is none (PHP's `??`). */
    function GetOr(default: T): (r: T)
      ensures Some? ==> r == value
      ensures None? ==> r == default
    {
      match this
      case Some(v) => v
      case None => default
    }
  }
}
